=== FILE: README.md ===
# RawGtfs in Dafny

This project models the in-memory GTFS store of the RawGtfs library: the class
`RawGtfs` and its CSV exporter `ExportationHelper`.

`RawGtfs` keeps one table for each file of a GTFS feed:

- `stops`, `routes`, `trips`, `calendars` and `shapePoints` are single-key tables, each indexed by the file's identifier.
- `stopTimes` is a two-level table: by `trip_id`, then by `stop_sequence`.
- `calendarDates` is a two-level table: by `service_id`, then by `date`.
- The agencies are kept according to their cardinality: none, one, or several indexed by `agency_id`.
- The feed info is a single record.

Every operation of the class updates one of these tables in place. The exporter
turns each table into the text of a CSV file and collects the files by file name.

The model has these parts:

- **`OrderedMaps`**: a JavaScript `Map`, that is a finite map together with its insertion order. `values()` lists the values in that order; re-setting a present key keeps its place, and deleting a key drops it from the order.
- **`GtfsSchema`**: the schema. It holds the field lists of every file, the file names, and the record type (field name to value, an absent field being JavaScript `undefined`).
- **`Indexing`**: the single-key tables and `indexByOneKey`. It also holds `Rekey`, shared by the "update id" operations, which delete the old key and set the new one.
- **`Grouped`**: the two-level tables and `indexByTwoKeys`, with:
  - set and delete of one record;
  - moving a whole group to a new outer key;
  - moving one record to a new inner key;
  - counting and flattening.
- **`Agencies`**: the agency cardinality as one value (`Absent`, `Singleton`, `Multiple`), with the source's transitions and errors.
- **`Decimal`** and **`StopTimeOrder`**:
  - `Number(stop_sequence)` on decimal strings;
  - the stable sort that `Array.prototype.sort` performs;
  - the renumbering done by `reindexStopTimesOfTripId`.
- **`RawGtfsStore`**: the class `RawGtfs`. Its fields are the tables; its methods carry `modifies` clauses and a `Valid()` invariant (every table a valid ordered map, every record of the stops, routes, calendars and shape points under its own id, the two-level tables well formed; trips are not required to sit under their own `trip_id`, since a trip re-keyed without rewriting keeps the old one); its getters are functions that read the object.
- **`ExportationHelper`**: `escapeValue`, `convertArrayOfItemsToCsv` and `buildFilesByFileName`.
- **`CsvReading`**: a small CSV reader. It is the inverse the exported text is proved against: every exported file reads back as its header followed by one row per record, each cell holding the record's value for that column.

The model follows the code in these behaviours, which a reader might expect otherwise:

- **Exported files:** `buildFilesByFileName` emits exactly eight files; there is no `shapes.txt` (`BuildFilesByFileName` states the exact set of file names).
- **Calendar date count:** `getNumberOfCalendarDates` returns the number of services that have calendar dates, not the number of calendar dates (`GetNumberOfCalendarDates`, `CalendarDatesCountServices`).
- **Trip id update:** `updateTripIdWithoutUpdatingReferences` moves the trip to the new key but leaves its `trip_id` field unchanged (`UpdateTripKeepsOldTripId`).
- **Trailing line feed:** a file with no record ends in a line feed after the header, while a non-empty one does not end in a line feed (`ConvertArrayOfItemsToCsv`, `NoTrailingLineFeed`).

## Model

| member | source | states |
|---|---|---|
| OrderedMaps.Empty | source/RawGtfs.ts:646-648 | `new Map()` is valid, has size 0 and holds no key |
| OrderedMaps.Set | source/RawGtfs.ts:191 | `map.set(k, v)`: k now maps to v and every other key is unchanged; the size grows by one exactly when k was new; a new key goes to the end of the order, and a present key keeps its place |
| OrderedMaps.Delete | source/RawGtfs.ts:217 | `map.delete(k)`: k maps to nothing, every other key is unchanged, and the size drops by one exactly when k was present; deleting an absent key changes nothing |
| OrderedMaps.Values | source/RawGtfs.ts:203 | `Array.from(map.values())` has one entry per key, and its j-th entry is the value of the j-th key in insertion order |
| OrderedMaps.RemoveKey | source/RawGtfs.ts:209 | removing a key from the order keeps exactly the other keys |
| OrderedMaps.RemoveKeyDistinct | source/RawGtfs.ts:209 | removing a key keeps the order free of duplicates |
| OrderedMaps.RemoveKeyAt | source/RawGtfs.ts:209 | removing the key at position i leaves the order without position i |
| OrderedMaps.RemoveAbsentKey | source/RawGtfs.ts:217 | removing an absent key leaves the order unchanged |
| OrderedMaps.SetNewValues | source/RawGtfs.ts:191 | setting a new key appends its value to `values()` |
| OrderedMaps.SetPresentValues | source/RawGtfs.ts:191 | re-setting the key at position i replaces the i-th value in place |
| OrderedMaps.DeleteValues | source/RawGtfs.ts:217 | deleting the key at position i removes the i-th key and the i-th value and keeps the others in order |
| OrderedMaps.DeleteKeys | source/RawGtfs.ts:217 | deleting the key at position i removes exactly position i from the key order |
| OrderedMaps.RekeySize | source/RawGtfs.ts:207-213 | deleting a key and setting a fresh (or the same) key keeps the size |
| OrderedMaps.GetListed | source/RawGtfs.ts:195 | `get(k)` finds a value exactly when k is in the key order |
| OrderedMaps.SizeCountsKeys | source/RawGtfs.ts:199 | `map.size` is the number of distinct keys present |
| OrderedMaps.SetTwice | source/RawGtfs.ts:191 | setting a key twice is the same as setting it once to the last value |
| OrderedMaps.ValuesMembers | source/RawGtfs.ts:203 | a value is listed by `values()` exactly when some key maps to it |
| Indexing.KeysOf | source/RawGtfs.ts:646-654 | the keys of a list of records, one per record, in list order |
| Indexing.SetAll | source/RawGtfs.ts:650-653 | setting a list of records one after another keeps the map valid and adds at most one key per record |
| Indexing.SetAllSnoc | source/RawGtfs.ts:423-427 | setting the first k+1 records is setting the first k and then the (k+1)-th |
| Indexing.IndexByOneKey | source/RawGtfs.ts:646-654 | `indexByOneKey` returns a valid map |
| Indexing.LastWithKey | source/RawGtfs.ts:650-653 | the last record of the list carrying a given key: it belongs to the list and has that key, and there is none exactly when no record has the key |
| Indexing.SetAllGet | source/RawGtfs.ts:650-653 | after setting a list, a key maps to the last record of the list with that key, or to its former value when the list has no such record |
| Indexing.SetAllKeyed | source/RawGtfs.ts:423-427 | setting a list keeps every record under its own key |
| Indexing.IndexByOneKeyKeyed | source/RawGtfs.ts:646-654 | `indexByOneKey` stores every record under its own key |
| Indexing.IndexByOneKeyHas | source/RawGtfs.ts:646-654 | the index finds a key exactly when some record of the list carries it |
| Indexing.LastKeyIsNew | source/RawGtfs.ts:650-653 | with distinct keys, the last record's key occurs in no earlier record |
| Indexing.SetAllFresh | source/RawGtfs.ts:650-653 | setting records with distinct, fresh keys appends their keys and the records themselves, in list order |
| Indexing.SnocParts | source/RawGtfs.ts:650-653 | a non-empty list and its keys split into the prefix and the last record |
| Indexing.IndexByOneKeyValues | source/RawGtfs.ts:646-654 | with distinct keys, `Array.from(indexByOneKey(items).values())` is `items` |
| Indexing.ListingKeys | source/RawGtfs.ts:202-204 | the listed values of a table keyed by a field carry exactly the table's keys, and each is found under its own key |
| Indexing.Rekey | source/RawGtfs.ts:206-214 | the "update id" operations (delete the old key, set the new one, rewriting the id field or not) keep the map valid |
| Indexing.RekeyGet | source/RawGtfs.ts:206-214 | with an unknown old id nothing changes; otherwise the new id maps to the record (with its id field rewritten when asked), the old id maps to nothing when the ids differ, and every other key is unchanged |
| Indexing.RekeyKeyed | source/RawGtfs.ts:206-214 | re-keying with a rewritten id keeps every record under its own key |
| Indexing.RekeyMovesToEnd | source/RawGtfs.ts:206-214 | re-keying to a fresh id keeps the size and moves the record from its place to the end of `values()` |
| Grouped.GroupOf | source/RawGtfs.ts:311-313 | the group under an outer key is a valid map, and it is empty when the outer key is absent |
| Grouped.GroupValues | source/RawGtfs.ts:311-313 | `buildArrayOfStopTimesOfTripId` lists one record per inner key of the group, in order, each found under its key |
| Grouped.SetIn | source/RawGtfs.ts:290-299 | `setStopTime`: the record is found under its two keys and every other pair of keys is unchanged |
| Grouped.SetInSteps | source/RawGtfs.ts:293-298 | creating the group when it is missing and then setting the record into it equals `SetIn` |
| Grouped.DeleteIn | source/RawGtfs.ts:388-397 | `deleteStopTimeWithoutDeletingReferences` keeps the two-level map valid |
| Grouped.DeleteInLookup | source/RawGtfs.ts:388-397 | after the delete, the record's pair of keys finds nothing and every other pair is unchanged |
| Grouped.SetInWellFormed | source/RawGtfs.ts:290-299 | setting a record keeps every group non-empty and every record under both of its keys |
| Grouped.SetRecordWellFormed | source/RawGtfs.ts:298 | setting a record into a group of its own outer key keeps the group well formed |
| Grouped.SetGroupWellFormed | source/RawGtfs.ts:298 | putting a well-formed group under its key keeps the table well formed |
| Grouped.DeleteInWellFormed | source/RawGtfs.ts:388-397 | deleting a record keeps the table well formed: a group left empty is removed (lines 394-396) |
| Grouped.DeleteGroupWellFormed | source/RawGtfs.ts:399-401 | deleting a whole group keeps the table well formed |
| Grouped.DeleteInPlaceValid | source/RawGtfs.ts:393 | deleting inside a group keeps the two-level map valid |
| Grouped.SumAppend | source/RawGtfs.ts:331-339 | the sum of group sizes is additive over concatenation |
| Grouped.SumRemove | source/RawGtfs.ts:331-339 | removing one size from the list lowers the sum by that size |
| Grouped.SumUpdate | source/RawGtfs.ts:331-339 | replacing one size changes the sum by the difference |
| Grouped.Sizes | source/RawGtfs.ts:334-336 | one size per group, in key order |
| Grouped.ReplaceGroupCount | source/RawGtfs.ts:331-339 | replacing a group changes the record count by the difference of the group sizes |
| Grouped.AddGroupCount | source/RawGtfs.ts:331-339 | adding a group under a new key adds its size to the record count |
| Grouped.RemoveGroupCount | source/RawGtfs.ts:399-401 | removing a group subtracts its size from the record count |
| Grouped.SetInCount | source/RawGtfs.ts:290-299 | setting a record adds one record exactly when its pair of keys was free |
| Grouped.DeleteInCount | source/RawGtfs.ts:388-397 | deleting removes one record exactly when its pair of keys was taken |
| Grouped.ConcatMembers | source/RawGtfs.ts:341-357 | a record is in the concatenation exactly when it is in one of the lists |
| Grouped.ConcatLength | source/RawGtfs.ts:341-357 | the concatenation is as long as the sum of the lengths |
| Grouped.Listings | source/RawGtfs.ts:341-357 | one list of records per group, in key order |
| Grouped.FlattenLength | source/RawGtfs.ts:331-357 | `buildArrayOfStopTimes` returns as many records as `getNumberOfStopTimes` counts |
| Grouped.FlattenMembers | source/RawGtfs.ts:341-357 | a record is exported exactly when some pair of keys finds it |
| Grouped.CountRecords | source/RawGtfs.ts:331-339 | the counting loop returns the number of records, which is also the length of the flattened list |
| Grouped.PushGroup | source/RawGtfs.ts:345-354 | the inner loop appends the group's records in order |
| Grouped.ConcatStep | source/RawGtfs.ts:343-354 | the outer loop's accumulator plus the remaining groups is invariant |
| Grouped.CollectRecords | source/RawGtfs.ts:341-357 | the nested loops return the groups' records, group after group in key order |
| Grouped.SetEach | source/RawGtfs.ts:301-305 | `setStopTimes` keeps the two-level map valid |
| Grouped.SetEachSnoc | source/RawGtfs.ts:301-305 | setting the first k+1 records is setting the first k and then the (k+1)-th |
| Grouped.IndexByTwoKeys | source/RawGtfs.ts:656-669 | `indexByTwoKeys` returns a valid two-level map |
| Grouped.LastWithKeys | source/RawGtfs.ts:660-667 | the last record of a list with a given pair of keys: it belongs to the list and has both keys, and there is none exactly when no record has both |
| Grouped.SetEachLookup | source/RawGtfs.ts:301-305 | after setting a list, a pair of keys finds the last record of the list with those keys, or its former record |
| Grouped.SetEachWellFormed | source/RawGtfs.ts:301-305 | setting a list keeps the table well formed |
| Grouped.IndexByTwoKeysWellFormed | source/RawGtfs.ts:656-669 | `indexByTwoKeys` gives non-empty groups holding every record under both of its keys |
| Grouped.SetEachOneGroup | source/RawGtfs.ts:366-371 | setting records that share one outer key only changes that key's group |
| Grouped.LastWithKeysUnique | source/RawGtfs.ts:660-667 | the only record of a list with a given pair of keys is the last one with those keys |
| Grouped.Retag | source/RawGtfs.ts:369 | writing a new outer value into every record keeps their number |
| Grouped.RetagLast | source/RawGtfs.ts:366-371 | the retagged records of one group hold, under the new outer key, exactly the group's records with their field rewritten |
| Grouped.MoveGroup | source/RawGtfs.ts:359-373 | `updateStopTimesTripIdWithoutUpdatingReferences` keeps the two-level map valid |
| Grouped.MoveGroupTarget | source/RawGtfs.ts:359-373 | each record of the old group is found under the new trip id with its `trip_id` rewritten; a stop sequence the old group lacks keeps what the new trip id held, or nothing when the ids are equal |
| Grouped.MoveGroupSource | source/RawGtfs.ts:362-364 | with different ids, the old trip id finds nothing afterwards |
| Grouped.MoveGroupOthers | source/RawGtfs.ts:359-373 | every other trip id is unchanged |
| Grouped.MoveGroupWellFormed | source/RawGtfs.ts:359-373 | moving a group keeps the table well formed |
| Grouped.RetagKeys | source/RawGtfs.ts:366-371 | the retagged records keep the group's inner keys, in order |
| Grouped.MoveGroupFresh | source/RawGtfs.ts:359-373 | moving to a fresh id keeps the record count, moves the key to the end of the order, and lists the old group's records, retagged, in their order |
| Grouped.MoveGroupFreshValues | source/RawGtfs.ts:366-371 | re-indexing the retagged records lists them unchanged |
| Grouped.MoveGroupFreshCount | source/RawGtfs.ts:359-373 | replacing a group by one of the same size under a fresh key keeps the record count |
| Grouped.MoveGroupFreshForm | source/RawGtfs.ts:359-373 | for a fresh id, the move is the deletion of the old key followed by the new group under the new key |
| Grouped.MoveRecord | source/RawGtfs.ts:375-386 | `updateStopTimeStopSequenceWithoutUpdatingReferences` keeps the two-level map valid |
| Grouped.MoveRecordLookup | source/RawGtfs.ts:375-386 | an unknown record leaves the table unchanged; otherwise the record is found under its new stop sequence with the field rewritten, the old one finds nothing when they differ, every other pair is unchanged, and the table stays well formed |
| Grouped.MoveRecordForm | source/RawGtfs.ts:381-383 | the move is the group with the old key deleted and the rewritten record set |
| Grouped.SetInPlaceLookup | source/RawGtfs.ts:383 | putting a group under an outer key changes only the lookups under that key |
| Grouped.DeleteRecordKeyed | source/RawGtfs.ts:381 | deleting from a well-formed group keeps its records under their own keys and their outer value |
| Grouped.MoveRecordWellFormed | source/RawGtfs.ts:375-386 | moving a record keeps the table well formed |
| Grouped.MoveRecordCount | source/RawGtfs.ts:375-386 | moving a record to a free stop sequence keeps the record count |
| Agencies.InitialAgencies | source/RawGtfs.ts:56-65 | no agency, one or several give the cardinalities Absent, Singleton and Multiple, and the result is valid |
| Agencies.SetAgency | source/RawGtfs.ts:80-111 | a successful `setAgency` leaves a valid agency store; an empty store becomes the single new agency, and a single agency with the same id is replaced by the new one |
| Agencies.UpdateAgency | source/RawGtfs.ts:164-184 | a successful `updateAgency` leaves a valid agency store |
| Agencies.GetAgency | source/RawGtfs.ts:119-134 | fails exactly when there are several agencies and the id is not truthy; no agency gives none; a single agency is returned whatever the id asked for; with several agencies and a truthy id, an agency is found exactly when the id is stored, and it is the agency stored under that id |
| Agencies.AgencyCount | source/RawGtfs.ts:136-148 | no agency counts 0, a single agency 1, and several agencies the number of distinct ids stored |
| Agencies.AgencyArray | source/RawGtfs.ts:150-162 | as many agencies as counted: none, the single agency, or the stored agencies in the map's insertion order, each listed record being the one stored under its own id |
| Agencies.SetAgencies | source/RawGtfs.ts:113-117 | setting a list keeps the store valid and never lowers the cardinality |
| Agencies.SetAgencyKeeps | source/RawGtfs.ts:80-111 | a successful set keeps the store valid, turns an empty store into the single new agency, never lowers the cardinality, stores the new agency record under its id, leaves every agency under another id as it was and adds none other, and counts one more exactly when the id was new |
| Agencies.GetAfterSetAgency | source/RawGtfs.ts:80-134 | after a successful set, getting the agency's id returns that agency, provided the id is truthy or the store does not now hold several agencies (with several, an empty or unset id makes `getAgency` throw) |
| Agencies.SetAgencyFails | source/RawGtfs.ts:80-111 | `setAgency` throws exactly when a single agency meets a different id with either id undefined, or several agencies meet an id that is not truthy; each message belongs to its case |
| Agencies.SetAgencyPromotes | source/RawGtfs.ts:87-94 | after a successful set, a single agency becomes several exactly when the ids differ, and then both are listed, old one first |
| Agencies.UpdateAgencyKeeps | source/RawGtfs.ts:164-184 | `updateAgency` leaves just the new agency when there was none or one (so the count stays one); with several, it stores the new agency under its id and leaves every agency under another id as it was; it fails exactly when there are several agencies and the id is not truthy |
| Agencies.InitialAgenciesListing | source/RawGtfs.ts:56-65 | the agencies given with distinct ids are listed back as given, and counted once each |
| Decimal.DigitValue | source/RawGtfs.ts:322 | a digit's value is below 10 |
| Decimal.DigitChar | source/RawGtfs.ts:409 | the digit written for a value below 10 reads back as that value |
| Decimal.FromNat | source/RawGtfs.ts:409 | `String(n)` is a non-empty string of digits without a leading zero |
| Decimal.ValueOfFromNat | source/RawGtfs.ts:409 | `Number(String(n)) == n` |
| Decimal.FromNatInjective | source/RawGtfs.ts:409 | different numbers are written differently, so the new stop sequences are distinct |
| Decimal.ValueLeadingZero | source/RawGtfs.ts:322 | `Number("0" + s)` equals `Number(s)`: a leading zero does not change a stop sequence's number |
| StopTimeOrder.Insert | source/RawGtfs.ts:322 | inserting into the sorted prefix adds exactly that record |
| StopTimeOrder.InsertLowerBound | source/RawGtfs.ts:322 | a lower bound of the record and the list bounds the result |
| StopTimeOrder.InsertSorted | source/RawGtfs.ts:322 | inserting into a sorted list keeps it sorted |
| StopTimeOrder.SortBySequence | source/RawGtfs.ts:322 | the sorted records still all carry a decimal stop sequence |
| StopTimeOrder.SortBySequenceSorted | source/RawGtfs.ts:322 | the sort is a permutation and orders the records by `Number(stop_sequence)` |
| StopTimeOrder.InsertWithNumber | source/RawGtfs.ts:322 | insertion keeps the relative order of the records with a given number |
| StopTimeOrder.SortStable | source/RawGtfs.ts:322 | the sort is stable: the records with equal numbers keep their relative order |
| StopTimeOrder.SortedUnchanged | source/RawGtfs.ts:322 | a sorted list is left as it is |
| StopTimeOrder.Renumber | source/RawGtfs.ts:408-411 | renumbering keeps the number of records |
| StopTimeOrder.Numbered | source/RawGtfs.ts:409 | the keys "1" to "n", one per record |
| StopTimeOrder.NumberedDistinct | source/RawGtfs.ts:409 | the new stop sequences are distinct |
| StopTimeOrder.RenumberKeys | source/RawGtfs.ts:408-411 | the renumbered records carry the stop sequences "1" to "n" in order |
| StopTimeOrder.RenumberNumbers | source/RawGtfs.ts:408-411 | the renumbered stop times carry the numbers 1 to n in list order, so they are in order |
| StopTimeOrder.OrderedOfTrip | source/RawGtfs.ts:319-325 | the ordered stop times of a trip all carry a decimal stop sequence |
| StopTimeOrder.OrderedOfTripSorted | source/RawGtfs.ts:319-325 | `buildOrderedStopTimesOfTripId` is sorted by stop sequence and is a permutation of the trip's stop times |
| StopTimeOrder.OrderedOfTripStable | source/RawGtfs.ts:319-325 | the trip's stop times with the same sequence number keep their insertion order |
| StopTimeOrder.Reindex | source/RawGtfs.ts:403-414 | `reindexStopTimesOfTripId` keeps the two-level map valid |
| StopTimeOrder.OrderedOfTripMembers | source/RawGtfs.ts:319-325 | every ordered stop time belongs to the trip |
| StopTimeOrder.RenumberedMembers | source/RawGtfs.ts:408-411 | every renumbered stop time belongs to the trip |
| StopTimeOrder.ReindexUnknown | source/RawGtfs.ts:406 | reindexing a trip without stop times changes nothing |
| StopTimeOrder.RenumberedGroup | source/RawGtfs.ts:403-414 | the trip's group is replaced by its stop times in order, numbered "1" to "n", under the trip's key moved to the end |
| StopTimeOrder.ReindexCount | source/RawGtfs.ts:403-414 | reindexing keeps the number of stop times |
| StopTimeOrder.ReindexShape | source/RawGtfs.ts:403-414 | the trip's group lists the ordered stop times renumbered, under the keys "1" to "n" |
| StopTimeOrder.ReindexOthers | source/RawGtfs.ts:403-414 | every other trip is unchanged |
| StopTimeOrder.ReindexWellFormed | source/RawGtfs.ts:403-414 | reindexing keeps the table well formed |
| RawGtfsStore.EnsureFeedInfo | source/RawGtfs.ts:587-596 | a given feed info is kept; otherwise the record holds exactly the publisher name, publisher url and language, set to the placeholders |
| RawGtfsStore.EverydayCalendar | source/RawGtfs.ts:430-442 | the defaults overridden by the partial calendar: every field of the partial calendar keeps its value, and every other default field has its default |
| RawGtfsStore.EverydayCalendarRunsDaily | source/RawGtfs.ts:430-442 | every weekday the partial calendar leaves out is available; service id, start and end dates are always set; the service id defaults to "everyday" |
| RawGtfsStore.UpdateTripKeepsOldTripId | source/RawGtfs.ts:274-280 | after the trip id update the trip is found under the new id but still carries the old `trip_id`, so the trips are no longer keyed by their own id |
| RawGtfsStore.SumAtLeastLength | source/RawGtfs.ts:507-509 | a sum of positive sizes is at least their number, with equality exactly when every size is 1 |
| RawGtfsStore.GroupCountAtMostRecords | source/RawGtfs.ts:507-509 | the number of services is at most the number of calendar dates, with equality exactly when every service has a single date |
| RawGtfsStore.SameServiceCountsOnce | source/RawGtfs.ts:507-509 | two calendar dates of one service give one service and two records |
| RawGtfsStore.OneGroupCount | source/RawGtfs.ts:507-509 | a table with one group counts the records of that group |
| RawGtfsStore.FirstRecordGroup | source/RawGtfs.ts:660-667 | indexing one record gives one group holding one key |
| RawGtfsStore.SecondRecordGroup | source/RawGtfs.ts:660-667 | a second record with the same outer key and a new inner key joins the same group |
| RawGtfsStore.CalendarDatesCountServices | source/RawGtfs.ts:507-509 | two dates of the service "weekdays" count as one |
| RawGtfsStore.RawGtfs.constructor | source/RawGtfs.ts:43-74 | each table is the index of the given list by its key, the agencies by cardinality, and the feed info is ensured |
| RawGtfsStore.RawGtfs.SetAgency | source/RawGtfs.ts:80-111 | the agency store becomes the result of `setAgency`; on an error it is unchanged and the error is returned |
| RawGtfsStore.RawGtfs.SetAgencies | source/RawGtfs.ts:113-117 | the agencies are set in order up to the first error, which is returned |
| RawGtfsStore.RawGtfs.UpdateAgency | source/RawGtfs.ts:164-184 | the agency store becomes the result of `updateAgency`; on an error it is unchanged and the error is returned |
| RawGtfsStore.RawGtfs.SetStop | source/RawGtfs.ts:190-192 | the stop is set under its `stop_id` |
| RawGtfsStore.RawGtfs.GetStop | source/RawGtfs.ts:194-196 | a stop is found exactly when its id is stored, and the one found carries that id |
| RawGtfsStore.RawGtfs.BuildArrayOfStops | source/RawGtfs.ts:202-204 | as many stops as counted, with distinct ids, the j-th one being the value of the j-th key in insertion order and found under its own id |
| RawGtfsStore.RawGtfs.UpdateStopIdOnStopWithoutUpdatingReferences | source/RawGtfs.ts:206-214 | the stop moves to the new id with `stop_id` rewritten |
| RawGtfsStore.RawGtfs.DeleteStopWithoutDeletingReferences | source/RawGtfs.ts:216-218 | the stop's id is deleted |
| RawGtfsStore.RawGtfs.SetRoute | source/RawGtfs.ts:224-226 | the route is set under its `route_id` |
| RawGtfsStore.RawGtfs.GetRoute | source/RawGtfs.ts:228-230 | a route is found exactly when its id is stored, and the one found carries that id |
| RawGtfsStore.RawGtfs.BuildArrayOfRoutes | source/RawGtfs.ts:236-238 | as many routes as counted, with distinct ids, the j-th one being the value of the j-th key in insertion order and found under its own id |
| RawGtfsStore.RawGtfs.UpdateRouteIdOnRouteWithoutUpdatingReferences | source/RawGtfs.ts:240-248 | the route moves to the new id with `route_id` rewritten |
| RawGtfsStore.RawGtfs.DeleteRouteWithoutDeletingReferences | source/RawGtfs.ts:250-252 | the route's id is deleted |
| RawGtfsStore.RawGtfs.SetTrip | source/RawGtfs.ts:258-260 | the trip is set under its `trip_id` |
| RawGtfsStore.RawGtfs.GetTrip | source/RawGtfs.ts:262-264 | a trip is found exactly when its id is a key |
| RawGtfsStore.RawGtfs.BuildArrayOfTrips | source/RawGtfs.ts:270-272 | as many trips as counted, the j-th one being the value of the j-th key |
| RawGtfsStore.RawGtfs.UpdateTripIdWithoutUpdatingReferences | source/RawGtfs.ts:274-280 | the trip moves to the new key with its `trip_id` left as it was |
| RawGtfsStore.RawGtfs.DeleteTripWithoutDeletingReferences | source/RawGtfs.ts:282-284 | the trip's id is deleted |
| RawGtfsStore.RawGtfs.SetStopTime | source/RawGtfs.ts:290-299 | the stop time is set under its trip id and stop sequence, creating the group when missing |
| RawGtfsStore.RawGtfs.SetStopTimes | source/RawGtfs.ts:301-305 | the loop sets the stop times in order |
| RawGtfsStore.RawGtfs.GetStopTime | source/RawGtfs.ts:307-309 | a stop time is found exactly when its stop sequence is stored in the trip's group, and the one found carries the trip id and stop sequence asked for |
| RawGtfsStore.RawGtfs.BuildArrayOfStopTimesOfTripId | source/RawGtfs.ts:311-313 | one entry per stop time of the trip, the j-th being the one under the group's j-th stop sequence in insertion order; every one belongs to the trip and is found under its own stop sequence |
| RawGtfsStore.RawGtfs.BuildArrayOfStopTimesOfTrip | source/RawGtfs.ts:315-317 | the same, for the trip id of a partial trip, which may be unset |
| RawGtfsStore.RawGtfs.BuildOrderedStopTimesOfTripId | source/RawGtfs.ts:319-325 | the trip's stop times, as a permutation of `buildArrayOfStopTimesOfTripId`, sorted by stop sequence number, those with the same number in insertion order |
| RawGtfsStore.RawGtfs.BuildOrderedStopTimesOfTrip | source/RawGtfs.ts:327-329 | the same, for the trip id of a partial trip |
| RawGtfsStore.RawGtfs.GetNumberOfStopTimes | source/RawGtfs.ts:331-339 | the loop returns the number of stop times |
| RawGtfsStore.RawGtfs.BuildArrayOfStopTimes | source/RawGtfs.ts:341-357 | the loops return every stop time, trip after trip |
| RawGtfsStore.RawGtfs.UpdateStopTimesTripIdWithoutUpdatingReferences | source/RawGtfs.ts:359-373 | the trip's stop times move to the new trip id with `trip_id` rewritten |
| RawGtfsStore.RawGtfs.SetRetaggedStopTimes | source/RawGtfs.ts:366-371 | the loop sets each stop time of the list, retagged with the new trip id |
| RawGtfsStore.RawGtfs.UpdateStopTimeStopSequenceWithoutUpdatingReferences | source/RawGtfs.ts:375-386 | the stop time moves to the new stop sequence with `stop_sequence` rewritten |
| RawGtfsStore.RawGtfs.DeleteStopTimeWithoutDeletingReferences | source/RawGtfs.ts:388-397 | the stop time is deleted and a trip left without stop times is removed |
| RawGtfsStore.RawGtfs.DeleteStopTimesOfTripIdWithoutDeletingReferences | source/RawGtfs.ts:399-401 | the trip's stop times are deleted |
| RawGtfsStore.RawGtfs.ReindexStopTimesOfTripId | source/RawGtfs.ts:403-414 | the trip's stop times are renumbered "1" to "n" in stop sequence order |
| RawGtfsStore.RawGtfs.SetRenumberedStopTimes | source/RawGtfs.ts:408-411 | the loop sets each ordered stop time with its new stop sequence |
| RawGtfsStore.RawGtfs.SetCalendar | source/RawGtfs.ts:419-421 | the calendar is set under its `service_id` |
| RawGtfsStore.RawGtfs.SetCalendars | source/RawGtfs.ts:423-427 | the loop sets the calendars in order |
| RawGtfsStore.RawGtfs.SetAndGetEverydayCalendar | source/RawGtfs.ts:429-447 | the everyday calendar built from the partial calendar is set and returned |
| RawGtfsStore.RawGtfs.SetEverydayCalendar | source/RawGtfs.ts:449-451 | the everyday calendar is set |
| RawGtfsStore.RawGtfs.GetCalendar | source/RawGtfs.ts:453-455 | a calendar is found exactly when its id is stored, and the one found carries that id |
| RawGtfsStore.RawGtfs.BuildArrayOfCalendars | source/RawGtfs.ts:461-463 | as many calendars as counted, with distinct ids, the j-th one being the value of the j-th key in insertion order and found under its own id |
| RawGtfsStore.RawGtfs.UpdateCalendarServiceIdWithoutUpdatingReferences | source/RawGtfs.ts:465-472 | the calendar moves to the new service id with `service_id` rewritten |
| RawGtfsStore.RawGtfs.DeleteCalendarWithoutDeletingReferences | source/RawGtfs.ts:474-476 | the calendar's service id is deleted |
| RawGtfsStore.RawGtfs.DeleteCalendarServiceIdWithoutDeletingReferences | source/RawGtfs.ts:478-480 | the service id is deleted |
| RawGtfsStore.RawGtfs.SetCalendarDate | source/RawGtfs.ts:486-495 | the calendar date is set under its service id and date, creating the group when missing |
| RawGtfsStore.RawGtfs.SetCalendarDates | source/RawGtfs.ts:497-501 | the loop sets the calendar dates in order |
| RawGtfsStore.RawGtfs.GetCalendarDate | source/RawGtfs.ts:503-505 | a calendar date is found exactly when its date is stored in the service's group, and the one found carries the service id and date asked for |
| RawGtfsStore.RawGtfs.GetNumberOfCalendarDates | source/RawGtfs.ts:507-509 | the number of services with calendar dates, which is at most the number of calendar dates |
| RawGtfsStore.RawGtfs.BuildArrayOfCalendarDates | source/RawGtfs.ts:511-527 | the loops return every calendar date, service after service |
| RawGtfsStore.RawGtfs.UpdateCalendarDateServiceIdWithoutUpdatingReferences | source/RawGtfs.ts:529-544 | the service's calendar dates move to the new service id with `service_id` rewritten |
| RawGtfsStore.RawGtfs.SetRetaggedCalendarDates | source/RawGtfs.ts:535-542 | the loop sets each calendar date of the list, retagged with the new service id |
| RawGtfsStore.RawGtfs.DeleteCalendarDateWithoutDeletingReferences | source/RawGtfs.ts:546-555 | the calendar date is deleted and a service left without dates is removed |
| RawGtfsStore.RawGtfs.SetShapePoint | source/RawGtfs.ts:561-563 | the shape point is set under its `shape_id` |
| RawGtfsStore.RawGtfs.SetShapePoints | source/RawGtfs.ts:565-569 | the loop sets the shape points in order |
| RawGtfsStore.RawGtfs.GetShapePoint | source/RawGtfs.ts:571-573 | a shape point is found exactly when its id is stored, and the one found carries that id |
| RawGtfsStore.RawGtfs.BuildArrayOfShapePoints | source/RawGtfs.ts:579-581 | as many shape points as counted, with distinct ids, the j-th one being the value of the j-th key in insertion order and found under its own id |
| RawGtfsStore.RawGtfs.SetFeedStartDate | source/RawGtfs.ts:602-604 | only `feed_start_date` of the feed info changes |
| RawGtfsStore.RawGtfs.SetFeedEndDate | source/RawGtfs.ts:610-612 | only `feed_end_date` of the feed info changes |
| RawGtfsStore.RawGtfs.SetFeedVersion | source/RawGtfs.ts:618-620 | only `feed_version` of the feed info changes |
| RawGtfsStore.RawGtfs.SetFeedContactUrl | source/RawGtfs.ts:626-628 | only `feed_contact_url` of the feed info changes |
| ExportationHelper.DoubleQuotes | source/Helpers/ExportationHelper.ts:56 | doubling the quotes lengthens the value by its number of double quotes |
| ExportationHelper.EscapeValue | source/Helpers/ExportationHelper.ts:50-59 | the escaped value is empty exactly when the value is undefined or empty |
| ExportationHelper.EscapeUnchanged | source/Helpers/ExportationHelper.ts:50-59 | a value is written as it is exactly when it holds no comma, line feed, double quote or single quote; otherwise it gains two enclosing quotes and one per double quote |
| ExportationHelper.EscapeSeparated | source/Helpers/ExportationHelper.ts:55-56 | any value holding a comma, a line feed or a single quote but no double quote is enclosed in double quotes and otherwise unchanged |
| ExportationHelper.EscapeQuoted | source/Helpers/ExportationHelper.ts:55-56 | any value with exactly one double quote, between two quote-free parts, has that quote doubled and is enclosed in double quotes |
| ExportationHelper.EscapePlainExample | source/Helpers/ExportationHelper.test.ts:9-14 | "test" is written as it is |
| ExportationHelper.EscapeCommaExample | source/Helpers/ExportationHelper.test.ts:16-21 | "test,test" is enclosed in quotes |
| ExportationHelper.EscapeLineFeedExample | source/Helpers/ExportationHelper.test.ts:23-28 | "test\ntest" is enclosed in quotes |
| ExportationHelper.EscapeQuoteExample | source/Helpers/ExportationHelper.test.ts:30-35 | "test\"test" becomes "\"test\"\"test\"" |
| ExportationHelper.EscapeOtherCharacters | source/Helpers/ExportationHelper.ts:51-58 | a single quote forces quoting, a carriage return does not, and undefined is written as nothing |
| ExportationHelper.EscapeSingleQuoteExample | source/Helpers/ExportationHelper.ts:55 | "it's" is enclosed in quotes |
| ExportationHelper.EscapeCarriageReturnExample | source/Helpers/ExportationHelper.ts:55 | "a\rb" is written as it is |
| ExportationHelper.DoubleQuotesPlain | source/Helpers/ExportationHelper.ts:56 | a value without double quotes is unchanged by the doubling |
| ExportationHelper.DoubleQuotesQuote | source/Helpers/ExportationHelper.ts:56 | one double quote between quote-free parts is doubled |
| ExportationHelper.DoubleQuotesAppend | source/Helpers/ExportationHelper.ts:56 | doubling the quotes distributes over concatenation |
| ExportationHelper.ReadBarePlain | source/Helpers/ExportationHelper.ts:58 | a value without comma or line feed reads back as itself |
| ExportationHelper.ReadQuotedDoubled | source/Helpers/ExportationHelper.ts:56 | the inside of a quoted value, with its quotes doubled, reads back as the value |
| ExportationHelper.ReadQuotedDoubledStep | source/Helpers/ExportationHelper.ts:56 | reading the doubled value back advances one character at a time |
| ExportationHelper.ReadQuotedField | source/Helpers/ExportationHelper.ts:56 | a quoted field reads back as the value |
| ExportationHelper.ReadPlainField | source/Helpers/ExportationHelper.ts:58 | a field written as it is reads back as the value |
| ExportationHelper.ReadEscaped | source/Helpers/ExportationHelper.ts:50-59 | every escaped value reads back as the value, undefined as the empty string |
| ExportationHelper.ReadNextField | source/Helpers/ExportationHelper.ts:45 | a field followed by a comma starts a row |
| ExportationHelper.ReadLastField | source/Helpers/ExportationHelper.ts:45 | a field followed by a line feed or the end is the last of its row |
| ExportationHelper.ReadEscapedRow | source/Helpers/ExportationHelper.ts:45 | a line of escaped values joined by commas reads back as the row of values |
| ExportationHelper.ReadEscapedSingle | source/Helpers/ExportationHelper.ts:45 | a single escaped value reads back as a one-cell row |
| ExportationHelper.ReadEscapedCons | source/Helpers/ExportationHelper.ts:45 | a first value followed by a row reads back as the longer row |
| ExportationHelper.ReadJoinedCons | source/Helpers/ExportationHelper.ts:45 | a first field, a comma and a row read back as the longer row |
| ExportationHelper.JoinHasSeparator | source/Helpers/ExportationHelper.ts:45 | joining two or more parts contains the separator |
| ExportationHelper.JoinLastChar | source/Helpers/ExportationHelper.ts:45 | `join` ends with the last part's last character, or with the separator when the last part is empty |
| ExportationHelper.EscapedEnd | source/Helpers/ExportationHelper.ts:50-59 | an escaped value never ends with a line feed |
| ExportationHelper.LineEnd | source/Helpers/ExportationHelper.ts:45 | a record's line is never empty and never ends with a line feed |
| ExportationHelper.NoTrailingLineFeed | source/Helpers/ExportationHelper.ts:43-48 | a file with records ends with its last record's line, not with a line feed |
| ExportationHelper.ReadNextLine | source/Helpers/ExportationHelper.ts:45-47 | a line followed by a line feed is the first of the records read |
| ExportationHelper.ReadLastLine | source/Helpers/ExportationHelper.ts:45-47 | a non-empty line at the end is the last record read |
| ExportationHelper.PlainNameUnescaped | source/Helpers/ExportationHelper.ts:47 | a field name is written as it is |
| ExportationHelper.AgencyFieldsPlain | source/RawGtfsTypes.ts:7-16 | every agency field name is a plain name |
| ExportationHelper.StopFieldsPlain | source/RawGtfsTypes.ts:43-58 | every stop field name is a plain name |
| ExportationHelper.RouteFieldsPlain | source/RawGtfsTypes.ts:85-99 | every route field name is a plain name |
| ExportationHelper.TripFieldsPlain | source/RawGtfsTypes.ts:138-149 | every trip field name is a plain name |
| ExportationHelper.StopTimeFieldsPlain | source/RawGtfsTypes.ts:172-191 | every stop time field name is a plain name |
| ExportationHelper.CalendarFieldsPlain | source/RawGtfsTypes.ts:236-247 | every calendar field name is a plain name |
| ExportationHelper.CalendarDateFieldsPlain | source/RawGtfsTypes.ts:280-284 | every calendar date field name is a plain name |
| ExportationHelper.ShapeFieldsPlain | source/RawGtfsTypes.ts:300-306 | every shape field name is a plain name |
| ExportationHelper.FeedInfoFieldsPlain | source/RawGtfsTypes.ts:324-348 | every feed info field name is a plain name |
| ExportationHelper.HeadersPlain | source/RawGtfsTypes.ts:402-412 | every file has at least three columns, all with plain names |
| ExportationHelper.HeaderUnescaped | source/Helpers/ExportationHelper.ts:44-47 | the header line is the field names joined by commas, and it reads back as them |
| ExportationHelper.ConvertArrayOfItemsToCsv | source/Helpers/ExportationHelper.ts:43-48 | no item gives the header line followed by a line feed; with items, the text does not end in a line feed |
| ExportationHelper.BodyRoundTrip | source/Helpers/ExportationHelper.ts:45 | the record lines joined by line feeds read back as the rows of the records |
| ExportationHelper.CsvRoundTripWith | source/Helpers/ExportationHelper.ts:43-48 | header, line feed and record lines read back as the header followed by the rows |
| ExportationHelper.CsvRoundTrip | source/Helpers/ExportationHelper.ts:43-48 | every exported file reads back as its field names followed by one row per item, each cell holding the item's value for that column (empty when undefined) |
| ExportationHelper.Rows | source/Helpers/ExportationHelper.ts:45 | one row per item |
| ExportationHelper.SingleRecordRoundTrip | source/Helpers/ExportationHelper.ts:43-48 | a file of one record reads back as its header and that record's row |
| ExportationHelper.BuildFilesByFileName | source/Helpers/ExportationHelper.ts:30-41 | the files are exactly agency, stops, routes, trips, stop times, calendar, calendar dates and feed info; there is no `shapes.txt` |
| ExportationHelper.FilesByName | source/Helpers/ExportationHelper.ts:31-40 | each of the eight names maps to its own text, no other name is present, and `shapes.txt` is absent |
| ExportationHelper.FileNamesDistinct | source/RawGtfsTypes.ts:388-398 | the nine file names are told apart by length and first letter |
| ExportationHelper.ExportedAgencies | source/Helpers/ExportationHelper.ts:32 | `agency.txt` reads back as its header and one row per agency |
| ExportationHelper.ExportedStops | source/Helpers/ExportationHelper.ts:33 | `stops.txt` reads back as its header and one row per stop |
| ExportationHelper.ExportedRoutes | source/Helpers/ExportationHelper.ts:34 | `routes.txt` reads back as its header and one row per route |
| ExportationHelper.ExportedTrips | source/Helpers/ExportationHelper.ts:35 | `trips.txt` reads back as its header and one row per trip |
| ExportationHelper.ExportedStopTimes | source/Helpers/ExportationHelper.ts:36 | `stop_times.txt` reads back as its header and one row per stop time |
| ExportationHelper.ExportedCalendars | source/Helpers/ExportationHelper.ts:37 | `calendar.txt` reads back as its header and one row per calendar |
| ExportationHelper.ExportedCalendarDates | source/Helpers/ExportationHelper.ts:38 | `calendar_dates.txt` reads back as its header and one row per calendar date, not per service |
| ExportationHelper.ExportedFeedInfo | source/Helpers/ExportationHelper.ts:39 | `feed_info.txt` reads back as its header and the feed info's row |
| ExportationHelper.FeedInfoRoundTrip | source/Helpers/ExportationHelper.ts:39 | one feed info record reads back as the header and its row |
| ExportationHelper.CalendarDateExample | source/Helpers/ExportationHelper.test.ts:39-44 | one calendar date gives "service_id,date,exception_type\n1,20250101,1" |
| ExportationHelper.CalendarDateHeader | source/Helpers/ExportationHelper.test.ts:41 | the calendar date header line |
| ExportationHelper.JoinThree | source/Helpers/ExportationHelper.ts:45-47 | three parts joined by a separator |
| ExportationHelper.CalendarDateLine | source/Helpers/ExportationHelper.test.ts:41 | the calendar date's line |
| ExportationHelper.DigitsUnescaped | source/Helpers/ExportationHelper.ts:55-58 | a string of digits is written as it is |
| ExportationHelper.DefaultFeedInfoExample | source/Helpers/ExportationHelper.test.ts:48-66 | the placeholder feed info of an empty store reads back as the header and the row of the three placeholders followed by six empty cells |
| ExportationHelper.DefaultFeedInfoCells | source/RawGtfs.ts:587-596 | the placeholder feed info's cells: the three placeholders and six empty cells |

## Left out

- `exportToFolderAsFiles` (source/RawGtfs.ts:638-640 and source/Helpers/ExportationHelper.ts:19-28) creates a folder and writes files with `fs`. The model stops at the map from file name to text that it writes.
- Thrown errors are returned as values (`Option<AgencyError>`), and a failing call leaves the store unchanged. The source throws out of the method; the states match, since a failing branch throws before it assigns anything.
- The agency store's "should be set" exceptions are left out. They guard states (`Singleton` without an agency, `Multiple` without a map) that the folded `AgencyStore` datatype cannot represent.
- Aliasing is not modelled. The source stores, returns and mutates the caller's record objects: the "update id" operations write the new id into the object that the caller may still hold, and `getFeedInfo` returns the live record. The model keeps records as values, so writing a field makes a new record, which is stored in place of the old one.
- Records are flat maps from field name to string. Number-typed fields and explicit `undefined` values inside a record (as opposed to absent fields) are not distinguished, and neither is the spread of such a value in `setAndGetEverydayCalendar`.
- The key order of the object that `buildFilesByFileName` returns is not modelled: the files are a Dafny `map`. The order only decides which file `exportToFolderAsFiles` writes first.
- StopTimeOrder.SequenceNumber: `Number(stop_sequence)` is modelled for strings of decimal digits only. Strings that JavaScript reads differently (blanks, signs, fractions, exponents, hexadecimal, `NaN`) are outside the model.
- RawGtfsStore.RawGtfs.BuildOrderedStopTimesOfTripId requires every stop time of the trip to carry a decimal `stop_sequence`. The source sorts whatever `Number` returns, `NaN` included.
- RawGtfsStore.RawGtfs.BuildOrderedStopTimesOfTrip has the same requirement.
- RawGtfsStore.RawGtfs.ReindexStopTimesOfTripId has the same requirement.
- RawGtfsStore.RawGtfs.GetTrip states only that a trip is found exactly when its id is a key, not that the trip carries that id. After `updateTripIdWithoutUpdatingReferences` it need not carry it.
- RawGtfsStore.RawGtfs.BuildArrayOfTrips does not state that the listed trips carry distinct ids, for the same reason.
- The getters that only read a field are modelled as functions without a contract of their own: `getAgency`, `getNumberOfAgencies`, `buildArrayOfAgencies`, `getNumberOfStops`, `getNumberOfRoutes`, `getNumberOfTrips`, `getNumberOfCalendars`, `getNumberOfShapePoints`, `getFeedInfo`, `getFeedStartDate`, `getFeedEndDate`, `getFeedVersion` and `getFeedContactUrl`. The three agency getters delegate to `Agencies.GetAgency`, `Agencies.AgencyCount` and `Agencies.AgencyArray`, whose contracts are stated above.
- A `PreGtfs` list that is not given is the empty list. `indexByOneKey` and `indexByTwoKeys` build the same empty map for both.
- The CSV reader `CsvReading` is the model's own. The source only writes CSV and has no reader; the reader exists to state that the export can be read back.

=== FILE: agencies.dfy ===
/** The agencies of the store. A feed has no agency, exactly one (whose
    `agency_id` may be left out), or several, which are then indexed by
    `agency_id`. The store's cardinality field and its two agency fields are
    folded into one value here, so the source's "should be set" failures, which
    guard states the store never reaches, have no counterpart. */
module Agencies {
  import opened Wrappers
  import opened GtfsSchema
  import OM = OrderedMaps
  import Indexing

  datatype AgencyStore =
    | Absent
    | Singleton(agency: Record)
    | Multiple(byId: Indexing.Table)

  /** The errors a caller can provoke. */
  datatype AgencyError = MissingAgencyId | UnsetAgencyIds

  function Message(e: AgencyError): string {
    match e
    case MissingAgencyId => "Agency cardinality is multiple, must provide agencyId"
    case UnsetAgencyIds => "If they are more than one agency, their agencyId must be set."
  }

  /** Several agencies are each stored under their own `agency_id`. */
  ghost predicate Valid(a: AgencyStore) {
    a.Multiple? ==> Indexing.KeyedBy(a.byId, AgencyIdField)
  }

  /** JavaScript truthiness of an optional string: defined and not empty. */
  predicate Truthy(k: Key) {
    k.Some? && k.value != ""
  }

  /** 0, 1 or 2 for Absent, Singleton and Multiple: the cardinality only grows. */
  function Rank(a: AgencyStore): nat {
    match a
    case Absent => 0
    case Singleton(_) => 1
    case Multiple(_) => 2
  }

  /** An agency whose `agency_id` is `k` is stored. */
  predicate Holds(a: AgencyStore, k: Key) {
    match a
    case Absent => false
    case Singleton(x) => Field(x, AgencyIdField) == k
    case Multiple(m) => k in m.entries
  }

  /** The record `x` is the agency stored under the id `k`. */
  predicate Stores(a: AgencyStore, k: Key, x: Record) {
    match a
    case Absent => false
    case Singleton(y) => y == x && Field(y, AgencyIdField) == k
    case Multiple(m) => OM.Get(m, k) == Some(x)
  }

  /** The constructor's choice: no agency, the one agency, or all of them indexed. */
  function InitialAgencies(agencies: seq<Record>): (a: AgencyStore)
    ensures Valid(a)
    ensures Rank(a) == if |agencies| < 2 then |agencies| else 2
  {
    if |agencies| == 0 then Absent
    else if |agencies| == 1 then Singleton(agencies[0])
    else
      Indexing.IndexByOneKeyKeyed(agencies, AgencyIdField);
      Multiple(Indexing.IndexByOneKey(agencies, AgencyIdField))
  }

  /** `setAgency` */
  function SetAgency(a: AgencyStore, agency: Record): (r: Result<AgencyStore, AgencyError>)
    requires Valid(a)
    ensures r.Ok? ==> Valid(r.value)
    ensures a.Absent? ==> r == Ok(Singleton(agency))
    ensures a.Singleton? && Field(a.agency, AgencyIdField) == Field(agency, AgencyIdField) ==> r == Ok(Singleton(agency))
  {
    var id := Field(agency, AgencyIdField);
    match a
    case Absent => Ok(Singleton(agency))
    case Singleton(current) =>
      var currentId := Field(current, AgencyIdField);
      if currentId == id then Ok(Singleton(agency))
      else if currentId.Some? && id.Some? then
        Indexing.IndexByOneKeyKeyed([current, agency], AgencyIdField);
        Ok(Multiple(Indexing.IndexByOneKey([current, agency], AgencyIdField)))
      else Err(UnsetAgencyIds)
    case Multiple(m) =>
      if !Truthy(id) then Err(MissingAgencyId) else Ok(Multiple(OM.Set(m, id, agency)))
  }

  /** `updateAgency`: like `setAgency`, except that a single agency is replaced
      whatever its id, so there are never more agencies afterwards than before
      unless there were none. */
  function UpdateAgency(a: AgencyStore, agency: Record): (r: Result<AgencyStore, AgencyError>)
    requires Valid(a)
    ensures r.Ok? ==> Valid(r.value)
  {
    var id := Field(agency, AgencyIdField);
    match a
    case Absent => Ok(Singleton(agency))
    case Singleton(_) => Ok(Singleton(agency))
    case Multiple(m) =>
      if !Truthy(id) then Err(MissingAgencyId) else Ok(Multiple(OM.Set(m, id, agency)))
  }

  /** `getAgency(agencyId)` */
  function GetAgency(a: AgencyStore, agencyId: Key): (r: Result<Option<Record>, AgencyError>)
    requires Valid(a)
    ensures r.Err? <==> a.Multiple? && !Truthy(agencyId)
    ensures a.Absent? ==> r == Ok(None)
    ensures a.Singleton? ==> r == Ok(Some(a.agency))
    ensures a.Multiple? && Truthy(agencyId) ==> r.Ok? && (r.value.Some? <==> agencyId in a.byId.entries)
    ensures r.Ok? && r.value.Some? && a.Multiple? ==>
      Stores(a, agencyId, r.value.value) && Field(r.value.value, AgencyIdField) == agencyId
  {
    match a
    case Absent => Ok(None)
    case Singleton(x) => Ok(Some(x))
    case Multiple(m) => if !Truthy(agencyId) then Err(MissingAgencyId) else Ok(OM.Get(m, agencyId))
  }

  /** `getNumberOfAgencies` */
  function AgencyCount(a: AgencyStore): (n: nat)
    requires Valid(a)
    ensures n == 0 <==> a.Absent? || (a.Multiple? && a.byId.keys == [])
    ensures a.Singleton? ==> n == 1
    ensures a.Multiple? ==> n == |a.byId.entries|
  {
    match a
    case Absent => 0
    case Singleton(_) => 1
    case Multiple(m) =>
      OM.SizeCountsKeys(m);
      OM.Size(m)
  }

  /** `buildArrayOfAgencies` */
  function AgencyArray(a: AgencyStore): (rs: seq<Record>)
    requires Valid(a)
    ensures |rs| == AgencyCount(a)
    ensures a.Absent? ==> rs == []
    ensures a.Singleton? ==> rs == [a.agency]
    ensures a.Multiple? ==> forall j :: 0 <= j < |rs| ==> OM.Get(a.byId, a.byId.keys[j]) == Some(rs[j])
    ensures forall j :: 0 <= j < |rs| ==> Stores(a, Field(rs[j], AgencyIdField), rs[j])
  {
    match a
    case Absent => []
    case Singleton(x) => [x]
    case Multiple(m) => OM.Values(m)
  }

  /** `setAgencies`: the agencies are set one by one; the first failure stops the
      loop and is reported, the agencies before it staying set. */
  function SetAgencies(a: AgencyStore, agencies: seq<Record>): (r: (AgencyStore, Option<AgencyError>))
    requires Valid(a)
    ensures Valid(r.0)
    ensures Rank(r.0) >= Rank(a)
    decreases |agencies|
  {
    if agencies == [] then (a, None)
    else
      SetAgencyKeeps(a, agencies[0]);
      match SetAgency(a, agencies[0])
      case Err(e) => (a, Some(e))
      case Ok(a') => SetAgencies(a', agencies[1..])
  }

  /** A successful `setAgency` keeps the store valid, never lowers the cardinality,
      stores the new agency under its id, keeps every id already stored, and adds
      one to the count exactly when the id was not stored yet. */
  lemma SetAgencyKeeps(a: AgencyStore, agency: Record)
    requires Valid(a)
    ensures SetAgency(a, agency).Ok? ==>
      var a' := SetAgency(a, agency).value;
      && Valid(a')
      && (a.Absent? ==> a' == Singleton(agency))
      && Rank(a') >= Rank(a)
      && Holds(a', Field(agency, AgencyIdField))
      && Stores(a', Field(agency, AgencyIdField), agency)
      && (forall k :: Holds(a, k) ==> Holds(a', k))
      && (forall k, x :: k != Field(agency, AgencyIdField) && Stores(a, k, x) ==> Stores(a', k, x))
      && (forall k, x :: Stores(a', k, x) ==> k == Field(agency, AgencyIdField) || Stores(a, k, x))
      && AgencyCount(a') == AgencyCount(a) + if Holds(a, Field(agency, AgencyIdField)) then 0 else 1
  {
    var id := Field(agency, AgencyIdField);
    match a
    case Absent =>
    case Singleton(current) =>
      var currentId := Field(current, AgencyIdField);
      if currentId != id && currentId.Some? && id.Some? {
        PairIndexed(current, agency);
      }
    case Multiple(m) =>
      if Truthy(id) {
        assert SetAgency(a, agency) == Ok(Multiple(OM.Set(m, id, agency)));
        assert OM.Get(m, id).None? <==> !Holds(a, id);
      }
  }

  /** Two agencies with distinct ids, indexed: each is stored under its own id,
      and nothing else is. */
  lemma PairIndexed(current: Record, agency: Record)
    requires Field(current, AgencyIdField) != Field(agency, AgencyIdField)
    ensures var m := Indexing.IndexByOneKey([current, agency], AgencyIdField);
      && Indexing.KeyedBy(m, AgencyIdField)
      && OM.Get(m, Field(current, AgencyIdField)) == Some(current)
      && OM.Get(m, Field(agency, AgencyIdField)) == Some(agency)
      && (forall k :: k in m.entries ==> k == Field(current, AgencyIdField) || k == Field(agency, AgencyIdField))
      && OM.Size(m) == 2
  {
    var pair := [current, agency];
    var currentId, id := Field(current, AgencyIdField), Field(agency, AgencyIdField);
    var m := Indexing.IndexByOneKey(pair, AgencyIdField);
    Indexing.IndexByOneKeyKeyed(pair, AgencyIdField);
    assert Indexing.KeysOf(pair, AgencyIdField) == [currentId, id];
    Indexing.IndexByOneKeyValues(pair, AgencyIdField);
    assert m.keys == [currentId, id];
  }

  /** After a successful `setAgency`, `getAgency` with the agency's id returns
      it, unless that id is empty and there are now several agencies. */
  lemma GetAfterSetAgency(a: AgencyStore, agency: Record)
    requires Valid(a) && SetAgency(a, agency).Ok?
    requires Truthy(Field(agency, AgencyIdField)) || !SetAgency(a, agency).value.Multiple?
    ensures GetAgency(SetAgency(a, agency).value, Field(agency, AgencyIdField)) == Ok(Some(agency))
  {
    var id := Field(agency, AgencyIdField);
    if a.Singleton? && Field(a.agency, AgencyIdField) != id {
      Indexing.SetAllGet(OM.Empty(), [a.agency, agency], AgencyIdField, id);
    }
  }

  /** When `setAgency` fails: a single agency meets one with another id while
      one of the two ids is missing, or there are several agencies and the new
      one has no usable id. An empty store never fails. */
  lemma SetAgencyFails(a: AgencyStore, agency: Record)
    requires Valid(a)
    ensures SetAgency(a, agency).Err? <==>
      || (a.Singleton? && Field(a.agency, AgencyIdField) != Field(agency, AgencyIdField)
          && (Field(a.agency, AgencyIdField).None? || Field(agency, AgencyIdField).None?))
      || (a.Multiple? && !Truthy(Field(agency, AgencyIdField)))
    ensures SetAgency(a, agency) == Err(UnsetAgencyIds) ==> a.Singleton?
    ensures SetAgency(a, agency) == Err(MissingAgencyId) ==> a.Multiple?
  {
  }

  /** A single agency becomes several exactly when `setAgency` meets a second
      agency with another id, both ids being set; the store then lists the old
      agency and the new one, in that order. */
  lemma SetAgencyPromotes(a: AgencyStore, agency: Record)
    requires Valid(a) && a.Singleton? && SetAgency(a, agency).Ok?
    ensures SetAgency(a, agency).value.Multiple?
        <==> Field(a.agency, AgencyIdField) != Field(agency, AgencyIdField)
    ensures SetAgency(a, agency).value.Multiple? ==> AgencyArray(SetAgency(a, agency).value) == [a.agency, agency]
  {
    if Field(a.agency, AgencyIdField) != Field(agency, AgencyIdField) {
      var pair := [a.agency, agency];
      assert Indexing.KeysOf(pair, AgencyIdField) == [Field(a.agency, AgencyIdField), Field(agency, AgencyIdField)];
      Indexing.IndexByOneKeyValues(pair, AgencyIdField);
    }
  }

  /** `updateAgency` never makes several agencies out of one: an empty or single
      store then holds just the new agency; among several, the new agency is
      stored under its id and every other agency stays as it was. */
  lemma UpdateAgencyKeeps(a: AgencyStore, agency: Record)
    requires Valid(a)
    ensures UpdateAgency(a, agency).Ok? ==>
      && Rank(UpdateAgency(a, agency).value) == (if a.Multiple? then 2 else 1)
      && (!a.Multiple? ==> AgencyArray(UpdateAgency(a, agency).value) == [agency])
      && Stores(UpdateAgency(a, agency).value, Field(agency, AgencyIdField), agency)
      && (a.Multiple? ==> forall k, x :: k != Field(agency, AgencyIdField) ==>
            (Stores(UpdateAgency(a, agency).value, k, x) <==> Stores(a, k, x)))
    ensures UpdateAgency(a, agency).Err? <==> a.Multiple? && !Truthy(Field(agency, AgencyIdField))
  {
  }

  /** An agency list of length 0, 1 or at least 2 gives no agency, that agency,
      or all of them; with distinct ids, every one is listed in its original order
      and counted once. */
  lemma InitialAgenciesListing(agencies: seq<Record>)
    requires OM.Distinct(Indexing.KeysOf(agencies, AgencyIdField))
    ensures AgencyArray(InitialAgencies(agencies)) == agencies
    ensures AgencyCount(InitialAgencies(agencies)) == |agencies|
  {
    if |agencies| >= 2 {
      Indexing.IndexByOneKeyValues(agencies, AgencyIdField);
    }
  }
}

=== FILE: csv_reading.dfy ===
/** A reader for the comma-separated text the store exports: fields separated by
    commas, records by line feeds; a field that starts with a double quote runs
    to the next lone double quote, a doubled one standing for one quote
    character. It is the inverse the export is checked against. */
module CsvReading {

  /** A field or row may end here: at the end of the text, a comma or a line feed. */
  predicate EndsField(t: string) {
    t == [] || t[0] == ',' || t[0] == '\n'
  }

  /** Reads a field without quotes: everything up to the next comma or line feed. */
  function ReadBare(s: string): (r: (string, string))
    ensures |r.1| <= |s|
    ensures EndsField(r.1)
  {
    if s == [] || s[0] == ',' || s[0] == '\n' then ([], s)
    else
      var (v, rest) := ReadBare(s[1..]);
      ([s[0]] + v, rest)
  }

  /** Reads the inside of a quoted field, just after its opening quote, and
      consumes the closing quote. An unterminated field takes the rest of the text. */
  function ReadQuoted(s: string): (r: (string, string))
    ensures |r.1| <= |s|
  {
    if s == [] then ([], [])
    else if s[0] == '"' then
      if |s| >= 2 && s[1] == '"' then
        var (v, rest) := ReadQuoted(s[2..]);
        (['"'] + v, rest)
      else ([], s[1..])
    else
      var (v, rest) := ReadQuoted(s[1..]);
      ([s[0]] + v, rest)
  }

  function ReadField(s: string): (r: (string, string))
    ensures |r.1| <= |s|
  {
    if s != [] && s[0] == '"' then ReadQuoted(s[1..]) else ReadBare(s)
  }

  /** Reads the comma-separated fields of one record, stopping before the line
      feed that ends it (or wherever a field is not followed by a comma). */
  function ReadRow(s: string): (r: (seq<string>, string))
    ensures |r.1| <= |s|
    ensures |r.0| > 0
    decreases |s|
  {
    var (f, rest) := ReadField(s);
    if rest != [] && rest[0] == ',' then
      var (fs, rest') := ReadRow(rest[1..]);
      ([f] + fs, rest')
    else ([f], rest)
  }

  /** Reads records separated by line feeds. A text that ends with a line feed
      has no empty record after it. */
  function ReadLines(s: string): seq<seq<string>>
    decreases |s|
  {
    if s == [] then []
    else
      var (row, rest) := ReadRow(s);
      if rest != [] && rest[0] == '\n' then [row] + ReadLines(rest[1..]) else [row]
  }
}

=== FILE: decimal.dfy ===
/** Decimal digit strings and their numeric values: the part of JavaScript's
    `Number(s)` and `String(n)` that stop sequences use. */
module Decimal {

  predicate IsDigit(c: char) {
    '0' <= c <= '9'
  }

  /** A string of decimal digits. The empty string is one: `Number("")` is 0. */
  predicate IsDecimal(s: string) {
    forall j :: 0 <= j < |s| ==> IsDigit(s[j])
  }

  function DigitValue(c: char): (d: nat)
    requires IsDigit(c)
    ensures d < 10
  {
    (c as int - '0' as int) as nat
  }

  function DigitChar(d: nat): (c: char)
    requires d < 10
    ensures IsDigit(c) && DigitValue(c) == d
  {
    ('0' as int + d) as char
  }

  /** `Number(s)` for a decimal string: most significant digit first. */
  function Value(s: string): nat
    requires IsDecimal(s)
    decreases |s|
  {
    if s == [] then 0 else Value(s[..|s| - 1]) * 10 + DigitValue(s[|s| - 1])
  }

  /** `String(n)` for a natural number: its shortest decimal form. */
  function FromNat(n: nat): (s: string)
    ensures IsDecimal(s) && |s| > 0
    ensures |s| > 1 ==> s[0] != '0'
  {
    if n < 10 then [DigitChar(n)] else FromNat(n / 10) + [DigitChar(n % 10)]
  }

  /** `Number(String(n)) == n` */
  lemma {:induction false} ValueOfFromNat(n: nat)
    ensures Value(FromNat(n)) == n
  {
    var s := FromNat(n);
    if n < 10 {
      assert s[..0] == [];
    } else {
      ValueOfFromNat(n / 10);
      assert s[..|s| - 1] == FromNat(n / 10);
    }
  }

  /** `Number("0" + s) == Number(s)`: a leading zero does not change the value. */
  lemma {:induction false} ValueLeadingZero(s: string)
    requires IsDecimal(s)
    ensures IsDecimal("0" + s) && Value("0" + s) == Value(s)
    decreases |s|
  {
    var t := "0" + s;
    if s == [] {
      assert t[..0] == [];
    } else {
      ValueLeadingZero(s[..|s| - 1]);
      assert t[..|t| - 1] == "0" + s[..|s| - 1];
    }
  }

  /** Distinct numbers have distinct decimal forms. */
  lemma FromNatInjective(m: nat, n: nat)
    requires m != n
    ensures FromNat(m) != FromNat(n)
  {
    ValueOfFromNat(m);
    ValueOfFromNat(n);
  }
}

=== FILE: exportation_helper.dfy ===
/** Serialising the store as GTFS text files: every table becomes a header line
    of the file's field names followed by one comma-separated line per record,
    with the values that need it quoted. */
module ExportationHelper {
  import opened Wrappers
  import opened GtfsSchema
  import Grouped
  import RawGtfsStore
  import CsvReading

  /** `value.includes(",") || value.includes("\n") || value.includes("\"") || value.includes("'")` */
  predicate NeedsQuoting(v: string) {
    ',' in v || '\n' in v || '"' in v || '\'' in v
  }

  /** The number of double quotes in `v`. */
  function Quotes(v: string): nat {
    if v == [] then 0 else (if v[0] == '"' then 1 else 0) + Quotes(v[1..])
  }

  /** `value.replace(/"/g, '""')`: every double quote doubled. */
  function DoubleQuotes(v: string): (r: string)
    ensures |r| == |v| + Quotes(v)
  {
    if v == [] then []
    else if v[0] == '"' then "\"\"" + DoubleQuotes(v[1..])
    else [v[0]] + DoubleQuotes(v[1..])
  }

  /** `escapeValue`: an unset or empty value is written as nothing; a value
      holding a comma, a line feed, a double quote or a single quote is
      enclosed in double quotes with its own double quotes doubled; any other
      value is written as it is. */
  function EscapeValue(value: Option<string>): (e: string)
    ensures e == "" <==> value.None? || value == Some("")
  {
    if value.None? || value.value == "" then ""
    else if NeedsQuoting(value.value) then "\"" + DoubleQuotes(value.value) + "\""
    else value.value
  }

  /** What a reader of the file sees for a value: an unset one reads as empty. */
  function Text(value: Option<string>): string {
    value.GetOr("")
  }

  /** `parts.join(sep)` */
  function Join(parts: seq<string>, sep: char): string {
    if parts == [] then ""
    else if |parts| == 1 then parts[0]
    else parts[0] + [sep] + Join(parts[1..], sep)
  }

  /** `item[header]` for every header, in header order. */
  function Cells(item: Record, headers: seq<string>): seq<Option<string>> {
    seq(|headers|, k requires 0 <= k < |headers| => Field(item, headers[k]))
  }

  function EscapeAll(values: seq<Option<string>>): seq<string> {
    seq(|values|, k requires 0 <= k < |values| => EscapeValue(values[k]))
  }

  function Texts(values: seq<Option<string>>): seq<string> {
    seq(|values|, k requires 0 <= k < |values| => Text(values[k]))
  }

  /** `headers.map(header => escapeValue(item[header])).join(",")` for every item. */
  function Lines(items: seq<Record>, headers: seq<string>): seq<string> {
    seq(|items|, j requires 0 <= j < |items| => Join(EscapeAll(Cells(items[j], headers)), ','))
  }

  /** `convertArrayOfItemsToCsv`: the header line, a line feed, then the records'
      lines separated by line feeds, so an empty list leaves just the header
      line and its line feed. */
  function ConvertArrayOfItemsToCsv(items: seq<Record>, file: GtfsFile): (csv: string)
    ensures items == [] ==> csv == Join(FieldsOf(file), ',') + "\n"
    ensures items != [] ==> csv != [] && csv[|csv| - 1] != '\n'
  {
    HeadersPlain(file);
    NoTrailingLineFeed(items, FieldsOf(file));
    Join(FieldsOf(file), ',') + "\n" + Join(Lines(items, FieldsOf(file)), '\n')
  }

  /** `buildFilesByFileName`: one text per table of the store, keyed by file
      name. There is none for shapes.txt: the shape points are not exported. */
  function BuildFilesByFileName(gtfs: RawGtfsStore.RawGtfs): (files: map<string, string>)
    reads gtfs
    requires gtfs.Valid()
    ensures AgencyFileName in files && StopFileName in files && RouteFileName in files && TripFileName in files
    ensures StopTimeFileName in files && CalendarFileName in files && CalendarDateFileName in files
    ensures FeedInfoFileName in files
    ensures ShapeFileName !in files
    ensures files.Keys == {AgencyFileName, StopFileName, RouteFileName, TripFileName,
                           StopTimeFileName, CalendarFileName, CalendarDateFileName, FeedInfoFileName}
  {
    FilesByName(ConvertArrayOfItemsToCsv(gtfs.BuildArrayOfAgencies(), Agency),
                ConvertArrayOfItemsToCsv(gtfs.BuildArrayOfStops(), Stop),
                ConvertArrayOfItemsToCsv(gtfs.BuildArrayOfRoutes(), Route),
                ConvertArrayOfItemsToCsv(gtfs.BuildArrayOfTrips(), Trip),
                ConvertArrayOfItemsToCsv(Grouped.Flatten(gtfs.stopTimes), StopTime),
                ConvertArrayOfItemsToCsv(gtfs.BuildArrayOfCalendars(), Calendar),
                ConvertArrayOfItemsToCsv(Grouped.Flatten(gtfs.calendarDates), CalendarDate),
                ConvertArrayOfItemsToCsv([gtfs.GetFeedInfo()], FeedInfo))
  }

  /** The object literal of `buildFilesByFileName`: each text under its own
      file name, and nothing under shapes.txt. */
  function FilesByName(agency: string, stops: string, routes: string, trips: string,
                       stopTimes: string, calendar: string, calendarDates: string, feedInfo: string): (files: map<string, string>)
    ensures AgencyFileName in files && files[AgencyFileName] == agency
    ensures StopFileName in files && files[StopFileName] == stops
    ensures RouteFileName in files && files[RouteFileName] == routes
    ensures TripFileName in files && files[TripFileName] == trips
    ensures StopTimeFileName in files && files[StopTimeFileName] == stopTimes
    ensures CalendarFileName in files && files[CalendarFileName] == calendar
    ensures CalendarDateFileName in files && files[CalendarDateFileName] == calendarDates
    ensures FeedInfoFileName in files && files[FeedInfoFileName] == feedInfo
    ensures ShapeFileName !in files
    ensures files.Keys == {AgencyFileName, StopFileName, RouteFileName, TripFileName,
                           StopTimeFileName, CalendarFileName, CalendarDateFileName, FeedInfoFileName}
  {
    FileNamesDistinct();
    map[AgencyFileName := agency, StopFileName := stops, RouteFileName := routes, TripFileName := trips,
        StopTimeFileName := stopTimes, CalendarFileName := calendar, CalendarDateFileName := calendarDates,
        FeedInfoFileName := feedInfo]
  }

  /** The file names differ from one another: by length, or else by their
      first letter. */
  lemma FileNamesDistinct()
    ensures |AgencyFileName| == 10 && AgencyFileName[0] == 'a'
    ensures |StopFileName| == 9 && StopFileName[0] == 's'
    ensures |RouteFileName| == 10 && RouteFileName[0] == 'r'
    ensures |TripFileName| == 9 && TripFileName[0] == 't'
    ensures |StopTimeFileName| == 14
    ensures |CalendarFileName| == 12
    ensures |CalendarDateFileName| == 18
    ensures |ShapeFileName| == 10 && ShapeFileName[0] == 's'
    ensures |FeedInfoFileName| == 13
  {
  }

  // ---------------------------------------------------------------------------
  // Escaping

  /** A value is written unchanged exactly when it needs no quoting. */
  lemma EscapeUnchanged(v: string)
    ensures EscapeValue(Some(v)) == v <==> !NeedsQuoting(v)
    ensures NeedsQuoting(v) ==> |EscapeValue(Some(v))| == |v| + 2 + Quotes(v)
  {
  }

  /** A value holding a comma, a line feed or a single quote but no double
      quote is enclosed in double quotes and otherwise unchanged. */
  lemma EscapeSeparated(v: string)
    requires NeedsQuoting(v) && '"' !in v
    ensures EscapeValue(Some(v)) == "\"" + v + "\""
  {
    DoubleQuotesPlain(v);
  }

  /** A value with one double quote between two quote-free parts has that
      quote doubled and is enclosed in double quotes. */
  lemma EscapeQuoted(a: string, b: string)
    requires '"' !in a && '"' !in b
    ensures EscapeValue(Some(a + "\"" + b)) == "\"" + a + "\"\"" + b + "\""
  {
    assert (a + "\"" + b)[|a|] == '"';
    DoubleQuotesQuote(a, b);
  }

  /** The source's own examples: a plain value, and values holding a comma, a
      line feed and a double quote. */
  lemma EscapePlainExample()
    ensures EscapeValue(Some("test")) == "test"
  {
    assert PlainName("test");
    PlainNameUnescaped("test");
  }

  lemma EscapeCommaExample()
    ensures EscapeValue(Some("test,test")) == "\"test,test\""
  {
    var v := "test,test";
    assert v[4] == ',';
    EscapeSeparated(v);
  }

  lemma EscapeLineFeedExample()
    ensures EscapeValue(Some("test\ntest")) == "\"test\ntest\""
  {
    var v := "test\ntest";
    assert v[4] == '\n';
    EscapeSeparated(v);
  }

  lemma EscapeQuoteExample()
    ensures EscapeValue(Some("test\"test")) == "\"test\"\"test\""
  {
    var a := "test";
    assert '"' !in a by { assert a == ['t', 'e', 's', 't']; }
    assert "test\"test" == a + "\"" + a;
    assert "\"" + a + "\"\"" + a + "\"" == "\"test\"\"test\"";
    EscapeQuoted(a, a);
  }

  /** A single quote forces quotes but is not doubled; a carriage return does
      not force quotes; an unset value is written as nothing. */
  lemma EscapeOtherCharacters()
    ensures EscapeValue(Some("it's")) == "\"it's\""
    ensures EscapeValue(Some("a\rb")) == "a\rb"
    ensures EscapeValue(None) == ""
  {
    EscapeSingleQuoteExample();
    EscapeCarriageReturnExample();
  }

  lemma EscapeSingleQuoteExample()
    ensures EscapeValue(Some("it's")) == "\"it's\""
  {
    var v := "it's";
    assert v[2] == '\'';
    EscapeSeparated(v);
  }

  lemma EscapeCarriageReturnExample()
    ensures EscapeValue(Some("a\rb")) == "a\rb"
  {
    var v := "a\rb";
    assert |v| == 3 && v[0] == 'a' && v[1] == '\r' && v[2] == 'b';
    assert !NeedsQuoting(v);
  }

  /** Without double quotes there is nothing to double. */
  lemma {:induction false} DoubleQuotesPlain(v: string)
    requires '"' !in v
    ensures DoubleQuotes(v) == v
  {
    if v != [] {
      assert v == [v[0]] + v[1..];
      DoubleQuotesPlain(v[1..]);
    }
  }

  /** A double quote between two quote-free parts is doubled. */
  lemma DoubleQuotesQuote(a: string, b: string)
    requires '"' !in a && '"' !in b
    ensures DoubleQuotes(a + "\"" + b) == a + "\"\"" + b
  {
    var q := ['"'] + b;
    assert a + "\"" + b == a + q;
    DoubleQuotesAppend(a, q);
    DoubleQuotesPlain(a);
    DoubleQuotesPlain(b);
    assert q[0] == '"' && q[1..] == b;
    assert DoubleQuotes(q) == ['"', '"'] + b;
    assert a + "\"\"" + b == a + (['"', '"'] + b);
  }

  lemma {:induction false} DoubleQuotesAppend(a: string, b: string)
    ensures DoubleQuotes(a + b) == DoubleQuotes(a) + DoubleQuotes(b)
  {
    if a == [] {
      assert a + b == b;
    } else {
      assert (a + b)[0] == a[0] && (a + b)[1..] == a[1..] + b;
      DoubleQuotesAppend(a[1..], b);
    }
  }

  // ---------------------------------------------------------------------------
  // Reading the text back

  lemma {:induction false} ReadBarePlain(v: string, t: string)
    requires forall k :: 0 <= k < |v| ==> v[k] != ',' && v[k] != '\n'
    requires CsvReading.EndsField(t)
    ensures CsvReading.ReadBare(v + t) == (v, t)
  {
    if v != [] {
      assert (v + t)[0] == v[0] && (v + t)[1..] == v[1..] + t;
      ReadBarePlain(v[1..], t);
      assert [v[0]] + v[1..] == v;
    } else {
      assert v + t == t;
    }
  }

  lemma {:induction false} ReadQuotedDoubled(v: string, t: string)
    requires t == [] || t[0] != '"'
    ensures CsvReading.ReadQuoted(DoubleQuotes(v) + "\"" + t) == (v, t)
  {
    if v == [] {
      assert DoubleQuotes(v) + "\"" + t == "\"" + t;
      ReadQuotedClose(t);
    } else {
      ReadQuotedDoubled(v[1..], t);
      ReadQuotedDoubledStep(v, t);
    }
  }

  /** One more character before the doubled rest of a value. */
  lemma ReadQuotedDoubledStep(v: string, t: string)
    requires v != []
    requires CsvReading.ReadQuoted(DoubleQuotes(v[1..]) + "\"" + t) == (v[1..], t)
    ensures CsvReading.ReadQuoted(DoubleQuotes(v) + "\"" + t) == (v, t)
  {
    var rest := DoubleQuotes(v[1..]) + "\"" + t;
    var d := DoubleQuotes(v);
    if v[0] == '"' {
      assert d == "\"\"" + DoubleQuotes(v[1..]);
      assert d + "\"" + t == "\"\"" + rest;
      ReadQuotedPair(rest);
    } else {
      assert d == [v[0]] + DoubleQuotes(v[1..]);
      assert d + "\"" + t == [v[0]] + rest;
      ReadQuotedChar(v[0], rest);
    }
    assert [v[0]] + v[1..] == v;
  }

  /** A lone double quote closes a quoted field. */
  lemma ReadQuotedClose(t: string)
    requires t == [] || t[0] != '"'
    ensures CsvReading.ReadQuoted("\"" + t) == ([], t)
  {
    var s := "\"" + t;
    assert s[0] == '"' && s[1..] == t;
    assert |s| >= 2 ==> s[1] == t[0];
  }

  /** Two double quotes inside a quoted field stand for one. */
  lemma ReadQuotedPair(rest: string)
    ensures CsvReading.ReadQuoted("\"\"" + rest)
         == (['"'] + CsvReading.ReadQuoted(rest).0, CsvReading.ReadQuoted(rest).1)
  {
    var s := "\"\"" + rest;
    assert s[0] == '"' && s[1] == '"' && s[2..] == rest;
  }

  /** Any other character inside a quoted field stands for itself. */
  lemma ReadQuotedChar(c: char, rest: string)
    requires c != '"'
    ensures CsvReading.ReadQuoted([c] + rest)
         == ([c] + CsvReading.ReadQuoted(rest).0, CsvReading.ReadQuoted(rest).1)
  {
    var s := [c] + rest;
    assert s[0] == c && s[1..] == rest;
  }

  /** A quoted field reads back as the value whose quotes were doubled. */
  lemma ReadQuotedField(v: string, t: string)
    requires CsvReading.EndsField(t)
    ensures CsvReading.ReadField("\"" + DoubleQuotes(v) + "\"" + t) == (v, t)
  {
    var inner := DoubleQuotes(v) + "\"" + t;
    var s := "\"" + DoubleQuotes(v) + "\"" + t;
    assert s == "\"" + inner;
    assert s != [] && s[0] == '"' && s[1..] == inner;
    ReadQuotedDoubled(v, t);
  }

  /** A value without separators reads back as it is. */
  lemma ReadPlainField(v: string, t: string)
    requires !NeedsQuoting(v)
    requires CsvReading.EndsField(t)
    ensures CsvReading.ReadField(v + t) == (v, t)
  {
    forall k | 0 <= k < |v| ensures v[k] != ',' && v[k] != '\n' {
      assert v[k] in v;
    }
    ReadBarePlain(v, t);
    if v != [] {
      assert (v + t)[0] == v[0] && v[0] != '"' by {
        assert v[0] in v;
      }
    }
  }

  /** An escaped value followed by a comma, a line feed or the end of the text
      reads back as the value, and reading stops right after it. */
  lemma ReadEscaped(value: Option<string>, t: string)
    requires CsvReading.EndsField(t)
    ensures CsvReading.ReadField(EscapeValue(value) + t) == (Text(value), t)
  {
    if value.None? || value.value == "" {
      assert EscapeValue(value) == "" && Text(value) == "";
      assert EscapeValue(value) + t == "" + t;
      ReadPlainField("", t);
    } else if NeedsQuoting(value.value) {
      assert EscapeValue(value) == "\"" + DoubleQuotes(value.value) + "\"";
      ReadQuotedField(value.value, t);
    } else {
      assert EscapeValue(value) == value.value;
      ReadPlainField(value.value, t);
    }
  }

  /** A field followed by a comma is read, then the rest of the record. */
  lemma ReadNextField(field: string, value: string, rest: string, values: seq<string>, t: string)
    requires CsvReading.ReadField(field + ([','] + rest)) == (value, [','] + rest)
    requires CsvReading.ReadRow(rest) == (values, t)
    ensures CsvReading.ReadRow(field + [','] + rest) == ([value] + values, t)
  {
    assert field + [','] + rest == field + ([','] + rest);
    assert ([','] + rest)[0] == ',' && ([','] + rest)[1..] == rest;
  }

  /** A last field is read as a record of one value. */
  lemma ReadLastField(field: string, value: string, t: string)
    requires t == [] || t[0] == '\n'
    requires CsvReading.ReadField(field + t) == (value, t)
    ensures CsvReading.ReadRow(field + t) == ([value], t)
  {
  }

  /** A record's line reads back as its values, one field per header. */
  lemma {:induction false} ReadEscapedRow(values: seq<Option<string>>, t: string)
    requires values != []
    requires t == [] || t[0] == '\n'
    ensures CsvReading.ReadRow(Join(EscapeAll(values), ',') + t) == (Texts(values), t)
    decreases |values|
  {
    if |values| == 1 {
      ReadEscapedSingle(values, t);
    } else {
      ReadEscapedRow(values[1..], t);
      ReadEscapedCons(values, t);
    }
  }

  lemma ReadEscapedSingle(values: seq<Option<string>>, t: string)
    requires |values| == 1
    requires t == [] || t[0] == '\n'
    ensures CsvReading.ReadRow(Join(EscapeAll(values), ',') + t) == (Texts(values), t)
  {
    var e := EscapeValue(values[0]);
    assert EscapeAll(values) == [e];
    ReadEscaped(values[0], t);
    ReadLastField(e, Text(values[0]), t);
    assert Texts(values) == [Text(values[0])];
  }

  lemma ReadEscapedCons(values: seq<Option<string>>, t: string)
    requires |values| >= 2
    requires CsvReading.ReadRow(Join(EscapeAll(values[1..]), ',') + t) == (Texts(values[1..]), t)
    ensures CsvReading.ReadRow(Join(EscapeAll(values), ',') + t) == (Texts(values), t)
  {
    var es := EscapeAll(values);
    var texts := Texts(values);
    assert es[1..] == EscapeAll(values[1..]);
    assert texts[1..] == Texts(values[1..]);
    ReadEscaped(values[0], [','] + (Join(es[1..], ',') + t));
    ReadJoinedCons(es, texts, t);
  }

  /** Joined fields are read one by one: the first, then the rest. */
  lemma ReadJoinedCons(es: seq<string>, texts: seq<string>, t: string)
    requires |es| >= 2 && |texts| == |es|
    requires CsvReading.ReadField(es[0] + ([','] + (Join(es[1..], ',') + t))) == (texts[0], [','] + (Join(es[1..], ',') + t))
    requires CsvReading.ReadRow(Join(es[1..], ',') + t) == (texts[1..], t)
    ensures CsvReading.ReadRow(Join(es, ',') + t) == (texts, t)
  {
    var rest := Join(es[1..], ',') + t;
    assert Join(es, ',') + t == es[0] + [','] + rest;
    ReadNextField(es[0], texts[0], rest, texts[1..], t);
    assert [texts[0]] + texts[1..] == texts;
  }

  /** The last character of a join: the separator when the last part is empty,
      otherwise the last part's own last character. */
  lemma {:induction false} JoinLastChar(parts: seq<string>, sep: char)
    requires |parts| >= 2 || (|parts| == 1 && parts[0] != [])
    ensures var j := Join(parts, sep); var p := parts[|parts| - 1];
      j != [] && j[|j| - 1] == if p == [] then sep else p[|p| - 1]
    decreases |parts|
  {
    if |parts| >= 2 {
      var rest := Join(parts[1..], sep);
      assert Join(parts, sep) == parts[0] + [sep] + rest;
      if |parts| > 2 || parts[1] != [] {
        JoinLastChar(parts[1..], sep);
      }
    }
  }

  /** An escaped value never ends with a line feed: a quoted one ends with its
      closing quote, and a bare one holds no line feed. */
  lemma {:induction false} EscapedEnd(value: Option<string>)
    ensures var e := EscapeValue(value); e != [] ==> e[|e| - 1] != '\n'
  {
    var e := EscapeValue(value);
    if e != [] && !NeedsQuoting(value.value) {
      assert e[|e| - 1] in value.value;
    }
  }

  /** A record's line is never empty and never ends with a line feed. */
  lemma {:induction false} LineEnd(item: Record, hs: seq<string>)
    requires |hs| >= 2
    ensures var l := Join(EscapeAll(Cells(item, hs)), ','); l != [] && l[|l| - 1] != '\n'
  {
    var es := EscapeAll(Cells(item, hs));
    JoinLastChar(es, ',');
    EscapedEnd(Cells(item, hs)[|hs| - 1]);
  }

  /** A file with records ends with its last record's line, with no line feed after it. */
  lemma {:induction false} NoTrailingLineFeed(items: seq<Record>, hs: seq<string>)
    requires |hs| >= 2
    ensures var csv := Join(hs, ',') + "\n" + Join(Lines(items, hs), '\n');
      items != [] ==> csv[|csv| - 1] != '\n'
  {
    if items != [] {
      var lines := Lines(items, hs);
      var last := lines[|lines| - 1];
      assert last == Join(EscapeAll(Cells(items[|items| - 1], hs)), ',');
      LineEnd(items[|items| - 1], hs);
      JoinLastChar(lines, '\n');
      var body := Join(lines, '\n');
      var csv := Join(hs, ',') + "\n" + body;
      assert csv[|csv| - 1] == body[|body| - 1];
    }
  }

  lemma {:induction false} JoinHasSeparator(parts: seq<string>, sep: char)
    requires |parts| >= 2
    ensures sep in Join(parts, sep)
  {
    assert Join(parts, sep) == parts[0] + [sep] + Join(parts[1..], sep);
    assert (parts[0] + [sep] + Join(parts[1..], sep))[|parts[0]|] == sep;
  }

  /** A line followed by a line feed is read as one record, and reading goes
      on after the line feed. */
  lemma ReadNextLine(line: string, row: seq<string>, rest: string)
    requires CsvReading.ReadRow(line + ("\n" + rest)) == (row, "\n" + rest)
    ensures CsvReading.ReadLines(line + "\n" + rest) == [row] + CsvReading.ReadLines(rest)
  {
    var s := line + "\n" + rest;
    assert s == line + ("\n" + rest);
    assert ("\n" + rest)[0] == '\n' && ("\n" + rest)[1..] == rest;
  }

  /** A last line is read as one record. */
  lemma ReadLastLine(line: string, row: seq<string>)
    requires line != []
    requires CsvReading.ReadRow(line + "") == (row, "")
    ensures CsvReading.ReadLines(line) == [row]
  {
    assert line + "" == line;
  }

  /** A field name: lower-case letters and underscores, at least one. */
  predicate PlainName(s: string) {
    s != "" && forall k :: 0 <= k < |s| ==> 'a' <= s[k] <= 'z' || s[k] == '_'
  }

  /** A field name is written as it is. */
  lemma PlainNameUnescaped(s: string)
    requires PlainName(s)
    ensures !NeedsQuoting(s) && EscapeValue(Some(s)) == s
  {
    forall k | 0 <= k < |s| ensures s[k] != ',' && s[k] != '\n' && s[k] != '"' && s[k] != '\'' {
    }
  }

  predicate PlainNames(names: seq<string>) {
    forall k :: 0 <= k < |names| ==> PlainName(names[k])
  }

  lemma AgencyFieldsPlain0()
    ensures PlainName(AgencyFields[0]) && PlainName(AgencyFields[1]) && PlainName(AgencyFields[2])
  {
  }

  lemma AgencyFieldsPlain1()
    ensures PlainName(AgencyFields[3]) && PlainName(AgencyFields[4])
  {
  }

  lemma AgencyFieldsPlain2()
    ensures PlainName(AgencyFields[5]) && PlainName(AgencyFields[6])
  {
  }

  lemma AgencyFieldsPlain3()
    ensures PlainName(AgencyFields[7])
  {
  }

  lemma AgencyFieldsPlain()
    ensures PlainNames(AgencyFields)
  {
    AgencyFieldsPlain0();
    AgencyFieldsPlain1();
    AgencyFieldsPlain2();
    AgencyFieldsPlain3();
  }

  lemma StopFieldsPlain0()
    ensures PlainName(StopFields[0]) && PlainName(StopFields[1]) && PlainName(StopFields[2]) && PlainName(StopFields[3])
  {
  }

  lemma StopFieldsPlain1()
    ensures PlainName(StopFields[4]) && PlainName(StopFields[5]) && PlainName(StopFields[6]) && PlainName(StopFields[7])
  {
  }

  lemma StopFieldsPlain2()
    ensures PlainName(StopFields[8]) && PlainName(StopFields[9])
  {
  }

  lemma StopFieldsPlain3()
    ensures PlainName(StopFields[10]) && PlainName(StopFields[11])
  {
  }

  lemma StopFieldsPlain4()
    ensures PlainName(StopFields[12]) && PlainName(StopFields[13])
  {
  }

  lemma StopFieldsPlain()
    ensures PlainNames(StopFields)
  {
    StopFieldsPlain0();
    StopFieldsPlain1();
    StopFieldsPlain2();
    StopFieldsPlain3();
    StopFieldsPlain4();
  }

  lemma RouteFieldsPlain0()
    ensures PlainName(RouteFields[0]) && PlainName(RouteFields[1]) && PlainName(RouteFields[2])
  {
  }

  lemma RouteFieldsPlain1()
    ensures PlainName(RouteFields[3]) && PlainName(RouteFields[4]) && PlainName(RouteFields[5])
  {
  }

  lemma RouteFieldsPlain2()
    ensures PlainName(RouteFields[6]) && PlainName(RouteFields[7]) && PlainName(RouteFields[8])
  {
  }

  lemma RouteFieldsPlain3()
    ensures PlainName(RouteFields[9]) && PlainName(RouteFields[10])
  {
  }

  lemma RouteFieldsPlain4()
    ensures PlainName(RouteFields[11]) && PlainName(RouteFields[12])
  {
  }

  lemma RouteFieldsPlain()
    ensures PlainNames(RouteFields)
  {
    RouteFieldsPlain0();
    RouteFieldsPlain1();
    RouteFieldsPlain2();
    RouteFieldsPlain3();
    RouteFieldsPlain4();
  }

  lemma TripFieldsPlain0()
    ensures PlainName(TripFields[0]) && PlainName(TripFields[1]) && PlainName(TripFields[2])
  {
  }

  lemma TripFieldsPlain1()
    ensures PlainName(TripFields[3]) && PlainName(TripFields[4])
  {
  }

  lemma TripFieldsPlain2()
    ensures PlainName(TripFields[5]) && PlainName(TripFields[6]) && PlainName(TripFields[7])
  {
  }

  lemma TripFieldsPlain3()
    ensures PlainName(TripFields[8]) && PlainName(TripFields[9])
  {
  }

  lemma TripFieldsPlain()
    ensures PlainNames(TripFields)
  {
    TripFieldsPlain0();
    TripFieldsPlain1();
    TripFieldsPlain2();
    TripFieldsPlain3();
  }

  lemma StopTimeFieldsPlain0()
    ensures PlainName(StopTimeFields[0]) && PlainName(StopTimeFields[1]) && PlainName(StopTimeFields[2])
  {
  }

  lemma StopTimeFieldsPlain1()
    ensures PlainName(StopTimeFields[3]) && PlainName(StopTimeFields[4]) && PlainName(StopTimeFields[5])
  {
  }

  lemma StopTimeFieldsPlain2()
    ensures PlainName(StopTimeFields[6]) && PlainName(StopTimeFields[7])
  {
  }

  lemma StopTimeFieldsPlain3()
    ensures PlainName(StopTimeFields[8])
  {
  }

  lemma StopTimeFieldsPlain4()
    ensures PlainName(StopTimeFields[9])
  {
  }

  lemma StopTimeFieldsPlain5()
    ensures PlainName(StopTimeFields[10]) && PlainName(StopTimeFields[11])
  {
  }

  lemma StopTimeFieldsPlain6()
    ensures PlainName(StopTimeFields[12]) && PlainName(StopTimeFields[13])
  {
  }

  lemma StopTimeFieldsPlain7()
    ensures PlainName(StopTimeFields[14]) && PlainName(StopTimeFields[15])
  {
  }

  lemma StopTimeFieldsPlain8()
    ensures PlainName(StopTimeFields[16])
  {
  }

  lemma StopTimeFieldsPlain9()
    ensures PlainName(StopTimeFields[17])
  {
  }

  lemma StopTimeFieldsPlain()
    ensures PlainNames(StopTimeFields)
  {
    StopTimeFieldsPlain0();
    StopTimeFieldsPlain1();
    StopTimeFieldsPlain2();
    StopTimeFieldsPlain3();
    StopTimeFieldsPlain4();
    StopTimeFieldsPlain5();
    StopTimeFieldsPlain6();
    StopTimeFieldsPlain7();
    StopTimeFieldsPlain8();
    StopTimeFieldsPlain9();
  }

  lemma CalendarFieldsPlain0()
    ensures PlainName(CalendarFields[0]) && PlainName(CalendarFields[1]) && PlainName(CalendarFields[2]) && PlainName(CalendarFields[3])
  {
  }

  lemma CalendarFieldsPlain1()
    ensures PlainName(CalendarFields[4]) && PlainName(CalendarFields[5]) && PlainName(CalendarFields[6]) && PlainName(CalendarFields[7])
  {
  }

  lemma CalendarFieldsPlain2()
    ensures PlainName(CalendarFields[8]) && PlainName(CalendarFields[9])
  {
  }

  lemma CalendarFieldsPlain()
    ensures PlainNames(CalendarFields)
  {
    CalendarFieldsPlain0();
    CalendarFieldsPlain1();
    CalendarFieldsPlain2();
  }

  lemma CalendarDateFieldsPlain()
    ensures PlainNames(CalendarDateFields)
  {
  }

  lemma ShapeFieldsPlain0()
    ensures PlainName(ShapeFields[0]) && PlainName(ShapeFields[1]) && PlainName(ShapeFields[2])
  {
  }

  lemma ShapeFieldsPlain1()
    ensures PlainName(ShapeFields[3]) && PlainName(ShapeFields[4])
  {
  }

  lemma ShapeFieldsPlain()
    ensures PlainNames(ShapeFields)
  {
    ShapeFieldsPlain0();
    ShapeFieldsPlain1();
  }

  lemma FeedInfoFieldsPlain0()
    ensures PlainName(FeedInfoFields[0])
  {
  }

  lemma FeedInfoFieldsPlain1()
    ensures PlainName(FeedInfoFields[1]) && PlainName(FeedInfoFields[2])
  {
  }

  lemma FeedInfoFieldsPlain2()
    ensures PlainName(FeedInfoFields[3]) && PlainName(FeedInfoFields[4])
  {
  }

  lemma FeedInfoFieldsPlain3()
    ensures PlainName(FeedInfoFields[5]) && PlainName(FeedInfoFields[6])
  {
  }

  lemma FeedInfoFieldsPlain4()
    ensures PlainName(FeedInfoFields[7]) && PlainName(FeedInfoFields[8])
  {
  }

  lemma FeedInfoFieldsPlain()
    ensures PlainNames(FeedInfoFields)
  {
    FeedInfoFieldsPlain0();
    FeedInfoFieldsPlain1();
    FeedInfoFieldsPlain2();
    FeedInfoFieldsPlain3();
    FeedInfoFieldsPlain4();
  }

  /** Every header of every file is a plain field name, and every file has at
      least three fields. */
  lemma HeadersPlain(file: GtfsFile)
    ensures |FieldsOf(file)| >= 3
    ensures PlainNames(FieldsOf(file))
  {
    match file
    case Agency => AgencyFieldsPlain();
    case Stop => StopFieldsPlain();
    case Route => RouteFieldsPlain();
    case Trip => TripFieldsPlain();
    case StopTime => StopTimeFieldsPlain();
    case Calendar => CalendarFieldsPlain();
    case CalendarDate => CalendarDateFieldsPlain();
    case Shape => ShapeFieldsPlain();
    case FeedInfo => FeedInfoFieldsPlain();
  }

  function Named(hs: seq<string>): seq<Option<string>> {
    seq(|hs|, k requires 0 <= k < |hs| => Some(hs[k]))
  }

  /** The header line is the field names written as they are. */
  lemma HeaderUnescaped(file: GtfsFile)
    ensures |FieldsOf(file)| >= 3
    ensures EscapeAll(Named(FieldsOf(file))) == FieldsOf(file)
    ensures Texts(Named(FieldsOf(file))) == FieldsOf(file)
  {
    var hs := FieldsOf(file);
    HeadersPlain(file);
    forall k | 0 <= k < |hs| ensures EscapeAll(Named(hs))[k] == hs[k] {
      PlainNameUnescaped(hs[k]);
    }
  }

  /** The records' lines read back as their values, one line per record. */
  lemma {:induction false} BodyRoundTrip(items: seq<Record>, hs: seq<string>)
    requires |hs| >= 2
    ensures CsvReading.ReadLines(Join(Lines(items, hs), '\n')) == Rows(items, hs)
    decreases |items|
  {
    if items != [] {
      var lines := Lines(items, hs);
      var values := Cells(items[0], hs);
      var line := Join(EscapeAll(values), ',');
      assert lines[0] == line;
      JoinHasSeparator(EscapeAll(values), ',');
      assert Rows(items, hs) == [Texts(values)] + Rows(items[1..], hs);
      if |items| == 1 {
        assert Join(lines, '\n') == line;
        ReadEscapedRow(values, "");
        ReadLastLine(line, Texts(values));
      } else {
        assert Lines(items[1..], hs) == lines[1..];
        BodyRoundTrip(items[1..], hs);
        var rest := Join(lines[1..], '\n');
        assert Join(lines, '\n') == line + "\n" + rest;
        ReadEscapedRow(values, "\n" + rest);
        ReadNextLine(line, Texts(values), rest);
      }
    }
  }

  /** A header line of plain field names followed by the records' lines reads
      back as the names and then the records' values. */
  lemma {:induction false} CsvRoundTripWith(items: seq<Record>, hs: seq<string>)
    requires |hs| >= 2 && EscapeAll(Named(hs)) == hs
    ensures CsvReading.ReadLines(Join(hs, ',') + "\n" + Join(Lines(items, hs), '\n'))
         == [hs] + Rows(items, hs)
  {
    var body := Join(Lines(items, hs), '\n');
    BodyRoundTrip(items, hs);
    ReadEscapedRow(Named(hs), "\n" + body);
    assert Texts(Named(hs)) == hs;
    var csv := Join(hs, ',') + "\n" + body;
    assert csv == Join(EscapeAll(Named(hs)), ',') + ("\n" + body);
    assert CsvReading.ReadRow(csv) == (hs, "\n" + body);
    assert ("\n" + body)[0] == '\n' && ("\n" + body)[1..] == body;
    assert CsvReading.ReadLines(csv) == [hs] + CsvReading.ReadLines(body);
  }

  /** Reading an exported file gives back the header and, line by line, every
      record's values in header order, an unset value reading as empty. */
  lemma CsvRoundTrip(items: seq<Record>, file: GtfsFile)
    ensures CsvReading.ReadLines(ConvertArrayOfItemsToCsv(items, file))
         == [FieldsOf(file)] + Rows(items, FieldsOf(file))
  {
    HeaderUnescaped(file);
    CsvRoundTripWith(items, FieldsOf(file));
  }

  /** The values of every record in header order, as a reader sees them. */
  function Rows(items: seq<Record>, hs: seq<string>): (rows: seq<seq<string>>)
    ensures |rows| == |items|
  {
    seq(|items|, j requires 0 <= j < |items| => Texts(Cells(items[j], hs)))
  }

  /** agency.txt reads back as one line per agency after its header. */
  lemma ExportedAgencies(gtfs: RawGtfsStore.RawGtfs)
    requires gtfs.Valid()
    ensures CsvReading.ReadLines(BuildFilesByFileName(gtfs)[AgencyFileName])
         == [FieldsOf(Agency)] + Rows(gtfs.BuildArrayOfAgencies(), FieldsOf(Agency))
    ensures |CsvReading.ReadLines(BuildFilesByFileName(gtfs)[AgencyFileName])| == 1 + gtfs.GetNumberOfAgencies()
  {
    CsvRoundTrip(gtfs.BuildArrayOfAgencies(), Agency);
  }

  /** stops.txt reads back as one line per stop after its header. */
  lemma ExportedStops(gtfs: RawGtfsStore.RawGtfs)
    requires gtfs.Valid()
    ensures CsvReading.ReadLines(BuildFilesByFileName(gtfs)[StopFileName])
         == [FieldsOf(Stop)] + Rows(gtfs.BuildArrayOfStops(), FieldsOf(Stop))
    ensures |CsvReading.ReadLines(BuildFilesByFileName(gtfs)[StopFileName])| == 1 + gtfs.GetNumberOfStops()
  {
    CsvRoundTrip(gtfs.BuildArrayOfStops(), Stop);
  }

  /** routes.txt reads back as one line per route after its header. */
  lemma ExportedRoutes(gtfs: RawGtfsStore.RawGtfs)
    requires gtfs.Valid()
    ensures CsvReading.ReadLines(BuildFilesByFileName(gtfs)[RouteFileName])
         == [FieldsOf(Route)] + Rows(gtfs.BuildArrayOfRoutes(), FieldsOf(Route))
    ensures |CsvReading.ReadLines(BuildFilesByFileName(gtfs)[RouteFileName])| == 1 + gtfs.GetNumberOfRoutes()
  {
    CsvRoundTrip(gtfs.BuildArrayOfRoutes(), Route);
  }

  /** trips.txt reads back as one line per trip after its header. */
  lemma ExportedTrips(gtfs: RawGtfsStore.RawGtfs)
    requires gtfs.Valid()
    ensures CsvReading.ReadLines(BuildFilesByFileName(gtfs)[TripFileName])
         == [FieldsOf(Trip)] + Rows(gtfs.BuildArrayOfTrips(), FieldsOf(Trip))
    ensures |CsvReading.ReadLines(BuildFilesByFileName(gtfs)[TripFileName])| == 1 + gtfs.GetNumberOfTrips()
  {
    CsvRoundTrip(gtfs.BuildArrayOfTrips(), Trip);
  }

  /** stop_times.txt reads back as one line per stop time, trip after trip, after
      its header: stop times are counted one by one, not by trip. */
  lemma ExportedStopTimes(gtfs: RawGtfsStore.RawGtfs)
    requires gtfs.Valid()
    ensures CsvReading.ReadLines(BuildFilesByFileName(gtfs)[StopTimeFileName])
         == [FieldsOf(StopTime)] + Rows(Grouped.Flatten(gtfs.stopTimes), FieldsOf(StopTime))
    ensures |CsvReading.ReadLines(BuildFilesByFileName(gtfs)[StopTimeFileName])| == 1 + Grouped.Count(gtfs.stopTimes)
  {
    CsvRoundTrip(Grouped.Flatten(gtfs.stopTimes), StopTime);
    Grouped.FlattenLength(gtfs.stopTimes);
  }

  /** calendar.txt reads back as one line per calendar after its header. */
  lemma ExportedCalendars(gtfs: RawGtfsStore.RawGtfs)
    requires gtfs.Valid()
    ensures CsvReading.ReadLines(BuildFilesByFileName(gtfs)[CalendarFileName])
         == [FieldsOf(Calendar)] + Rows(gtfs.BuildArrayOfCalendars(), FieldsOf(Calendar))
    ensures |CsvReading.ReadLines(BuildFilesByFileName(gtfs)[CalendarFileName])| == 1 + gtfs.GetNumberOfCalendars()
  {
    CsvRoundTrip(gtfs.BuildArrayOfCalendars(), Calendar);
  }

  /** calendar_dates.txt reads back as one line per calendar date after its
      header: dates are counted one by one, not by service. */
  lemma ExportedCalendarDates(gtfs: RawGtfsStore.RawGtfs)
    requires gtfs.Valid()
    ensures CsvReading.ReadLines(BuildFilesByFileName(gtfs)[CalendarDateFileName])
         == [FieldsOf(CalendarDate)] + Rows(Grouped.Flatten(gtfs.calendarDates), FieldsOf(CalendarDate))
    ensures |CsvReading.ReadLines(BuildFilesByFileName(gtfs)[CalendarDateFileName])| == 1 + Grouped.Count(gtfs.calendarDates)
  {
    CsvRoundTrip(Grouped.Flatten(gtfs.calendarDates), CalendarDate);
    Grouped.FlattenLength(gtfs.calendarDates);
  }

  /** feed_info.txt always holds its header and exactly one line, the feed info's values. */
  lemma ExportedFeedInfo(gtfs: RawGtfsStore.RawGtfs)
    requires gtfs.Valid()
    ensures CsvReading.ReadLines(BuildFilesByFileName(gtfs)[FeedInfoFileName])
         == [FeedInfoFields, Texts(Cells(gtfs.feedInfo, FeedInfoFields))]
  {
    FeedInfoRoundTrip(gtfs.feedInfo);
  }

  lemma FeedInfoRoundTrip(r: Record)
    ensures CsvReading.ReadLines(ConvertArrayOfItemsToCsv([r], FeedInfo))
         == [FeedInfoFields, Texts(Cells(r, FeedInfoFields))]
  {
    SingleRecordRoundTrip(r, FeedInfo);
    assert FieldsOf(FeedInfo) == FeedInfoFields;
  }

  /** A file of one record reads back as its header and that record's values. */
  lemma SingleRecordRoundTrip(r: Record, file: GtfsFile)
    ensures CsvReading.ReadLines(ConvertArrayOfItemsToCsv([r], file))
         == [FieldsOf(file), Texts(Cells(r, FieldsOf(file)))]
  {
    CsvRoundTrip([r], file);
    assert Rows([r], FieldsOf(file)) == [Texts(Cells(r, FieldsOf(file)))];
  }

  /** The source's example: one calendar date. */
  lemma CalendarDateExample()
    ensures ConvertArrayOfItemsToCsv([map["service_id" := "1", "date" := "20250101", "exception_type" := "1"]], CalendarDate)
         == "service_id,date,exception_type\n1,20250101,1"
  {
    var item: Record := map["service_id" := "1", "date" := "20250101", "exception_type" := "1"];
    var hs := FieldsOf(CalendarDate);
    CalendarDateHeader();
    CalendarDateLine();
    assert Lines([item], hs) == [Join(EscapeAll(Cells(item, hs)), ',')];
    assert "service_id,date,exception_type" + "\n" + "1,20250101,1" == "service_id,date,exception_type\n1,20250101,1";
  }

  lemma CalendarDateHeader()
    ensures Join(FieldsOf(CalendarDate), ',') == "service_id,date,exception_type"
  {
    assert FieldsOf(CalendarDate) == ["service_id", "date", "exception_type"];
    JoinThree("service_id", "date", "exception_type", ',');
    assert "service_id" + [','] + "date" + [','] + "exception_type" == "service_id,date,exception_type";
  }

  lemma JoinThree(a: string, b: string, c: string, sep: char)
    ensures Join([a, b, c], sep) == a + [sep] + b + [sep] + c
  {
    assert [a, b, c][1..] == [b, c] && [b, c][1..] == [c];
    assert Join([c], sep) == c;
    assert Join([b, c], sep) == b + [sep] + c;
  }

  lemma CalendarDateLine()
    ensures Join(EscapeAll(Cells(map["service_id" := "1", "date" := "20250101", "exception_type" := "1"], FieldsOf(CalendarDate))), ',')
         == "1,20250101,1"
  {
    var item: Record := map["service_id" := "1", "date" := "20250101", "exception_type" := "1"];
    var hs := FieldsOf(CalendarDate);
    assert hs == ["service_id", "date", "exception_type"];
    assert Cells(item, hs) == [Some("1"), Some("20250101"), Some("1")];
    DigitsUnescaped("1");
    DigitsUnescaped("20250101");
    var es := ["1", "20250101", "1"];
    assert EscapeAll(Cells(item, hs)) == es;
    JoinThree("1", "20250101", "1", ',');
    assert "1" + [','] + "20250101" + [','] + "1" == "1,20250101,1";
  }

  /** A string of digits is written as it is. */
  lemma DigitsUnescaped(s: string)
    requires s != [] && forall k :: 0 <= k < |s| ==> '0' <= s[k] <= '9'
    ensures EscapeValue(Some(s)) == s
  {
    forall k | 0 <= k < |s| ensures s[k] != ',' && s[k] != '\n' && s[k] != '"' && s[k] != '\'' {
    }
  }

  /** The feed info of a store built without one reads back as its three
      placeholders followed by six empty fields. */
  lemma DefaultFeedInfoExample()
    ensures CsvReading.ReadLines(ConvertArrayOfItemsToCsv([RawGtfsStore.EnsureFeedInfo(None)], FeedInfo))
         == [FeedInfoFields, [RawGtfsStore.DefaultFeedPublisherName, RawGtfsStore.DefaultFeedPublisherUrl,
                              RawGtfsStore.DefaultFeedLang, "", "", "", "", "", ""]]
  {
    FeedInfoRoundTrip(RawGtfsStore.EnsureFeedInfo(None));
    DefaultFeedInfoCells();
  }

  lemma DefaultFeedInfoCells()
    ensures Texts(Cells(RawGtfsStore.EnsureFeedInfo(None), FeedInfoFields))
         == [RawGtfsStore.DefaultFeedPublisherName, RawGtfsStore.DefaultFeedPublisherUrl,
             RawGtfsStore.DefaultFeedLang, "", "", "", "", "", ""]
  {
    var item := RawGtfsStore.EnsureFeedInfo(None);
    var hs := FeedInfoFields;
    assert |FeedPublisherNameField| == 19 && |FeedPublisherUrlField| == 18 && |FeedLangField| == 9;
    assert hs[0] == FeedPublisherNameField && hs[1] == FeedPublisherUrlField && hs[2] == FeedLangField;
    assert |hs[3]| == 12 && |hs[4]| == 15 && |hs[5]| == 13 && |hs[6]| == 12 && |hs[8]| == 16;
    assert hs[7][5] == 'c' && FeedPublisherUrlField[5] == 'p' && |hs[7]| == 18;
    assert forall k :: 3 <= k < 9 ==> hs[k] !in item;
  }
}

=== FILE: grouped.dfy ===
/** The two-level tables of the store: a `Map<string, Map<string, Item>>` keyed
    first by an outer field and then by an inner one. Stop times are grouped by
    `trip_id` then `stop_sequence`, calendar dates by `service_id` then `date`.
    A group is created the first time a record of it is set and is removed when
    its last record is deleted, so no group is ever empty. */
module Grouped {
  import opened Wrappers
  import opened GtfsSchema
  import OM = OrderedMaps
  import Indexing

  type Group = Indexing.Table
  type Nested = OM.OrderedMap<Key, Group>

  /** The outer map and every group in it are valid ordered maps. */
  ghost predicate GroupsValid(t: Nested) {
    && OM.Valid(t)
    && forall o :: o in t.entries ==> OM.Valid(t.entries[o])
  }

  /** A group under outer key `o`: non-empty, every record under its own inner key
      and carrying `o` in its outer field. */
  ghost predicate GroupWellFormed(g: Group, o: Key, outer: string, inner: string) {
    && Indexing.KeyedBy(g, inner)
    && OM.Size(g) > 0
    && forall i :: i in g.entries ==> Field(g.entries[i], outer) == o
  }

  ghost predicate WellFormed(t: Nested, outer: string, inner: string) {
    && GroupsValid(t)
    && forall o :: o in t.entries ==> GroupWellFormed(t.entries[o], o, outer, inner)
  }

  /** The group under `o`, or an empty one. */
  function GroupOf(t: Nested, o: Key): (g: Group)
    requires GroupsValid(t)
    ensures OM.Valid(g)
    ensures o !in t.entries ==> OM.Size(g) == 0
  {
    if o in t.entries then t.entries[o] else OM.Empty()
  }

  /** `map.get(o)?.get(i)` */
  function Lookup(t: Nested, o: Key, i: Key): Option<Record> {
    if o in t.entries then OM.Get(t.entries[o], i) else None
  }

  /** `Array.from(map.get(o)?.values() || [])`: the records of one group in
      insertion order, none for an unknown outer key. */
  function GroupValues(t: Nested, o: Key): (rs: seq<Record>)
    requires GroupsValid(t)
    ensures |rs| == OM.Size(GroupOf(t, o))
    ensures forall j :: 0 <= j < |rs| ==> Lookup(t, o, GroupOf(t, o).keys[j]) == Some(rs[j])
  {
    OM.Values(GroupOf(t, o))
  }

  /** `setStopTime` / `setCalendarDate`: create the record's group if it is
      missing, then set the record in it under its inner key. */
  function SetIn(t: Nested, r: Record, outer: string, inner: string): (t': Nested)
    requires GroupsValid(t)
    ensures GroupsValid(t')
    ensures Lookup(t', Field(r, outer), Field(r, inner)) == Some(r)
    ensures forall o, i :: (o != Field(r, outer) || i != Field(r, inner)) ==> Lookup(t', o, i) == Lookup(t, o, i)
  {
    var o := Field(r, outer);
    OM.Set(t, o, OM.Set(GroupOf(t, o), Field(r, inner), r))
  }

  /** `setStopTime`'s two steps: an empty group is created under a new outer
      key, then the record is set in the group found there. */
  lemma SetInSteps(t: Nested, t1: Nested, r: Record, outer: string, inner: string)
    requires GroupsValid(t)
    requires t1 == if Field(r, outer) in t.entries then t else OM.Set(t, Field(r, outer), OM.Empty())
    ensures Field(r, outer) in t1.entries
    ensures OM.Set(t1, Field(r, outer), OM.Set(t1.entries[Field(r, outer)], Field(r, inner), r)) == SetIn(t, r, outer, inner)
  {
    var o := Field(r, outer);
    assert OM.Get(t1, o).Some?;
    if o !in t.entries {
      assert t1.entries[o] == OM.Empty();
      OM.SetTwice(t, o, OM.Empty(), OM.Set(OM.Empty(), Field(r, inner), r));
    }
  }

  /** `deleteStopTimeWithoutDeletingReferences` and its calendar-date twin: delete
      the inner key from the group, then drop the group if it is now empty. */
  function DeleteIn(t: Nested, o: Key, i: Key): (t': Nested)
    requires GroupsValid(t)
    ensures GroupsValid(t')
  {
    if o !in t.entries then t
    else
      var g := OM.Delete(t.entries[o], i);
      if OM.Size(g) == 0 then OM.Delete(t, o) else OM.Set(t, o, g)
  }

  /** On a well-formed table, deleting removes exactly one record and nothing else. */
  lemma DeleteInLookup(t: Nested, outer: string, inner: string, o: Key, i: Key)
    requires WellFormed(t, outer, inner)
    ensures Lookup(DeleteIn(t, o, i), o, i) == None
    ensures forall o', i' :: (o' != o || i' != i) ==> Lookup(DeleteIn(t, o, i), o', i') == Lookup(t, o', i')
  {
  }

  /** Setting a record keeps the table well formed. */
  lemma SetInWellFormed(t: Nested, r: Record, outer: string, inner: string)
    requires WellFormed(t, outer, inner)
    ensures WellFormed(SetIn(t, r, outer, inner), outer, inner)
  {
    var o := Field(r, outer);
    var g0 := GroupOf(t, o);
    var g := OM.Set(g0, Field(r, inner), r);
    assert SetIn(t, r, outer, inner) == OM.Set(t, o, g);
    SetRecordWellFormed(g0, r, o, outer, inner);
    SetGroupWellFormed(t, o, g, outer, inner);
  }

  /** A record set in a group under its own inner key, carrying the group's
      outer key, leaves a well-formed group. */
  lemma SetRecordWellFormed(g: Group, r: Record, o: Key, outer: string, inner: string)
    requires Indexing.KeyedBy(g, inner)
    requires forall i :: i in g.entries ==> Field(g.entries[i], outer) == o
    requires Field(r, outer) == o
    ensures GroupWellFormed(OM.Set(g, Field(r, inner), r), o, outer, inner)
  {
    var g' := OM.Set(g, Field(r, inner), r);
    forall i | i in g'.entries ensures Field(g'.entries[i], outer) == o && Field(g'.entries[i], inner) == i {
      assert OM.Get(g', i).Some?;
      if i != Field(r, inner) {
        assert OM.Get(g', i) == OM.Get(g, i);
      }
    }
  }

  /** A well-formed group set under its own outer key keeps the table well formed. */
  lemma SetGroupWellFormed(t: Nested, o: Key, g: Group, outer: string, inner: string)
    requires WellFormed(t, outer, inner)
    requires GroupWellFormed(g, o, outer, inner)
    ensures WellFormed(OM.Set(t, o, g), outer, inner)
  {
    var t' := OM.Set(t, o, g);
    forall o' | o' in t'.entries ensures GroupWellFormed(t'.entries[o'], o', outer, inner) {
      assert OM.Get(t', o').Some?;
      if o' != o {
        assert OM.Get(t', o') == OM.Get(t, o');
      }
    }
  }

  /** Deleting a record keeps the table well formed: a group left empty is removed. */
  lemma DeleteInWellFormed(t: Nested, outer: string, inner: string, o: Key, i: Key)
    requires WellFormed(t, outer, inner)
    ensures WellFormed(DeleteIn(t, o, i), outer, inner)
  {
    if o in t.entries {
      var g := OM.Delete(t.entries[o], i);
      if OM.Size(g) != 0 {
        assert GroupWellFormed(g, o, outer, inner);
      }
    }
  }

  /** Dropping a whole group keeps the table well formed. */
  lemma DeleteGroupWellFormed(t: Nested, outer: string, inner: string, o: Key)
    requires WellFormed(t, outer, inner)
    ensures WellFormed(OM.Delete(t, o), outer, inner)
  {
  }

  /** Replacing a group by its own copy without one inner key, while leaving
      it in place even if it becomes empty, keeps every group valid. */
  lemma DeleteInPlaceValid(t: Nested, o: Key, i: Key)
    requires GroupsValid(t) && o in t.entries
    ensures GroupsValid(OM.Set(t, o, OM.Delete(t.entries[o], i)))
  {
  }

  // ---------------------------------------------------------------------------
  // Counting and listing all records

  function Sum(s: seq<nat>): nat {
    if s == [] then 0 else s[0] + Sum(s[1..])
  }

  lemma {:induction false} SumAppend(a: seq<nat>, b: seq<nat>)
    ensures Sum(a + b) == Sum(a) + Sum(b)
  {
    if a == [] {
      assert a + b == b;
    } else {
      assert (a + b)[1..] == a[1..] + b;
      SumAppend(a[1..], b);
    }
  }

  /** Removing one entry from a sum subtracts it. */
  lemma {:induction false} SumRemove(s: seq<nat>, j: nat)
    requires j < |s|
    ensures Sum(s[..j] + s[j + 1..]) + s[j] == Sum(s)
  {
    var front, back := s[..j], s[j + 1..];
    var rest := [s[j]] + back;
    assert s == front + rest;
    assert rest[0] == s[j] && rest[1..] == back;
    assert Sum(rest) == s[j] + Sum(back);
    SumAppend(front, rest);
    SumAppend(front, back);
  }

  /** Replacing one entry of a sum changes the sum by the difference. */
  lemma SumUpdate(s: seq<nat>, j: nat, v: nat)
    requires j < |s|
    ensures Sum(s[j := v]) + s[j] == Sum(s) + v
  {
    SumRemove(s, j);
    SumRemove(s[j := v], j);
    assert s[j := v][..j] == s[..j];
    assert s[j := v][j + 1..] == s[j + 1..];
  }

  /** The size of every group, in outer-key order. */
  function Sizes(t: Nested): (ns: seq<nat>)
    requires GroupsValid(t)
    ensures |ns| == |t.keys|
  {
    seq(|t.keys|, j requires 0 <= j < |t.keys| => OM.Size(t.entries[t.keys[j]]))
  }

  /** The total number of records of the table: the sum of the group sizes. */
  ghost function Count(t: Nested): nat
    requires GroupsValid(t)
  {
    Sum(Sizes(t))
  }

  /** Replacing the group under a present outer key changes the count by the
      difference of the two sizes. */
  lemma ReplaceGroupCount(t: Nested, j: nat, g: Group)
    requires GroupsValid(t) && OM.Valid(g) && j < |t.keys|
    ensures Count(OM.Set(t, t.keys[j], g)) + OM.Size(t.entries[t.keys[j]]) == Count(t) + OM.Size(g)
  {
    var o := t.keys[j];
    var t' := OM.Set(t, o, g);
    assert Sizes(t') == Sizes(t)[j := OM.Size(g)] by {
      forall j' | 0 <= j' < |t.keys| ensures Sizes(t')[j'] == Sizes(t)[j := OM.Size(g)][j'] {
        if j' != j {
          assert t.keys[j'] != o;
        }
      }
    }
    SumUpdate(Sizes(t), j, OM.Size(g));
  }

  /** A group under a new outer key adds its size to the count. */
  lemma AddGroupCount(t: Nested, o: Key, g: Group)
    requires GroupsValid(t) && OM.Valid(g) && o !in t.entries
    ensures Count(OM.Set(t, o, g)) == Count(t) + OM.Size(g)
  {
    var t' := OM.Set(t, o, g);
    assert Sizes(t') == Sizes(t) + [OM.Size(g)] by {
      forall j' | 0 <= j' < |t.keys| ensures Sizes(t')[j'] == Sizes(t)[j'] {
        assert t.keys[j'] != o;
      }
    }
    SumAppend(Sizes(t), [OM.Size(g)]);
  }

  /** Removing a group takes its size off the count. */
  lemma RemoveGroupCount(t: Nested, j: nat)
    requires GroupsValid(t) && j < |t.keys|
    ensures Count(OM.Delete(t, t.keys[j])) + OM.Size(t.entries[t.keys[j]]) == Count(t)
  {
    var o := t.keys[j];
    var t' := OM.Delete(t, o);
    OM.DeleteKeys(t, o, j);
    var ns := Sizes(t);
    var ms := ns[..j] + ns[j + 1..];
    forall j' | 0 <= j' < |t'.keys| ensures Sizes(t')[j'] == ms[j'] {
      OM.SkipIndex(t.keys, j, j');
      OM.SkipIndex(ns, j, j');
      var x := t'.keys[j'];
      assert x != o && OM.Get(t', x) == OM.Get(t, x);
    }
    assert Sizes(t') == ms;
    SumRemove(ns, j);
  }

  /** Setting a record adds one to the count exactly when its pair of keys was new. */
  lemma SetInCount(t: Nested, r: Record, outer: string, inner: string)
    requires GroupsValid(t)
    ensures Count(SetIn(t, r, outer, inner))
         == Count(t) + if Lookup(t, Field(r, outer), Field(r, inner)).None? then 1 else 0
  {
    var o, i := Field(r, outer), Field(r, inner);
    var g' := OM.Set(GroupOf(t, o), i, r);
    if o in t.entries {
      var j :| 0 <= j < |t.keys| && t.keys[j] == o;
      ReplaceGroupCount(t, j, g');
    } else {
      AddGroupCount(t, o, g');
    }
  }

  /** Deleting takes one off the count exactly when the record was there. */
  lemma DeleteInCount(t: Nested, outer: string, inner: string, o: Key, i: Key)
    requires WellFormed(t, outer, inner)
    ensures Count(DeleteIn(t, o, i)) == Count(t) - if Lookup(t, o, i).Some? then 1 else 0
  {
    if o in t.entries {
      var g := OM.Delete(t.entries[o], i);
      var j :| 0 <= j < |t.keys| && t.keys[j] == o;
      if OM.Size(g) == 0 {
        RemoveGroupCount(t, j);
      } else {
        ReplaceGroupCount(t, j, g);
      }
    }
  }

  function Concat(ss: seq<seq<Record>>): seq<Record> {
    if ss == [] then [] else ss[0] + Concat(ss[1..])
  }

  lemma {:induction false} ConcatMembers(ss: seq<seq<Record>>, x: Record)
    ensures x in Concat(ss) <==> exists j :: 0 <= j < |ss| && x in ss[j]
  {
    if ss != [] {
      ConcatMembers(ss[1..], x);
      if exists j :: 0 <= j < |ss| && x in ss[j] {
        var j :| 0 <= j < |ss| && x in ss[j];
        if j > 0 {
          assert x in ss[1..][j - 1];
        }
      }
      if exists j :: 0 <= j < |ss[1..]| && x in ss[1..][j] {
        var j :| 0 <= j < |ss[1..]| && x in ss[1..][j];
        assert x in ss[j + 1];
      }
    }
  }

  lemma {:induction false} ConcatLength(ss: seq<seq<Record>>, ns: seq<nat>)
    requires |ss| == |ns|
    requires forall j :: 0 <= j < |ss| ==> |ss[j]| == ns[j]
    ensures |Concat(ss)| == Sum(ns)
  {
    if ss != [] {
      ConcatLength(ss[1..], ns[1..]);
    }
  }

  /** The listing of every group, in outer-key order. */
  function Listings(t: Nested): (ls: seq<seq<Record>>)
    requires GroupsValid(t)
    ensures |ls| == |t.keys|
  {
    seq(|t.keys|, j requires 0 <= j < |t.keys| => OM.Values(t.entries[t.keys[j]]))
  }

  /** `buildArrayOfStopTimes` / `buildArrayOfCalendarDates`: the groups' records
      one group after the other, in insertion order. */
  function Flatten(t: Nested): seq<Record>
    requires GroupsValid(t)
  {
    Concat(Listings(t))
  }

  /** The flat listing has one entry per record counted. */
  lemma FlattenLength(t: Nested)
    requires GroupsValid(t)
    ensures |Flatten(t)| == Count(t)
  {
    ConcatLength(Listings(t), Sizes(t));
  }

  /** The flat listing holds exactly the records that a lookup can return. */
  lemma FlattenMembers(t: Nested, x: Record)
    requires GroupsValid(t)
    ensures x in Flatten(t) <==> exists o, i :: Lookup(t, o, i) == Some(x)
  {
    ConcatMembers(Listings(t), x);
    if x in Flatten(t) {
      var j :| 0 <= j < |t.keys| && x in Listings(t)[j];
      OM.ValuesMembers(t.entries[t.keys[j]], x);
      var i :| OM.Get(t.entries[t.keys[j]], i) == Some(x);
      assert Lookup(t, t.keys[j], i) == Some(x);
    }
    if exists o, i :: Lookup(t, o, i) == Some(x) {
      var o, i :| Lookup(t, o, i) == Some(x);
      var j :| 0 <= j < |t.keys| && t.keys[j] == o;
      OM.ValuesMembers(t.entries[o], x);
      assert x in Listings(t)[j];
    }
  }

  /** `getNumberOfStopTimes`: the group sizes added up over the outer keys. */
  method CountRecords(t: Nested) returns (n: nat)
    requires GroupsValid(t)
    ensures n == Count(t)
    ensures n == |Flatten(t)|
  {
    n := 0;
    var j := 0;
    while j < |t.keys|
      invariant 0 <= j <= |t.keys|
      invariant n + Sum(Sizes(t)[j..]) == Count(t)
    {
      assert Sizes(t)[j..][1..] == Sizes(t)[j + 1..];
      n := n + OM.Size(t.entries[t.keys[j]]);
      j := j + 1;
    }
    FlattenLength(t);
  }

  /** Pushes the records of one group, in its order. */
  method PushGroup(rs: seq<Record>, g: Group) returns (rs': seq<Record>)
    requires OM.Valid(g)
    ensures rs' == rs + OM.Values(g)
  {
    rs' := rs;
    var k := 0;
    while k < |g.keys|
      invariant 0 <= k <= |g.keys|
      invariant rs' == rs + OM.Values(g)[..k]
    {
      assert OM.Values(g)[..k + 1] == OM.Values(g)[..k] + [g.entries[g.keys[k]]];
      rs' := rs' + [g.entries[g.keys[k]]];
      k := k + 1;
    }
    assert OM.Values(g)[..k] == OM.Values(g);
  }

  lemma ConcatStep(ls: seq<seq<Record>>, j: nat, acc: seq<Record>)
    requires j < |ls|
    ensures acc + Concat(ls[j..]) == (acc + ls[j]) + Concat(ls[j + 1..])
  {
    assert ls[j..][1..] == ls[j + 1..];
  }

  /** `buildArrayOfStopTimes` / `buildArrayOfCalendarDates`: every record pushed
      group by group, each group in its own order. */
  method CollectRecords(t: Nested) returns (rs: seq<Record>)
    requires GroupsValid(t)
    ensures rs == Flatten(t)
    ensures |rs| == Count(t)
  {
    rs := [];
    var j := 0;
    while j < |t.keys|
      invariant 0 <= j <= |t.keys|
      invariant rs + Concat(Listings(t)[j..]) == Flatten(t)
    {
      ConcatStep(Listings(t), j, rs);
      rs := PushGroup(rs, t.entries[t.keys[j]]);
      j := j + 1;
    }
    assert Listings(t)[j..] == [];
    FlattenLength(t);
  }

  // ---------------------------------------------------------------------------
  // Bulk indexing

  /** `indexByTwoKeys`' reduce: the items set one after the other, in list order. */
  function SetEach(t: Nested, items: seq<Record>, outer: string, inner: string): (t': Nested)
    requires GroupsValid(t)
    ensures GroupsValid(t')
    decreases |items|
  {
    if items == [] then t
    else SetIn(SetEach(t, items[..|items| - 1], outer, inner), items[|items| - 1], outer, inner)
  }

  /** One more item set after the first `k`. */
  lemma SetEachSnoc(t: Nested, items: seq<Record>, outer: string, inner: string, k: nat)
    requires GroupsValid(t) && k < |items|
    ensures SetEach(t, items[..k + 1], outer, inner) == SetIn(SetEach(t, items[..k], outer, inner), items[k], outer, inner)
  {
    assert items[..k + 1][..k] == items[..k];
  }

  /** `indexByTwoKeys(items, outer, inner)`; a missing list indexes like the empty one. */
  function IndexByTwoKeys(items: seq<Record>, outer: string, inner: string): (t: Nested)
    ensures GroupsValid(t)
  {
    SetEach(OM.Empty(), items, outer, inner)
  }

  /** The last record of the list carrying the pair of keys `(o, i)`, if any. */
  function LastWithKeys(items: seq<Record>, outer: string, inner: string, o: Key, i: Key): (r: Option<Record>)
    ensures r.Some? ==> r.value in items && Field(r.value, outer) == o && Field(r.value, inner) == i
    ensures r.None? <==> forall j :: 0 <= j < |items| ==> Field(items[j], outer) != o || Field(items[j], inner) != i
    decreases |items|
  {
    if items == [] then None
    else
      var last := items[|items| - 1];
      if Field(last, outer) == o && Field(last, inner) == i then Some(last)
      else LastWithKeys(items[..|items| - 1], outer, inner, o, i)
  }

  /** Later records win: after bulk indexing, a pair of keys holds the last
      record of the list carrying it, and other pairs keep what the table had. */
  lemma {:induction false} SetEachLookup(t: Nested, items: seq<Record>, outer: string, inner: string, o: Key, i: Key)
    requires GroupsValid(t)
    ensures Lookup(SetEach(t, items, outer, inner), o, i)
         == if LastWithKeys(items, outer, inner, o, i).Some? then LastWithKeys(items, outer, inner, o, i)
            else Lookup(t, o, i)
    decreases |items|
  {
    if items != [] {
      SetEachLookup(t, items[..|items| - 1], outer, inner, o, i);
    }
  }

  /** Bulk indexing keeps the table well formed. */
  lemma {:induction false} SetEachWellFormed(t: Nested, items: seq<Record>, outer: string, inner: string)
    requires WellFormed(t, outer, inner)
    ensures WellFormed(SetEach(t, items, outer, inner), outer, inner)
    decreases |items|
  {
    if items != [] {
      SetEachWellFormed(t, items[..|items| - 1], outer, inner);
      SetInWellFormed(SetEach(t, items[..|items| - 1], outer, inner), items[|items| - 1], outer, inner);
    }
  }

  /** A built two-key index is well formed. */
  lemma IndexByTwoKeysWellFormed(items: seq<Record>, outer: string, inner: string)
    ensures WellFormed(IndexByTwoKeys(items, outer, inner), outer, inner)
  {
    SetEachWellFormed(OM.Empty(), items, outer, inner);
  }

  /** Records that all belong to one group land in that group, in the order a
      single-key index of the group would give them. */
  lemma {:induction false} SetEachOneGroup(t: Nested, items: seq<Record>, outer: string, inner: string, o: Key)
    requires GroupsValid(t) && items != []
    requires forall j :: 0 <= j < |items| ==> Field(items[j], outer) == o
    ensures SetEach(t, items, outer, inner) == OM.Set(t, o, Indexing.SetAll(GroupOf(t, o), items, inner))
    decreases |items|
  {
    var n := |items| - 1;
    var front, x := items[..n], items[n];
    if front == [] {
      assert Indexing.SetAll(GroupOf(t, o), front, inner) == GroupOf(t, o);
    } else {
      SetEachOneGroup(t, front, outer, inner, o);
      var g := Indexing.SetAll(GroupOf(t, o), front, inner);
      OM.SetTwice(t, o, g, OM.Set(g, Field(x, inner), x));
    }
  }

  /** If exactly one record of the list carries the pair `(o, i)`, the lookup finds it. */
  lemma {:induction false} LastWithKeysUnique(items: seq<Record>, outer: string, inner: string, o: Key, i: Key, j: nat)
    requires j < |items| && Field(items[j], outer) == o && Field(items[j], inner) == i
    requires forall j' :: 0 <= j' < |items| && j' != j ==> Field(items[j'], outer) != o || Field(items[j'], inner) != i
    ensures LastWithKeys(items, outer, inner, o, i) == Some(items[j])
    decreases |items|
  {
    if j < |items| - 1 {
      LastWithKeysUnique(items[..|items| - 1], outer, inner, o, i, j);
    }
  }

  // ---------------------------------------------------------------------------
  // Moving records to other keys

  /** The records with their field `field` set to `v`. */
  function Retag(rs: seq<Record>, field: string, v: string): (r: seq<Record>)
    ensures |r| == |rs|
  {
    seq(|rs|, j requires 0 <= j < |rs| => rs[j][field := v])
  }

  /** The records of a group retagged with outer key `to`: each one is found
      under `to` and its own inner key. */
  lemma RetagLast(g: Group, outer: string, inner: string, to: string, o: Key, i: Key)
    requires Indexing.KeyedBy(g, inner) && outer != inner
    ensures LastWithKeys(Retag(OM.Values(g), outer, to), outer, inner, o, i)
         == if o == Some(to) && i in g.entries then Some(g.entries[i][outer := to]) else None
  {
    var vs := OM.Values(g);
    var items := Retag(vs, outer, to);
    forall j | 0 <= j < |items| ensures Field(items[j], outer) == Some(to) && Field(items[j], inner) == g.keys[j] {
      assert items[j] == vs[j][outer := to];
      assert OM.Get(g, g.keys[j]) == Some(vs[j]);
    }
    if o == Some(to) && i in g.entries {
      var j :| 0 <= j < |g.keys| && g.keys[j] == i;
      assert OM.Get(g, i) == Some(vs[j]);
      LastWithKeysUnique(items, outer, inner, o, i, j);
    }
  }

  /** `updateStopTimesTripIdWithoutUpdatingReferences` and
      `updateCalendarDateServiceIdWithoutUpdatingReferences`: the group under
      `from` is removed and each of its records, in order, gets `to` in its
      outer field and is set again, merging into the group of `to` if there is one. */
  function MoveGroup(t: Nested, from: string, to: string, outer: string, inner: string): (t': Nested)
    requires GroupsValid(t)
    ensures GroupsValid(t')
  {
    if Some(from) in t.entries then
      SetEach(OM.Delete(t, Some(from)), Retag(OM.Values(t.entries[Some(from)]), outer, to), outer, inner)
    else t
  }

  /** After a group move, every record of the old group is found under the new
      outer key with that key in its outer field, and an inner key the old group
      lacked keeps what the new group had (nothing, when the two keys are equal). */
  lemma MoveGroupTarget(t: Nested, from: string, to: string, outer: string, inner: string, i: Key)
    requires WellFormed(t, outer, inner) && outer != inner
    ensures Lookup(t, Some(from), i).Some?
        ==> Lookup(MoveGroup(t, from, to, outer, inner), Some(to), i) == Some(Lookup(t, Some(from), i).value[outer := to])
    ensures Lookup(t, Some(from), i).None?
        ==> Lookup(MoveGroup(t, from, to, outer, inner), Some(to), i) == if from == to then None else Lookup(t, Some(to), i)
  {
    if Some(from) in t.entries {
      var g := t.entries[Some(from)];
      var items := Retag(OM.Values(g), outer, to);
      SetEachLookup(OM.Delete(t, Some(from)), items, outer, inner, Some(to), i);
      RetagLast(g, outer, inner, to, Some(to), i);
    }
  }

  /** After a group move to another key, the old outer key holds nothing. */
  lemma MoveGroupSource(t: Nested, from: string, to: string, outer: string, inner: string, i: Key)
    requires WellFormed(t, outer, inner) && outer != inner && from != to
    ensures Lookup(MoveGroup(t, from, to, outer, inner), Some(from), i) == None
  {
    if Some(from) in t.entries {
      var g := t.entries[Some(from)];
      var items := Retag(OM.Values(g), outer, to);
      SetEachLookup(OM.Delete(t, Some(from)), items, outer, inner, Some(from), i);
      RetagLast(g, outer, inner, to, Some(from), i);
    }
  }

  /** A group move leaves every other group untouched. */
  lemma MoveGroupOthers(t: Nested, from: string, to: string, outer: string, inner: string, o: Key, i: Key)
    requires WellFormed(t, outer, inner) && outer != inner
    requires o != Some(from) && o != Some(to)
    ensures Lookup(MoveGroup(t, from, to, outer, inner), o, i) == Lookup(t, o, i)
  {
    if Some(from) in t.entries {
      var g := t.entries[Some(from)];
      var items := Retag(OM.Values(g), outer, to);
      SetEachLookup(OM.Delete(t, Some(from)), items, outer, inner, o, i);
      RetagLast(g, outer, inner, to, o, i);
    }
  }

  /** A group move keeps the table well formed. */
  lemma MoveGroupWellFormed(t: Nested, from: string, to: string, outer: string, inner: string)
    requires WellFormed(t, outer, inner)
    ensures WellFormed(MoveGroup(t, from, to, outer, inner), outer, inner)
  {
    if Some(from) in t.entries {
      SetEachWellFormed(OM.Delete(t, Some(from)), Retag(OM.Values(t.entries[Some(from)]), outer, to), outer, inner);
    }
  }

  /** Retagging a group keeps its inner keys, in order. */
  lemma RetagKeys(g: Group, outer: string, inner: string, to: string)
    requires Indexing.KeyedBy(g, inner) && outer != inner
    ensures Indexing.KeysOf(Retag(OM.Values(g), outer, to), inner) == g.keys
  {
    var vs := OM.Values(g);
    forall j | 0 <= j < |g.keys| ensures Field(Retag(vs, outer, to)[j], inner) == g.keys[j] {
      assert OM.Get(g, g.keys[j]) == Some(vs[j]);
    }
  }

  /** Moving a group to an outer key no group uses (or to its own key) keeps the
      number of records, moves the group to the end of the outer order and keeps
      the order of its records. */
  lemma MoveGroupFresh(t: Nested, from: string, to: string, outer: string, inner: string)
    requires WellFormed(t, outer, inner) && outer != inner
    requires Some(from) in t.entries
    requires Some(to) !in t.entries || from == to
    ensures Count(MoveGroup(t, from, to, outer, inner)) == Count(t)
    ensures MoveGroup(t, from, to, outer, inner).keys == OM.RemoveKey(t.keys, Some(from)) + [Some(to)]
    ensures GroupValues(MoveGroup(t, from, to, outer, inner), Some(to))
         == Retag(GroupValues(t, Some(from)), outer, to)
  {
    var items := Retag(OM.Values(t.entries[Some(from)]), outer, to);
    var g' := Indexing.IndexByOneKey(items, inner);
    MoveGroupFreshForm(t, from, to, outer, inner);
    MoveGroupFreshValues(t, from, to, outer, inner);
    MoveGroupFreshCount(t, from, to, g');
  }

  /** The rebuilt group lists the retagged records in their old order. */
  lemma MoveGroupFreshValues(t: Nested, from: string, to: string, outer: string, inner: string)
    requires WellFormed(t, outer, inner) && outer != inner
    requires Some(from) in t.entries
    ensures
      var items := Retag(OM.Values(t.entries[Some(from)]), outer, to);
      OM.Values(Indexing.IndexByOneKey(items, inner)) == items
  {
    var g := t.entries[Some(from)];
    var items := Retag(OM.Values(g), outer, to);
    RetagKeys(g, outer, inner, to);
    Indexing.IndexByOneKeyValues(items, inner);
  }

  /** Replacing a group by one of the same size under a fresh key keeps the count. */
  lemma MoveGroupFreshCount(t: Nested, from: string, to: string, g': Group)
    requires GroupsValid(t) && OM.Valid(g')
    requires Some(from) in t.entries
    requires Some(to) !in OM.Delete(t, Some(from)).entries
    requires OM.Size(g') == OM.Size(t.entries[Some(from)])
    ensures Count(OM.Set(OM.Delete(t, Some(from)), Some(to), g')) == Count(t)
  {
    var d := OM.Delete(t, Some(from));
    AddGroupCount(d, Some(to), g');
    var j :| 0 <= j < |t.keys| && t.keys[j] == Some(from);
    RemoveGroupCount(t, j);
  }

  /** A group moved to a key no other group uses is rebuilt from its retagged
      records and set under that key, after the old group is removed. */
  lemma MoveGroupFreshForm(t: Nested, from: string, to: string, outer: string, inner: string)
    requires WellFormed(t, outer, inner)
    requires Some(from) in t.entries
    requires Some(to) !in t.entries || from == to
    ensures
      var d := OM.Delete(t, Some(from));
      && Some(to) !in d.entries
      && MoveGroup(t, from, to, outer, inner)
         == OM.Set(d, Some(to), Indexing.IndexByOneKey(Retag(OM.Values(t.entries[Some(from)]), outer, to), inner))
  {
    var g := t.entries[Some(from)];
    var d := OM.Delete(t, Some(from));
    var vs := OM.Values(g);
    var items := Retag(vs, outer, to);
    assert OM.Get(d, Some(to)).None?;
    assert |items| == OM.Size(g) > 0;
    forall j | 0 <= j < |items| ensures Field(items[j], outer) == Some(to) {
      assert items[j] == vs[j][outer := to];
    }
    SetEachOneGroup(d, items, outer, inner, Some(to));
    assert GroupOf(d, Some(to)) == OM.Empty();
  }

  /** `updateStopTimeStopSequenceWithoutUpdatingReferences`: within the group of
      `o`, the record under `from` is deleted, gets `to` in its inner field and is
      set again. The group is not dropped in between, so it keeps its place. */
  function MoveRecord(t: Nested, o: string, from: string, to: string, outer: string, inner: string): (t': Nested)
    requires GroupsValid(t)
    ensures GroupsValid(t')
  {
    if Lookup(t, Some(o), Some(from)).None? then t
    else
      var g := t.entries[Some(o)];
      var r := g.entries[Some(from)];
      SetIn(OM.Set(t, Some(o), OM.Delete(g, Some(from))), r[inner := to], outer, inner)
  }

  /** On a well-formed table, moving a record puts it, retagged, under the new
      inner key of the same group; the old inner key is freed; nothing else changes;
      the table stays well formed; and an unknown record leaves the table as it was. */
  lemma MoveRecordLookup(t: Nested, o: string, from: string, to: string, outer: string, inner: string)
    requires WellFormed(t, outer, inner) && outer != inner
    ensures Lookup(t, Some(o), Some(from)).None? ==> MoveRecord(t, o, from, to, outer, inner) == t
    ensures Lookup(t, Some(o), Some(from)).Some? ==>
              Lookup(MoveRecord(t, o, from, to, outer, inner), Some(o), Some(to))
                == Some(Lookup(t, Some(o), Some(from)).value[inner := to])
    ensures from != to ==> Lookup(MoveRecord(t, o, from, to, outer, inner), Some(o), Some(from)) == None
    ensures forall o', i' :: (o' != Some(o) || (i' != Some(from) && i' != Some(to)))
              ==> Lookup(MoveRecord(t, o, from, to, outer, inner), o', i') == Lookup(t, o', i')
    ensures WellFormed(MoveRecord(t, o, from, to, outer, inner), outer, inner)
  {
    if Lookup(t, Some(o), Some(from)).Some? {
      var g := t.entries[Some(o)];
      var r := g.entries[Some(from)];
      var d := OM.Delete(g, Some(from));
      var r' := r[inner := to];
      var g' := OM.Set(d, Some(to), r');
      MoveRecordForm(t, o, from, to, outer, inner);
      assert MoveRecord(t, o, from, to, outer, inner) == OM.Set(t, Some(o), g');
      SetInPlaceLookup(t, Some(o), g');
      assert Field(r', outer) == Some(o) && Field(r', inner) == Some(to);
      DeleteRecordKeyed(g, Some(o), Some(from), outer, inner);
      SetRecordWellFormed(d, r', Some(o), outer, inner);
      SetGroupWellFormed(t, Some(o), g', outer, inner);
    }
  }

  /** A moved record is set again in its own group, which takes the place of
      the old one. */
  lemma MoveRecordForm(t: Nested, o: string, from: string, to: string, outer: string, inner: string)
    requires GroupsValid(t) && outer != inner
    requires Lookup(t, Some(o), Some(from)).Some?
    requires Field(t.entries[Some(o)].entries[Some(from)], outer) == Some(o)
    ensures
      var g := t.entries[Some(o)];
      var r := g.entries[Some(from)][inner := to];
      MoveRecord(t, o, from, to, outer, inner) == OM.Set(t, Some(o), OM.Set(OM.Delete(g, Some(from)), Some(to), r))
  {
    var g := t.entries[Some(o)];
    var r := g.entries[Some(from)][inner := to];
    var d := OM.Delete(g, Some(from));
    var t1 := OM.Set(t, Some(o), d);
    assert Field(r, outer) == Some(o) && Field(r, inner) == Some(to);
    assert GroupOf(t1, Some(o)) == d;
    assert SetIn(t1, r, outer, inner) == OM.Set(t1, Some(o), OM.Set(d, Some(to), r));
    OM.SetTwice(t, Some(o), d, OM.Set(d, Some(to), r));
  }

  /** Lookups after replacing one group. */
  lemma SetInPlaceLookup(t: Nested, o: Key, g: Group)
    requires GroupsValid(t) && OM.Valid(g)
    ensures forall o', i' :: Lookup(OM.Set(t, o, g), o', i') == if o' == o then OM.Get(g, i') else Lookup(t, o', i')
  {
    var t' := OM.Set(t, o, g);
    forall o', i' ensures Lookup(t', o', i') == if o' == o then OM.Get(g, i') else Lookup(t, o', i') {
      if o' != o {
        assert OM.Get(t', o') == OM.Get(t, o');
      } else {
        assert OM.Get(t', o) == Some(g);
      }
    }
  }

  /** Deleting a record from a well-formed group keeps the rest keyed and tagged. */
  lemma DeleteRecordKeyed(g: Group, o: Key, i: Key, outer: string, inner: string)
    requires GroupWellFormed(g, o, outer, inner)
    ensures Indexing.KeyedBy(OM.Delete(g, i), inner)
    ensures forall i' :: i' in OM.Delete(g, i).entries ==> Field(OM.Delete(g, i).entries[i'], outer) == o
  {
    var d := OM.Delete(g, i);
    forall i' | i' in d.entries ensures d.entries[i'] == g.entries[i'] && i' in g.entries {
      assert OM.Get(d, i').Some? && i' != i;
      assert OM.Get(d, i') == OM.Get(g, i');
    }
  }

  /** Moving a record keeps the table well formed. */
  lemma MoveRecordWellFormed(t: Nested, o: string, from: string, to: string, outer: string, inner: string)
    requires WellFormed(t, outer, inner) && outer != inner
    ensures WellFormed(MoveRecord(t, o, from, to, outer, inner), outer, inner)
  {
    MoveRecordLookup(t, o, from, to, outer, inner);
  }

  /** Moving a record to a free inner key (or to its own) keeps the number of records. */
  lemma MoveRecordCount(t: Nested, o: string, from: string, to: string, outer: string, inner: string)
    requires WellFormed(t, outer, inner) && outer != inner
    requires Lookup(t, Some(o), Some(to)).None? || from == to
    ensures Count(MoveRecord(t, o, from, to, outer, inner)) == Count(t)
  {
    if Lookup(t, Some(o), Some(from)).Some? {
      var g := t.entries[Some(o)];
      var r := g.entries[Some(from)];
      var d := OM.Delete(g, Some(from));
      var g' := OM.Set(d, Some(to), r[inner := to]);
      assert Field(r, outer) == Some(o);
      MoveRecordForm(t, o, from, to, outer, inner);
      OM.RekeySize(g, Some(from), Some(to), r[inner := to]);
      var j :| 0 <= j < |t.keys| && t.keys[j] == Some(o);
      ReplaceGroupCount(t, j, g');
    }
  }
}

=== FILE: gtfs_schema.dfy ===
/** The fixed GTFS schema the store works with: field names, the ordered field
    list of every file, the file names and the string codes of the enumerations. */
module GtfsSchema {
  import opened Wrappers

  /** A record of any table: a flat mapping from field name to value. A field that
      is not set (JavaScript `undefined`) is simply absent from the map. */
  type Record = map<string, string>

  /** The key under which a table indexes a record. `None` stands for JavaScript
      `undefined`, which a `Map` accepts as a key like any other. */
  type Key = Option<string>

  /** `record[name]` in the source. */
  function Field(r: Record, name: string): Key {
    if name in r then Some(r[name]) else None
  }

  // agency.txt
  const AgencyFileName := "agency.txt"
  const AgencyIdField := "agency_id"
  const AgencyFields: seq<string> := ["agency_id", "agency_name", "agency_url", "agency_timezone",
                                     "agency_lang", "agency_phone", "agency_fare_url", "agency_email"]

  // stops.txt
  const StopFileName := "stops.txt"
  const StopIdField := "stop_id"
  const StopFields: seq<string> := ["stop_id", "stop_code", "stop_name", "stop_desc", "stop_lat", "stop_lon",
                                   "zone_id", "stop_url", "location_type", "parent_station", "stop_timezone",
                                   "wheelchair_boarding", "level_id", "platform_code"]

  // routes.txt
  const RouteFileName := "routes.txt"
  const RouteIdField := "route_id"
  const RouteFields: seq<string> := ["route_id", "agency_id", "route_short_name", "route_long_name", "route_desc",
                                    "route_type", "route_url", "route_color", "route_text_color", "route_sort_order",
                                    "continuous_pickup", "continuous_drop_off", "network_id"]
  const RouteTypeTram := "0"
  const RouteTypeSubway := "1"
  const RouteTypeRail := "2"
  const RouteTypeBus := "3"
  const RouteTypeFerry := "4"
  const RouteTypeCableCar := "5"
  const RouteTypeAerialLift := "6"
  const RouteTypeFunicular := "7"
  const RouteTypeTrolleybus := "11"
  const RouteTypeMonorail := "12"

  // trips.txt
  const TripFileName := "trips.txt"
  const TripIdField := "trip_id"
  const TripFields: seq<string> := ["route_id", "service_id", "trip_id", "trip_headsign", "trip_short_name",
                                   "direction_id", "block_id", "shape_id", "wheelchair_accessible", "bikes_allowed"]

  // stop_times.txt
  const StopTimeFileName := "stop_times.txt"
  const StopSequenceField := "stop_sequence"
  const StopTimeFields: seq<string> := ["trip_id", "arrival_time", "departure_time", "stop_id", "location_group_id",
                                       "location_id", "stop_sequence", "stop_headsign", "start_pickup_drop_off_window",
                                       "end_pickup_drop_off_window", "pickup_type", "drop_off_type", "continuous_pickup",
                                       "continuous_drop_off", "shape_dist_traveled", "timepoint",
                                       "pickup_booking_rule_id", "drop_off_booking_rule_id"]
  const PickupRegularlyScheduled := "0"
  const PickupNotAvailable := "1"
  const PickupPhone := "2"
  const PickupCoordinate := "3"
  const DropOffRegularlyScheduled := "0"
  const DropOffNotAvailable := "1"
  const DropOffPhone := "2"
  const DropOffCoordinate := "3"

  // calendar.txt
  const CalendarFileName := "calendar.txt"
  const ServiceIdField := "service_id"
  const StartDateField := "start_date"
  const EndDateField := "end_date"
  const WeekdayFields: seq<string> := ["monday", "tuesday", "wednesday", "thursday", "friday", "saturday", "sunday"]
  const CalendarFields: seq<string> := ["service_id", "monday", "tuesday", "wednesday", "thursday", "friday",
                                       "saturday", "sunday", "start_date", "end_date"]
  const ServiceAvailable := "1"
  const ServiceUnavailable := "0"

  // calendar_dates.txt
  const CalendarDateFileName := "calendar_dates.txt"
  const DateField := "date"
  const CalendarDateFields: seq<string> := ["service_id", "date", "exception_type"]
  const ExceptionAdded := "1"
  const ExceptionRemoved := "2"

  // shapes.txt
  const ShapeFileName := "shapes.txt"
  const ShapeIdField := "shape_id"
  const ShapeFields: seq<string> := ["shape_id", "shape_pt_lat", "shape_pt_lon", "shape_pt_sequence",
                                    "shape_dist_traveled"]

  // feed_info.txt
  const FeedInfoFileName := "feed_info.txt"
  const FeedPublisherNameField := "feed_publisher_name"
  const FeedPublisherUrlField := "feed_publisher_url"
  const FeedLangField := "feed_lang"
  const FeedStartDateField := "feed_start_date"
  const FeedEndDateField := "feed_end_date"
  const FeedVersionField := "feed_version"
  const FeedContactUrlField := "feed_contact_url"
  const FeedInfoFields: seq<string> := ["feed_publisher_name", "feed_publisher_url", "feed_lang", "default_lang",
                                       "feed_start_date", "feed_end_date", "feed_version", "feed_contact_email",
                                       "feed_contact_url"]

  /** The `GtfsFileName` enumeration: one member per file of the feed. */
  datatype GtfsFile = Agency | Stop | Route | Trip | StopTime | Calendar | CalendarDate | Shape | FeedInfo

  function FileName(f: GtfsFile): string {
    match f
    case Agency => AgencyFileName
    case Stop => StopFileName
    case Route => RouteFileName
    case Trip => TripFileName
    case StopTime => StopTimeFileName
    case Calendar => CalendarFileName
    case CalendarDate => CalendarDateFileName
    case Shape => ShapeFileName
    case FeedInfo => FeedInfoFileName
  }

  /** `GtfsFieldsByFileName`: the ordered header of every file. */
  function FieldsOf(f: GtfsFile): seq<string> {
    match f
    case Agency => AgencyFields
    case Stop => StopFields
    case Route => RouteFields
    case Trip => TripFields
    case StopTime => StopTimeFields
    case Calendar => CalendarFields
    case CalendarDate => CalendarDateFields
    case Shape => ShapeFields
    case FeedInfo => FeedInfoFields
  }
}

=== FILE: indexing.dfy ===
/** The single-key tables of the store (stops, routes, trips, calendars, shape
    points, and the agencies once there are several) and the bulk indexing that
    builds them: `indexByOneKey` folds `map.set(item[key], item)` over a list. */
module Indexing {
  import opened Wrappers
  import opened GtfsSchema
  import OM = OrderedMaps

  /** A `Map<string, Item>` of the store. */
  type Table = OM.OrderedMap<Key, Record>

  /** Every record of the table sits under the value of its own key field. */
  ghost predicate KeyedBy(t: Table, field: string) {
    && OM.Valid(t)
    && forall k :: k in t.entries ==> Field(t.entries[k], field) == k
  }

  /** The keys of a list of records, in list order. */
  function KeysOf(items: seq<Record>, field: string): (ks: seq<Key>)
    ensures |ks| == |items|
    ensures forall i :: 0 <= i < |items| ==> ks[i] == Field(items[i], field)
  {
    seq(|items|, i requires 0 <= i < |items| => Field(items[i], field))
  }

  /** `items.reduce((acc, item) => { acc.set(item[field], item); return acc; }, t)`:
      the items set one after the other, in list order. */
  function SetAll(t: Table, items: seq<Record>, field: string): (r: Table)
    requires OM.Valid(t)
    ensures OM.Valid(r)
    ensures OM.Size(r) <= OM.Size(t) + |items|
    decreases |items|
  {
    if items == [] then t
    else
      var last := items[|items| - 1];
      OM.Set(SetAll(t, items[..|items| - 1], field), Field(last, field), last)
  }

  /** One more item set after the first `k`. */
  lemma SetAllSnoc(t: Table, items: seq<Record>, field: string, k: nat)
    requires OM.Valid(t) && k < |items|
    ensures SetAll(t, items[..k + 1], field) == OM.Set(SetAll(t, items[..k], field), Field(items[k], field), items[k])
  {
    assert items[..k + 1][..k] == items[..k];
  }

  /** `indexByOneKey(items, field)`; a missing list indexes like the empty one. */
  function IndexByOneKey(items: seq<Record>, field: string): (r: Table)
    ensures OM.Valid(r)
  {
    SetAll(OM.Empty(), items, field)
  }

  /** The last record of the list whose key field is `k`, if any. */
  function LastWithKey(items: seq<Record>, field: string, k: Key): (r: Option<Record>)
    ensures r.Some? ==> r.value in items && Field(r.value, field) == k
    ensures r.None? <==> forall i :: 0 <= i < |items| ==> Field(items[i], field) != k
    decreases |items|
  {
    if items == [] then None
    else if Field(items[|items| - 1], field) == k then Some(items[|items| - 1])
    else LastWithKey(items[..|items| - 1], field, k)
  }

  /** Later records win: after bulk indexing, a key holds the last record of the
      list carrying it, and keys no record carries keep what the table had. */
  lemma {:induction false} SetAllGet(t: Table, items: seq<Record>, field: string, k: Key)
    requires OM.Valid(t)
    ensures OM.Get(SetAll(t, items, field), k)
         == if LastWithKey(items, field, k).Some? then LastWithKey(items, field, k) else OM.Get(t, k)
    decreases |items|
  {
    if items != [] {
      SetAllGet(t, items[..|items| - 1], field, k);
    }
  }

  /** Bulk indexing keeps every record under its own key. */
  lemma SetAllKeyed(t: Table, items: seq<Record>, field: string)
    requires KeyedBy(t, field)
    ensures KeyedBy(SetAll(t, items, field), field)
  {
    var r := SetAll(t, items, field);
    forall k | k in r.entries ensures Field(r.entries[k], field) == k {
      SetAllGet(t, items, field, k);
      assert OM.Get(r, k) == Some(r.entries[k]);
    }
  }

  /** A built index is keyed by the field it was built on. */
  lemma IndexByOneKeyKeyed(items: seq<Record>, field: string)
    ensures KeyedBy(IndexByOneKey(items, field), field)
  {
    SetAllKeyed(OM.Empty(), items, field);
  }

  /** A key is in the built index exactly when some record of the list carries it. */
  lemma IndexByOneKeyHas(items: seq<Record>, field: string, k: Key)
    ensures OM.Get(IndexByOneKey(items, field), k).Some?
        <==> exists i :: 0 <= i < |items| && Field(items[i], field) == k
  {
    SetAllGet(OM.Empty(), items, field, k);
  }

  /** With distinct keys, the key of the last record appears nowhere before it. */
  lemma LastKeyIsNew(items: seq<Record>, field: string)
    requires items != [] && OM.Distinct(KeysOf(items, field))
    ensures LastWithKey(items[..|items| - 1], field, Field(items[|items| - 1], field)).None?
    ensures OM.Distinct(KeysOf(items[..|items| - 1], field))
  {
    var n := |items| - 1;
    var ks := KeysOf(items, field);
    forall i | 0 <= i < n ensures Field(items[..n][i], field) != Field(items[n], field) {
      assert ks[i] != ks[n];
    }
    assert KeysOf(items[..n], field) == ks[..n];
  }

  /** When the list's keys are distinct and new to the table, bulk indexing
      appends every record, in list order, to the table's listing. */
  lemma {:induction false} SetAllFresh(t: Table, items: seq<Record>, field: string)
    requires OM.Valid(t)
    requires OM.Distinct(KeysOf(items, field))
    requires forall i :: 0 <= i < |items| ==> OM.Get(t, Field(items[i], field)).None?
    ensures SetAll(t, items, field).keys == t.keys + KeysOf(items, field)
    ensures OM.Values(SetAll(t, items, field)) == OM.Values(t) + items
    decreases |items|
  {
    if items != [] {
      var n := |items| - 1;
      var front, x := items[..n], items[n];
      var k := Field(x, field);
      LastKeyIsNew(items, field);
      assert forall i :: 0 <= i < |front| ==> front[i] == items[i];
      SetAllFresh(t, front, field);
      var r := SetAll(t, front, field);
      SetAllGet(t, front, field, k);
      OM.SetNewValues(r, k, x);
      SnocParts(items, field);
      AppendAssoc(t.keys, KeysOf(front, field), [k]);
      AppendAssoc(OM.Values(t), front, [x]);
    }
  }

  lemma AppendAssoc<T>(a: seq<T>, b: seq<T>, c: seq<T>)
    ensures (a + b) + c == a + (b + c)
  {
  }

  lemma SnocParts(items: seq<Record>, field: string)
    requires items != []
    ensures items == items[..|items| - 1] + [items[|items| - 1]]
    ensures KeysOf(items, field) == KeysOf(items[..|items| - 1], field) + [Field(items[|items| - 1], field)]
  {
  }

  /** The listing of an index built from records with distinct keys is the list itself. */
  lemma IndexByOneKeyValues(items: seq<Record>, field: string)
    requires OM.Distinct(KeysOf(items, field))
    ensures OM.Values(IndexByOneKey(items, field)) == items
  {
    SetAllFresh(OM.Empty(), items, field);
  }

  /** The listing of a keyed table carries the table's keys, in order: no two
      listed records share a key, and each is found under its own. */
  lemma ListingKeys(t: Table, field: string)
    requires KeyedBy(t, field)
    ensures KeysOf(OM.Values(t), field) == t.keys
    ensures forall j :: 0 <= j < OM.Size(t) ==> OM.Get(t, Field(OM.Values(t)[j], field)) == Some(OM.Values(t)[j])
  {
    var vs := OM.Values(t);
    forall j | 0 <= j < |vs| ensures Field(vs[j], field) == t.keys[j] {
      assert OM.Get(t, t.keys[j]) == Some(vs[j]);
    }
  }

  /** `update…IdWithoutUpdatingReferences`: when a record is stored under `from`,
      it is deleted there and set again under `to`; `rewrite` says whether its
      key field is changed to `to` on the way (stops, routes and calendars) or
      left as it was (trips). An unknown `from` changes nothing. */
  function Rekey(t: Table, from: string, to: string, field: string, rewrite: bool): (t': Table)
    requires OM.Valid(t)
    ensures OM.Valid(t')
  {
    if Some(from) in t.entries then
      var r := t.entries[Some(from)];
      OM.Set(OM.Delete(t, Some(from)), Some(to), if rewrite then r[field := to] else r)
    else t
  }

  /** After a re-key, the record is found under the new key, the old key is free,
      every other key is untouched and an unknown old key leaves the table as it was. */
  lemma RekeyGet(t: Table, from: string, to: string, field: string, rewrite: bool)
    requires OM.Valid(t)
    ensures Some(from) !in t.entries ==> Rekey(t, from, to, field, rewrite) == t
    ensures Some(from) in t.entries ==>
      OM.Get(Rekey(t, from, to, field, rewrite), Some(to))
        == Some(if rewrite then t.entries[Some(from)][field := to] else t.entries[Some(from)])
    ensures from != to ==> OM.Get(Rekey(t, from, to, field, rewrite), Some(from)) == None
    ensures forall k :: k != Some(from) && k != Some(to) ==> OM.Get(Rekey(t, from, to, field, rewrite), k) == OM.Get(t, k)
  {
  }

  /** Re-keying with the key field rewritten keeps every record under its own key. */
  lemma RekeyKeyed(t: Table, from: string, to: string, field: string)
    requires KeyedBy(t, field)
    ensures KeyedBy(Rekey(t, from, to, field, true), field)
  {
  }

  /** Re-keying to a key that is free (or to the same key) keeps the number of
      records and moves the record to the end of the listing. */
  lemma RekeyMovesToEnd(t: Table, from: string, to: string, field: string, rewrite: bool, j: nat)
    requires OM.Valid(t) && j < |t.keys| && t.keys[j] == Some(from)
    requires Some(to) !in t.entries || from == to
    ensures OM.Size(Rekey(t, from, to, field, rewrite)) == OM.Size(t)
    ensures OM.Values(Rekey(t, from, to, field, rewrite))
         == OM.Values(t)[..j] + OM.Values(t)[j + 1..]
            + [if rewrite then t.entries[Some(from)][field := to] else t.entries[Some(from)]]
  {
    var r := t.entries[Some(from)];
    OM.DeleteValues(t, Some(from), j);
    OM.SetNewValues(OM.Delete(t, Some(from)), Some(to), if rewrite then r[field := to] else r);
  }
}

=== FILE: ordered_maps.dfy ===
/** A JavaScript `Map`: a finite map that also remembers the order in which its
    keys were inserted. Setting a key that is already present keeps its
    position; deleting a key and setting it again moves it to the end. The
    store's tables and the values they list (`Array.from(map.values())`) follow
    this order. */
module OrderedMaps {
  import opened Wrappers

  datatype OrderedMap<K(==,!new), V> = OrderedMap(keys: seq<K>, entries: map<K, V>)

  ghost predicate Distinct<K(!new)>(s: seq<K>) {
    forall i, j :: 0 <= i < j < |s| ==> s[i] != s[j]
  }

  /** Every key appears once in the order, and the order lists exactly the keys of the map. */
  ghost predicate Valid<K(!new), V>(m: OrderedMap<K, V>) {
    && Distinct(m.keys)
    && (forall k :: k in m.entries <==> k in m.keys)
  }

  function Empty<K(==,!new), V>(): (m: OrderedMap<K, V>)
    ensures Valid(m) && Size(m) == 0
    ensures forall k :: Get(m, k) == None
  {
    OrderedMap([], map[])
  }

  /** `map.size` */
  function Size<K(==,!new), V>(m: OrderedMap<K, V>): nat {
    |m.keys|
  }

  /** `map.size` counts the distinct keys present. */
  lemma SizeCountsKeys<K(!new), V>(m: OrderedMap<K, V>)
    requires Valid(m)
    ensures Size(m) == |m.entries|
  {
    DistinctCount(m.keys, m.entries.Keys);
  }

  lemma {:induction false} DistinctCount<K(!new)>(s: seq<K>, ks: set<K>)
    requires Distinct(s)
    requires forall k :: k in ks <==> k in s
    ensures |ks| == |s|
  {
    if s == [] {
      assert ks == {};
    } else {
      var t := s[1..];
      assert s == [s[0]] + t;
      assert Distinct(t) by {
        forall i, j | 0 <= i < j < |t| ensures t[i] != t[j] {
          assert t[i] == s[i + 1] && t[j] == s[j + 1];
        }
      }
      assert s[0] !in t by {
        forall i | 0 <= i < |t| ensures t[i] != s[0] {
          assert t[i] == s[i + 1];
        }
      }
      DistinctCount(t, ks - {s[0]});
    }
  }

  /** `map.get(k)`: `None` for a key that is not present. */
  function Get<K(==,!new), V>(m: OrderedMap<K, V>, k: K): Option<V> {
    if k in m.entries then Some(m.entries[k]) else None
  }

  /** `map.set(k, v)` */
  function Set<K(==,!new), V>(m: OrderedMap<K, V>, k: K, v: V): (r: OrderedMap<K, V>)
    requires Valid(m)
    ensures Valid(r)
    ensures Get(r, k) == Some(v)
    ensures forall k' :: k' != k ==> Get(r, k') == Get(m, k')
    ensures Size(r) == if Get(m, k).None? then Size(m) + 1 else Size(m)
    ensures r.keys == if Get(m, k).None? then m.keys + [k] else m.keys
  {
    if k in m.entries then OrderedMap(m.keys, m.entries[k := v])
    else OrderedMap(m.keys + [k], m.entries[k := v])
  }

  /** The key order with `k` taken out. */
  function RemoveKey<K(==,!new)>(s: seq<K>, k: K): (r: seq<K>)
    ensures forall x :: x in r <==> x in s && x != k
  {
    if s == [] then []
    else if s[0] == k then RemoveKey(s[1..], k)
    else [s[0]] + RemoveKey(s[1..], k)
  }

  /** Removing a key that is not in the order changes nothing. */
  lemma {:induction false} RemoveAbsentKey<K(!new)>(s: seq<K>, k: K)
    requires k !in s
    ensures RemoveKey(s, k) == s
  {
    if s != [] {
      RemoveAbsentKey(s[1..], k);
    }
  }

  /** Removing a key keeps the order free of repetitions. */
  lemma {:induction false} RemoveKeyDistinct<K(!new)>(s: seq<K>, k: K)
    requires Distinct(s)
    ensures Distinct(RemoveKey(s, k))
  {
    if s != [] {
      RemoveKeyDistinct(s[1..], k);
      assert s[0] !in s[1..];
    }
  }

  /** In a key order without repetitions, removing a key removes exactly its one
      occurrence and leaves the others in order. */
  lemma {:induction false} RemoveKeyAt<K(!new)>(s: seq<K>, k: K, i: nat)
    requires Distinct(s)
    requires i < |s| && s[i] == k
    ensures RemoveKey(s, k) == s[..i] + s[i + 1..]
  {
    if i == 0 {
      assert k !in s[1..];
      RemoveAbsentKey(s[1..], k);
    } else {
      RemoveKeyAt(s[1..], k, i - 1);
      assert s[1..][..i - 1] == s[1..i];
      assert s[1..][i..] == s[i + 1..];
      assert s[..i] == [s[0]] + s[1..i];
    }
  }

  /** `map.delete(k)`: a no-op when `k` is absent. */
  function Delete<K(==,!new), V>(m: OrderedMap<K, V>, k: K): (r: OrderedMap<K, V>)
    requires Valid(m)
    ensures Valid(r)
    ensures Get(r, k) == None
    ensures forall k' :: k' != k ==> Get(r, k') == Get(m, k')
    ensures Size(r) == if Get(m, k).None? then Size(m) else Size(m) - 1
    ensures Get(m, k).None? ==> r == m
  {
    RemoveKeyDistinct(m.keys, k);
    if k in m.entries then
      var i :| 0 <= i < |m.keys| && m.keys[i] == k;
      RemoveKeyAt(m.keys, k, i);
      OrderedMap(RemoveKey(m.keys, k), m.entries - {k})
    else
      assert m.entries - {k} == m.entries;
      m
  }

  /** `Array.from(map.values())`: the values in key order. */
  function Values<K(==,!new), V>(m: OrderedMap<K, V>): (vs: seq<V>)
    requires Valid(m)
    ensures |vs| == Size(m)
    ensures forall i :: 0 <= i < |vs| ==> Get(m, m.keys[i]) == Some(vs[i])
  {
    seq(|m.keys|, i requires 0 <= i < |m.keys| => m.entries[m.keys[i]])
  }

  /** Setting a new key appends its value to the listing. */
  lemma SetNewValues<K(!new), V>(m: OrderedMap<K, V>, k: K, v: V)
    requires Valid(m) && Get(m, k).None?
    ensures Values(Set(m, k, v)) == Values(m) + [v]
  {
    var r := Set(m, k, v);
    forall i | 0 <= i < |m.keys| ensures Values(r)[i] == Values(m)[i] {
      assert m.keys[i] != k;
    }
  }

  /** Setting a present key replaces its value where it stands. */
  lemma SetPresentValues<K(!new), V>(m: OrderedMap<K, V>, k: K, v: V, i: nat)
    requires Valid(m) && i < |m.keys| && m.keys[i] == k
    ensures Values(Set(m, k, v)) == Values(m)[i := v]
  {
    var r := Set(m, k, v);
    forall j | 0 <= j < |m.keys| ensures Values(r)[j] == Values(m)[i := v][j] {
      if j != i {
        assert m.keys[j] != k;
      }
    }
  }

  /** Deleting a present key removes its value from the listing and keeps the
      others in order. */
  lemma DeleteValues<K(!new), V>(m: OrderedMap<K, V>, k: K, i: nat)
    requires Valid(m)
    requires i < |m.keys| && m.keys[i] == k
    ensures Delete(m, k).keys == m.keys[..i] + m.keys[i + 1..]
    ensures Values(Delete(m, k)) == Values(m)[..i] + Values(m)[i + 1..]
  {
    DeleteKeys(m, k, i);
    var r := Delete(m, k);
    var ws := Values(m);
    var vs := ws[..i] + ws[i + 1..];
    assert |Values(r)| == |vs|;
    forall j | 0 <= j < |vs| ensures Values(r)[j] == vs[j] {
      SkipIndex(m.keys, i, j);
      SkipIndex(ws, i, j);
    }
  }

  /** Deleting the key at position `i` takes position `i` out of the order. */
  lemma DeleteKeys<K(!new), V>(m: OrderedMap<K, V>, k: K, i: nat)
    requires Valid(m)
    requires i < |m.keys| && m.keys[i] == k
    ensures Delete(m, k).keys == m.keys[..i] + m.keys[i + 1..]
  {
    RemoveKeyAt(m.keys, k, i);
  }

  /** Position `j` of a sequence with position `i` taken out. */
  lemma SkipIndex<T>(s: seq<T>, i: nat, j: nat)
    requires i < |s| && j < |s| - 1
    ensures (s[..i] + s[i + 1..])[j] == if j < i then s[j] else s[j + 1]
  {
  }

  /** Moving a present entry to a key that is free (or its own) keeps the size. */
  lemma RekeySize<K(!new), V>(m: OrderedMap<K, V>, k: K, k': K, v: V)
    requires Valid(m) && k in m.entries
    requires k' !in m.entries || k' == k
    ensures Size(Set(Delete(m, k), k', v)) == Size(m)
  {
    assert Get(Delete(m, k), k').None?;
  }

  /** A key is present exactly when it is listed in the order. */
  lemma GetListed<K(!new), V>(m: OrderedMap<K, V>, k: K)
    requires Valid(m)
    ensures Get(m, k).Some? <==> k in m.keys
  {
  }

  /** Setting a key twice is setting it once, to the second value. */
  lemma SetTwice<K(!new), V>(m: OrderedMap<K, V>, k: K, v: V, w: V)
    requires Valid(m)
    ensures Set(Set(m, k, v), k, w) == Set(m, k, w)
  {
    assert m.entries[k := v][k := w] == m.entries[k := w];
  }

  /** The listing holds exactly the values stored under some key. */
  lemma ValuesMembers<K(!new), V>(m: OrderedMap<K, V>, x: V)
    requires Valid(m)
    ensures x in Values(m) <==> exists k :: Get(m, k) == Some(x)
  {
    if exists k :: Get(m, k) == Some(x) {
      var k :| Get(m, k) == Some(x);
      var j :| 0 <= j < |m.keys| && m.keys[j] == k;
      assert Values(m)[j] == x;
    }
  }
}

=== FILE: raw_gtfs.dfy ===
/** The in-memory GTFS store: one table per file of the feed, each a map keyed
    by the file's identifier (two-level for stop times and calendar dates), plus
    the agencies and the feed info. Every operation updates one table in place. */
module RawGtfsStore {
  import opened Wrappers
  import opened GtfsSchema
  import OM = OrderedMaps
  import Indexing
  import Grouped
  import Decimal
  import StopTimeOrder
  import Agencies

  /** The optional lists the store is built from. A list that is not given is
      the empty list: the source indexes both alike. */
  datatype PreGtfs = PreGtfs(
    agencies: seq<Record>,
    stops: seq<Record>,
    routes: seq<Record>,
    trips: seq<Record>,
    stopTimes: seq<Record>,
    calendars: seq<Record>,
    calendarDates: seq<Record>,
    shapes: seq<Record>,
    feedInfo: Option<Record>)

  const DefaultFeedPublisherName := "Placeholder publisher name"
  const DefaultFeedPublisherUrl := "http://placeholder-publisher-url.com"
  const DefaultFeedLang := "en"

  /** `ensureFeedInfo`: the given feed info, or one holding only the three
      required fields, set to placeholders. */
  function EnsureFeedInfo(feedInfo: Option<Record>): (r: Record)
    ensures feedInfo.Some? ==> r == feedInfo.value
    ensures feedInfo.None? ==>
      && r.Keys == {FeedPublisherNameField, FeedPublisherUrlField, FeedLangField}
      && Field(r, FeedPublisherNameField) == Some(DefaultFeedPublisherName)
      && Field(r, FeedPublisherUrlField) == Some(DefaultFeedPublisherUrl)
      && Field(r, FeedLangField) == Some(DefaultFeedLang)
  {
    match feedInfo
    case Some(f) => f
    case None =>
      map[FeedPublisherNameField := DefaultFeedPublisherName,
          FeedPublisherUrlField := DefaultFeedPublisherUrl,
          FeedLangField := DefaultFeedLang]
  }

  /** The calendar `setAndGetEverydayCalendar` starts from: service "everyday",
      running on all seven days from 2025-01-01 to 2124-12-31. */
  const EverydayDefaults: Record :=
    map[ServiceIdField := "everyday",
        "monday" := ServiceAvailable, "tuesday" := ServiceAvailable, "wednesday" := ServiceAvailable,
        "thursday" := ServiceAvailable, "friday" := ServiceAvailable, "saturday" := ServiceAvailable,
        "sunday" := ServiceAvailable,
        StartDateField := "20250101", EndDateField := "21241231"]

  /** `{ ...defaults, ...partialCalendar }`: the caller's fields win. */
  function EverydayCalendar(partial: Record): (c: Record)
    ensures c.Keys == partial.Keys + EverydayDefaults.Keys
    ensures forall f :: f in partial ==> c[f] == partial[f]
    ensures forall f :: f in EverydayDefaults && f !in partial ==> c[f] == EverydayDefaults[f]
  {
    EverydayDefaults + partial
  }

  /** Every weekday the caller leaves unset is available, and the calendar always
      has a service id and both dates. */
  lemma EverydayCalendarRunsDaily(partial: Record)
    ensures forall j :: 0 <= j < |WeekdayFields| && WeekdayFields[j] !in partial
              ==> Field(EverydayCalendar(partial), WeekdayFields[j]) == Some(ServiceAvailable)
    ensures Field(EverydayCalendar(partial), ServiceIdField).Some?
    ensures Field(EverydayCalendar(partial), StartDateField).Some?
    ensures Field(EverydayCalendar(partial), EndDateField).Some?
    ensures ServiceIdField !in partial ==> Field(EverydayCalendar(partial), ServiceIdField) == Some("everyday")
  {
    forall j | 0 <= j < |WeekdayFields| ensures WeekdayFields[j] in EverydayDefaults {
    }
  }

  /** `updateTripIdWithoutUpdatingReferences` moves the trip to the new key but
      leaves the trip's own `trip_id` as it was, so a keyed trip table stops
      being keyed by `trip_id`. */
  lemma UpdateTripKeepsOldTripId(t: Indexing.Table, from: string, to: string)
    requires Indexing.KeyedBy(t, TripIdField) && Some(from) in t.entries && from != to
    ensures OM.Get(Indexing.Rekey(t, from, to, TripIdField, false), Some(to)).Some?
    ensures Field(OM.Get(Indexing.Rekey(t, from, to, TripIdField, false), Some(to)).value, TripIdField) == Some(from)
    ensures !Indexing.KeyedBy(Indexing.Rekey(t, from, to, TripIdField, false), TripIdField)
  {
    Indexing.RekeyGet(t, from, to, TripIdField, false);
    var t' := Indexing.Rekey(t, from, to, TripIdField, false);
    assert Some(to) in t'.entries && Field(t'.entries[Some(to)], TripIdField) != Some(to);
  }

  lemma {:induction false} SumAtLeastLength(ns: seq<nat>)
    requires forall j :: 0 <= j < |ns| ==> ns[j] > 0
    ensures Grouped.Sum(ns) >= |ns|
    ensures Grouped.Sum(ns) == |ns| <==> forall j :: 0 <= j < |ns| ==> ns[j] == 1
  {
    if ns != [] {
      SumAtLeastLength(ns[1..]);
      if forall j :: 0 <= j < |ns[1..]| ==> ns[1..][j] == 1 {
        if ns[0] == 1 {
          forall j | 0 <= j < |ns| ensures ns[j] == 1 {
            if j > 0 {
              assert ns[j] == ns[1..][j - 1];
            }
          }
        }
      } else {
        var j :| 0 <= j < |ns[1..]| && ns[1..][j] != 1;
        assert ns[j + 1] != 1;
      }
    }
  }

  /** `getNumberOfCalendarDates` answers the number of services that have
      calendar dates, which is at most the number of calendar dates, and equal
      to it exactly when no service has two of them. */
  lemma GroupCountAtMostRecords(t: Grouped.Nested, outer: string, inner: string)
    requires Grouped.WellFormed(t, outer, inner)
    ensures OM.Size(t) <= Grouped.Count(t)
    ensures OM.Size(t) == Grouped.Count(t) <==> forall o :: o in t.entries ==> OM.Size(t.entries[o]) == 1
  {
    var ns := Grouped.Sizes(t);
    forall j | 0 <= j < |ns| ensures ns[j] > 0 {
      assert t.keys[j] in t.entries;
    }
    SumAtLeastLength(ns);
    if forall j :: 0 <= j < |ns| ==> ns[j] == 1 {
      forall o | o in t.entries ensures OM.Size(t.entries[o]) == 1 {
        var j :| 0 <= j < |t.keys| && t.keys[j] == o;
        assert ns[j] == 1;
      }
    }
  }

  /** Two calendar dates of one service on different dates make one group of
      two records: the service is counted once. */
  lemma SameServiceCountsOnce(d1: Record, d2: Record)
    requires Field(d1, ServiceIdField) == Field(d2, ServiceIdField)
    requires Field(d1, DateField) != Field(d2, DateField)
    ensures
      var t := Grouped.IndexByTwoKeys([d1, d2], ServiceIdField, DateField);
      OM.Size(t) == 1 && Grouped.Count(t) == 2
  {
    var items := [d1, d2];
    assert items[..1] == [d1] && items[..1][..0] == [];
    var t1 := Grouped.SetIn(OM.Empty(), d1, ServiceIdField, DateField);
    assert Grouped.SetEach(OM.Empty(), [d1], ServiceIdField, DateField) == t1;
    var t := Grouped.SetIn(t1, d2, ServiceIdField, DateField);
    assert Grouped.IndexByTwoKeys(items, ServiceIdField, DateField) == t;
    var o := Field(d1, ServiceIdField);
    FirstRecordGroup(d1, ServiceIdField, DateField);
    SecondRecordGroup(t1, d1, d2, ServiceIdField, DateField);
    OneGroupCount(t, o);
  }

  /** A table of a single group counts that group's records. */
  lemma OneGroupCount(t: Grouped.Nested, o: Key)
    requires Grouped.GroupsValid(t)
    requires t.keys == [o] && o in t.entries
    ensures Grouped.Count(t) == OM.Size(t.entries[o])
  {
    var n := OM.Size(t.entries[o]);
    assert Grouped.Sizes(t) == [n];
    assert Grouped.Sum([n]) == n + Grouped.Sum([]);
  }

  /** The first record set in an empty table makes a group of its own. */
  lemma FirstRecordGroup(r: Record, outer: string, inner: string)
    ensures
      var t := Grouped.SetIn(OM.Empty(), r, outer, inner);
      && t.keys == [Field(r, outer)]
      && Field(r, outer) in t.entries
      && t.entries[Field(r, outer)].keys == [Field(r, inner)]
  {
    var e: Grouped.Nested := OM.Empty();
    var o := Field(r, outer);
    var g := OM.Set(OM.Empty(), Field(r, inner), r);
    assert Grouped.GroupOf(e, o) == OM.Empty();
    assert Grouped.SetIn(e, r, outer, inner) == OM.Set(e, o, g);
  }

  /** A record of the same group under a new inner key is added to that group. */
  lemma SecondRecordGroup(t: Grouped.Nested, r1: Record, r2: Record, outer: string, inner: string)
    requires Grouped.GroupsValid(t)
    requires Field(r1, outer) == Field(r2, outer) && Field(r1, inner) != Field(r2, inner)
    requires t.keys == [Field(r1, outer)] && Field(r1, outer) in t.entries
    requires t.entries[Field(r1, outer)].keys == [Field(r1, inner)]
    ensures
      var t' := Grouped.SetIn(t, r2, outer, inner);
      && t'.keys == [Field(r1, outer)]
      && Field(r1, outer) in t'.entries
      && OM.Size(t'.entries[Field(r1, outer)]) == 2
  {
    var o := Field(r1, outer);
    var g := t.entries[o];
    assert Grouped.GroupOf(t, o) == g;
    assert OM.Get(g, Field(r2, inner)).None?;
    var g' := OM.Set(g, Field(r2, inner), r2);
    assert Grouped.SetIn(t, r2, outer, inner) == OM.Set(t, o, g');
  }

  /** Two calendar dates of one service count as one. */
  lemma CalendarDatesCountServices()
    ensures
      var d1: Record := map[ServiceIdField := "weekdays", DateField := "20250101"];
      var d2: Record := map[ServiceIdField := "weekdays", DateField := "20250102"];
      var t := Grouped.IndexByTwoKeys([d1, d2], ServiceIdField, DateField);
      OM.Size(t) == 1 && Grouped.Count(t) == 2
  {
    var d1: Record := map[ServiceIdField := "weekdays", DateField := "20250101"];
    var d2: Record := map[ServiceIdField := "weekdays", DateField := "20250102"];
    assert |ServiceIdField| == 10 && |DateField| == 4;
    assert Field(d1, DateField) == Some("20250101") && Field(d2, DateField) == Some("20250102");
    assert "20250101"[7] != "20250102"[7];
    SameServiceCountsOnce(d1, d2);
  }

  class RawGtfs {
    var agencies: Agencies.AgencyStore
    var stops: Indexing.Table
    var routes: Indexing.Table
    var trips: Indexing.Table
    var stopTimes: Grouped.Nested
    var calendars: Indexing.Table
    var calendarDates: Grouped.Nested
    var shapePoints: Indexing.Table
    var feedInfo: Record

    /** Every single-key table but the trips holds each record under its own id
        (a trip re-keyed without rewriting keeps its former `trip_id`); the
        two-level tables are well formed. */
    ghost predicate Valid()
      reads this
    {
      && Agencies.Valid(agencies)
      && Indexing.KeyedBy(stops, StopIdField)
      && Indexing.KeyedBy(routes, RouteIdField)
      && OM.Valid(trips)
      && Grouped.WellFormed(stopTimes, TripIdField, StopSequenceField)
      && Indexing.KeyedBy(calendars, ServiceIdField)
      && Grouped.WellFormed(calendarDates, ServiceIdField, DateField)
      && Indexing.KeyedBy(shapePoints, ShapeIdField)
    }

    constructor(pre: PreGtfs)
      ensures Valid()
      ensures agencies == Agencies.InitialAgencies(pre.agencies)
      ensures stops == Indexing.IndexByOneKey(pre.stops, StopIdField)
      ensures routes == Indexing.IndexByOneKey(pre.routes, RouteIdField)
      ensures trips == Indexing.IndexByOneKey(pre.trips, TripIdField)
      ensures stopTimes == Grouped.IndexByTwoKeys(pre.stopTimes, TripIdField, StopSequenceField)
      ensures calendars == Indexing.IndexByOneKey(pre.calendars, ServiceIdField)
      ensures calendarDates == Grouped.IndexByTwoKeys(pre.calendarDates, ServiceIdField, DateField)
      ensures shapePoints == Indexing.IndexByOneKey(pre.shapes, ShapeIdField)
      ensures feedInfo == EnsureFeedInfo(pre.feedInfo)
    {
      agencies := Agencies.InitialAgencies(pre.agencies);
      stops := Indexing.IndexByOneKey(pre.stops, StopIdField);
      routes := Indexing.IndexByOneKey(pre.routes, RouteIdField);
      trips := Indexing.IndexByOneKey(pre.trips, TripIdField);
      stopTimes := Grouped.IndexByTwoKeys(pre.stopTimes, TripIdField, StopSequenceField);
      calendars := Indexing.IndexByOneKey(pre.calendars, ServiceIdField);
      calendarDates := Grouped.IndexByTwoKeys(pre.calendarDates, ServiceIdField, DateField);
      shapePoints := Indexing.IndexByOneKey(pre.shapes, ShapeIdField);
      feedInfo := EnsureFeedInfo(pre.feedInfo);
      Indexing.IndexByOneKeyKeyed(pre.stops, StopIdField);
      Indexing.IndexByOneKeyKeyed(pre.routes, RouteIdField);
      Indexing.IndexByOneKeyKeyed(pre.calendars, ServiceIdField);
      Indexing.IndexByOneKeyKeyed(pre.shapes, ShapeIdField);
      Grouped.IndexByTwoKeysWellFormed(pre.stopTimes, TripIdField, StopSequenceField);
      Grouped.IndexByTwoKeysWellFormed(pre.calendarDates, ServiceIdField, DateField);
    }

    // -------------------------------------------------------------------------
    // agency.txt

    /** `setAgency`; a thrown error is returned instead and leaves the store as it was. */
    method SetAgency(agency: Record) returns (error: Option<Agencies.AgencyError>)
      requires Valid()
      modifies this`agencies
      ensures Valid()
      ensures Agencies.SetAgency(old(agencies), agency).Ok? ==>
                agencies == Agencies.SetAgency(old(agencies), agency).value && error.None?
      ensures Agencies.SetAgency(old(agencies), agency).Err? ==>
                agencies == old(agencies) && error == Some(Agencies.SetAgency(old(agencies), agency).error)
    {
      match Agencies.SetAgency(agencies, agency)
      case Ok(a) =>
        agencies := a;
        error := None;
      case Err(e) =>
        error := Some(e);
    }

    /** `setAgencies`: the loop stops at the first error. */
    method SetAgencies(list: seq<Record>) returns (error: Option<Agencies.AgencyError>)
      requires Valid()
      modifies this`agencies
      ensures Valid()
      ensures (agencies, error) == Agencies.SetAgencies(old(agencies), list)
    {
      error := None;
      var j := 0;
      while j < |list| && error.None?
        invariant 0 <= j <= |list|
        invariant Valid()
        invariant error.None? ==> Agencies.SetAgencies(agencies, list[j..]) == Agencies.SetAgencies(old(agencies), list)
        invariant error.Some? ==> (agencies, error) == Agencies.SetAgencies(old(agencies), list)
      {
        assert list[j..][1..] == list[j + 1..];
        error := SetAgency(list[j]);
        j := j + 1;
      }
      if error.None? {
        assert list[j..] == [];
      }
    }

    /** `getAgency` */
    function GetAgency(agencyId: Key): Result<Option<Record>, Agencies.AgencyError>
      reads this
      requires Valid()
    {
      Agencies.GetAgency(agencies, agencyId)
    }

    /** `getNumberOfAgencies` */
    function GetNumberOfAgencies(): nat
      reads this
      requires Valid()
    {
      Agencies.AgencyCount(agencies)
    }

    /** `buildArrayOfAgencies` */
    function BuildArrayOfAgencies(): seq<Record>
      reads this
      requires Valid()
    {
      Agencies.AgencyArray(agencies)
    }

    /** `updateAgency`; a thrown error is returned instead and leaves the store as it was. */
    method UpdateAgency(agency: Record) returns (error: Option<Agencies.AgencyError>)
      requires Valid()
      modifies this`agencies
      ensures Valid()
      ensures Agencies.UpdateAgency(old(agencies), agency).Ok? ==>
                agencies == Agencies.UpdateAgency(old(agencies), agency).value && error.None?
      ensures Agencies.UpdateAgency(old(agencies), agency).Err? ==>
                agencies == old(agencies) && error == Some(Agencies.UpdateAgency(old(agencies), agency).error)
    {
      match Agencies.UpdateAgency(agencies, agency)
      case Ok(a) =>
        agencies := a;
        error := None;
      case Err(e) =>
        error := Some(e);
    }

    // -------------------------------------------------------------------------
    // stops.txt

    /** `setStop` */
    method SetStop(stop: Record)
      requires Valid()
      modifies this`stops
      ensures Valid()
      ensures stops == OM.Set(old(stops), Field(stop, StopIdField), stop)
    {
      stops := OM.Set(stops, Field(stop, StopIdField), stop);
    }

    /** `getStop`: a stop found is the one whose `stop_id` was asked for. */
    function GetStop(stopId: string): (r: Option<Record>)
      reads this
      requires Valid()
      ensures r.Some? <==> Some(stopId) in stops.entries
      ensures r.Some? ==> Field(r.value, StopIdField) == Some(stopId)
    {
      OM.Get(stops, Some(stopId))
    }

    /** `getNumberOfStops` */
    function GetNumberOfStops(): nat
      reads this
    {
      OM.Size(stops)
    }

    /** `buildArrayOfStops`: one entry per stop, no two with the same `stop_id`,
        each the stop stored under its own id. */
    function BuildArrayOfStops(): (rs: seq<Record>)
      reads this
      requires Valid()
      ensures |rs| == GetNumberOfStops()
      ensures OM.Distinct(Indexing.KeysOf(rs, StopIdField))
      ensures forall j :: 0 <= j < |rs| ==> OM.Get(stops, Field(rs[j], StopIdField)) == Some(rs[j])
      ensures forall j :: 0 <= j < |rs| ==> OM.Get(stops, stops.keys[j]) == Some(rs[j])
    {
      Indexing.ListingKeys(stops, StopIdField);
      OM.Values(stops)
    }

    /** `updateStopIdOnStopWithoutUpdatingReferences` */
    method UpdateStopIdOnStopWithoutUpdatingReferences(oldStopId: string, newStopId: string)
      requires Valid()
      modifies this`stops
      ensures Valid()
      ensures stops == Indexing.Rekey(old(stops), oldStopId, newStopId, StopIdField, true)
    {
      Indexing.RekeyKeyed(stops, oldStopId, newStopId, StopIdField);
      if Some(oldStopId) in stops.entries {
        var stop := stops.entries[Some(oldStopId)];
        stops := OM.Delete(stops, Some(oldStopId));
        stops := OM.Set(stops, Some(newStopId), stop[StopIdField := newStopId]);
      }
    }

    /** `deleteStopWithoutDeletingReferences` */
    method DeleteStopWithoutDeletingReferences(stop: Record)
      requires Valid()
      modifies this`stops
      ensures Valid()
      ensures stops == OM.Delete(old(stops), Field(stop, StopIdField))
    {
      stops := OM.Delete(stops, Field(stop, StopIdField));
    }

    // -------------------------------------------------------------------------
    // routes.txt

    /** `setRoute` */
    method SetRoute(route: Record)
      requires Valid()
      modifies this`routes
      ensures Valid()
      ensures routes == OM.Set(old(routes), Field(route, RouteIdField), route)
    {
      routes := OM.Set(routes, Field(route, RouteIdField), route);
    }

    /** `getRoute`: a route found is the one whose `route_id` was asked for. */
    function GetRoute(routeId: string): (r: Option<Record>)
      reads this
      requires Valid()
      ensures r.Some? <==> Some(routeId) in routes.entries
      ensures r.Some? ==> Field(r.value, RouteIdField) == Some(routeId)
    {
      OM.Get(routes, Some(routeId))
    }

    /** `getNumberOfRoutes` */
    function GetNumberOfRoutes(): nat
      reads this
    {
      OM.Size(routes)
    }

    /** `buildArrayOfRoutes`: one entry per route, no two with the same `route_id`. */
    function BuildArrayOfRoutes(): (rs: seq<Record>)
      reads this
      requires Valid()
      ensures |rs| == GetNumberOfRoutes()
      ensures OM.Distinct(Indexing.KeysOf(rs, RouteIdField))
      ensures forall j :: 0 <= j < |rs| ==> OM.Get(routes, Field(rs[j], RouteIdField)) == Some(rs[j])
      ensures forall j :: 0 <= j < |rs| ==> OM.Get(routes, routes.keys[j]) == Some(rs[j])
    {
      Indexing.ListingKeys(routes, RouteIdField);
      OM.Values(routes)
    }

    /** `updateRouteIdOnRouteWithoutUpdatingReferences` */
    method UpdateRouteIdOnRouteWithoutUpdatingReferences(oldRouteId: string, newRouteId: string)
      requires Valid()
      modifies this`routes
      ensures Valid()
      ensures routes == Indexing.Rekey(old(routes), oldRouteId, newRouteId, RouteIdField, true)
    {
      Indexing.RekeyKeyed(routes, oldRouteId, newRouteId, RouteIdField);
      if Some(oldRouteId) in routes.entries {
        var route := routes.entries[Some(oldRouteId)];
        routes := OM.Delete(routes, Some(oldRouteId));
        routes := OM.Set(routes, Some(newRouteId), route[RouteIdField := newRouteId]);
      }
    }

    /** `deleteRouteWithoutDeletingReferences` */
    method DeleteRouteWithoutDeletingReferences(partialRoute: Record)
      requires Valid()
      modifies this`routes
      ensures Valid()
      ensures routes == OM.Delete(old(routes), Field(partialRoute, RouteIdField))
    {
      routes := OM.Delete(routes, Field(partialRoute, RouteIdField));
    }

    // -------------------------------------------------------------------------
    // trips.txt

    /** `setTrip` */
    method SetTrip(trip: Record)
      requires Valid()
      modifies this`trips
      ensures Valid()
      ensures trips == OM.Set(old(trips), Field(trip, TripIdField), trip)
    {
      trips := OM.Set(trips, Field(trip, TripIdField), trip);
    }

    /** `getTrip` */
    function GetTrip(tripId: string): (r: Option<Record>)
      reads this
      requires Valid()
      ensures r.Some? <==> Some(tripId) in trips.keys
    {
      OM.Get(trips, Some(tripId))
    }

    /** `getNumberOfTrips` */
    function GetNumberOfTrips(): nat
      reads this
    {
      OM.Size(trips)
    }

    /** `buildArrayOfTrips` */
    function BuildArrayOfTrips(): (rs: seq<Record>)
      reads this
      requires Valid()
      ensures |rs| == GetNumberOfTrips()
      ensures forall j :: 0 <= j < |rs| ==> OM.Get(trips, trips.keys[j]) == Some(rs[j])
    {
      OM.Values(trips)
    }

    /** `updateTripIdWithoutUpdatingReferences`: the trip moves to the new key
        with its `trip_id` left as it was. */
    method UpdateTripIdWithoutUpdatingReferences(oldTripId: string, newTripId: string)
      requires Valid()
      modifies this`trips
      ensures Valid()
      ensures trips == Indexing.Rekey(old(trips), oldTripId, newTripId, TripIdField, false)
    {
      if Some(oldTripId) in trips.entries {
        var trip := trips.entries[Some(oldTripId)];
        trips := OM.Delete(trips, Some(oldTripId));
        trips := OM.Set(trips, Some(newTripId), trip);
      }
    }

    /** `deleteTripWithoutDeletingReferences` */
    method DeleteTripWithoutDeletingReferences(partialTrip: Record)
      requires Valid()
      modifies this`trips
      ensures Valid()
      ensures trips == OM.Delete(old(trips), Field(partialTrip, TripIdField))
    {
      trips := OM.Delete(trips, Field(partialTrip, TripIdField));
    }

    // -------------------------------------------------------------------------
    // stop_times.txt

    /** `setStopTime` */
    method SetStopTime(stopTime: Record)
      requires Valid()
      modifies this`stopTimes
      ensures Valid()
      ensures stopTimes == Grouped.SetIn(old(stopTimes), stopTime, TripIdField, StopSequenceField)
    {
      Grouped.SetInWellFormed(stopTimes, stopTime, TripIdField, StopSequenceField);
      var tripId := Field(stopTime, TripIdField);
      var byTrip := stopTimes;
      if tripId !in byTrip.entries {
        byTrip := OM.Set(byTrip, tripId, OM.Empty());
      }
      Grouped.SetInSteps(stopTimes, byTrip, stopTime, TripIdField, StopSequenceField);
      var group := byTrip.entries[tripId];
      stopTimes := OM.Set(byTrip, tripId, OM.Set(group, Field(stopTime, StopSequenceField), stopTime));
    }

    /** `setStopTimes` */
    method SetStopTimes(list: seq<Record>)
      requires Valid()
      modifies this`stopTimes
      ensures Valid()
      ensures stopTimes == Grouped.SetEach(old(stopTimes), list, TripIdField, StopSequenceField)
    {
      var j := 0;
      while j < |list|
        invariant 0 <= j <= |list|
        invariant Valid()
        invariant stopTimes == Grouped.SetEach(old(stopTimes), list[..j], TripIdField, StopSequenceField)
      {
        Grouped.SetEachSnoc(old(stopTimes), list, TripIdField, StopSequenceField, j);
        SetStopTime(list[j]);
        j := j + 1;
      }
      assert list[..j] == list;
    }

    /** `getStopTime`: a stop time found carries the trip and sequence asked for. */
    function GetStopTime(tripId: string, stopSequence: string): (r: Option<Record>)
      reads this
      requires Valid()
      ensures r.Some? <==> Some(stopSequence) in Grouped.GroupOf(stopTimes, Some(tripId)).entries
      ensures r.Some? ==> Field(r.value, TripIdField) == Some(tripId) && Field(r.value, StopSequenceField) == Some(stopSequence)
    {
      Grouped.Lookup(stopTimes, Some(tripId), Some(stopSequence))
    }

    /** `buildArrayOfStopTimesOfTripId`: the trip's stop times in insertion order,
        each one found by its own sequence. */
    function BuildArrayOfStopTimesOfTripId(tripId: string): (rs: seq<Record>)
      reads this
      requires Valid()
      ensures |rs| == OM.Size(Grouped.GroupOf(stopTimes, Some(tripId)))
      ensures forall j :: 0 <= j < |rs| ==> Grouped.Lookup(stopTimes, Some(tripId), Grouped.GroupOf(stopTimes, Some(tripId)).keys[j]) == Some(rs[j])
      ensures forall j :: 0 <= j < |rs| ==> Field(rs[j], TripIdField) == Some(tripId)
      ensures forall j :: 0 <= j < |rs| ==> Field(rs[j], StopSequenceField).Some? ==>
                GetStopTime(tripId, Field(rs[j], StopSequenceField).value) == Some(rs[j])
    {
      BuildArrayOfStopTimesOfTrip(map[TripIdField := tripId])
    }

    /** `buildArrayOfStopTimesOfTrip`: by the trip's `trip_id`, which may be unset. */
    function BuildArrayOfStopTimesOfTrip(partialTrip: Record): (rs: seq<Record>)
      reads this
      requires Valid()
      ensures |rs| == OM.Size(Grouped.GroupOf(stopTimes, Field(partialTrip, TripIdField)))
      ensures forall j :: 0 <= j < |rs| ==>
                Grouped.Lookup(stopTimes, Field(partialTrip, TripIdField), Grouped.GroupOf(stopTimes, Field(partialTrip, TripIdField)).keys[j]) == Some(rs[j])
      ensures forall j :: 0 <= j < |rs| ==> Field(rs[j], TripIdField) == Field(partialTrip, TripIdField)
      ensures forall j :: 0 <= j < |rs| ==>
                Grouped.Lookup(stopTimes, Field(partialTrip, TripIdField), Field(rs[j], StopSequenceField)) == Some(rs[j])
    {
      var trip := Field(partialTrip, TripIdField);
      var rs := Grouped.GroupValues(stopTimes, trip);
      assert forall j :: 0 <= j < |rs| ==> Field(rs[j], StopSequenceField) == Grouped.GroupOf(stopTimes, trip).keys[j];
      rs
    }

    /** `buildOrderedStopTimesOfTripId`, for a trip whose stop sequences are all
        decimal numbers: the trip's stop times, in ascending order of their
        sequence numbers, those with the same number in their insertion order. */
    function BuildOrderedStopTimesOfTripId(tripId: string): (rs: seq<Record>)
      reads this
      requires Valid() && StopTimeOrder.DecimalTrip(stopTimes, Some(tripId))
      ensures StopTimeOrder.DecimalSequences(rs) && StopTimeOrder.Sorted(rs)
      ensures multiset(rs) == multiset(BuildArrayOfStopTimesOfTripId(tripId))
      ensures forall v :: StopTimeOrder.WithNumber(rs, v) == StopTimeOrder.WithNumber(BuildArrayOfStopTimesOfTripId(tripId), v)
    {
      var trip := BuildArrayOfStopTimesOfTripId(tripId);
      assert trip == Grouped.GroupValues(stopTimes, Some(tripId));
      StopTimeOrder.OrderedOfTripSorted(stopTimes, Some(tripId));
      StopTimeOrder.OrderedOfTripStable(stopTimes, Some(tripId));
      StopTimeOrder.OrderedOfTrip(stopTimes, Some(tripId))
    }

    /** `buildOrderedStopTimesOfTrip`: the same, by the trip's `trip_id`. */
    function BuildOrderedStopTimesOfTrip(partialTrip: Record): (rs: seq<Record>)
      reads this
      requires Valid() && StopTimeOrder.DecimalTrip(stopTimes, Field(partialTrip, TripIdField))
      ensures StopTimeOrder.DecimalSequences(rs) && StopTimeOrder.Sorted(rs)
      ensures multiset(rs) == multiset(BuildArrayOfStopTimesOfTrip(partialTrip))
      ensures forall v :: StopTimeOrder.WithNumber(rs, v) == StopTimeOrder.WithNumber(BuildArrayOfStopTimesOfTrip(partialTrip), v)
    {
      var trip := Field(partialTrip, TripIdField);
      StopTimeOrder.OrderedOfTripSorted(stopTimes, trip);
      StopTimeOrder.OrderedOfTripStable(stopTimes, trip);
      StopTimeOrder.OrderedOfTrip(stopTimes, trip)
    }

    /** `getNumberOfStopTimes` */
    method GetNumberOfStopTimes() returns (n: nat)
      requires Valid()
      ensures n == Grouped.Count(stopTimes)
    {
      n := Grouped.CountRecords(stopTimes);
    }

    /** `buildArrayOfStopTimes` */
    method BuildArrayOfStopTimes() returns (rs: seq<Record>)
      requires Valid()
      ensures rs == Grouped.Flatten(stopTimes)
    {
      rs := Grouped.CollectRecords(stopTimes);
    }

    /** `updateStopTimesTripIdWithoutUpdatingReferences`: the trip's group is
        removed and each of its stop times, retagged, is set again. */
    method UpdateStopTimesTripIdWithoutUpdatingReferences(oldTripId: string, newTripId: string)
      requires Valid()
      modifies this`stopTimes
      ensures Valid()
      ensures stopTimes == Grouped.MoveGroup(old(stopTimes), oldTripId, newTripId, TripIdField, StopSequenceField)
    {
      if Some(oldTripId) in stopTimes.entries {
        var group := stopTimes.entries[Some(oldTripId)];
        Grouped.DeleteGroupWellFormed(stopTimes, TripIdField, StopSequenceField, Some(oldTripId));
        stopTimes := OM.Delete(stopTimes, Some(oldTripId));
        SetRetaggedStopTimes(OM.Values(group), newTripId);
      }
    }

    /** The loop of `updateStopTimesTripIdWithoutUpdatingReferences`: each stop
        time of the removed group, in order, gets the new `trip_id` and is set again. */
    method SetRetaggedStopTimes(stopTimesOfTrip: seq<Record>, newTripId: string)
      requires Valid()
      modifies this`stopTimes
      ensures Valid()
      ensures stopTimes == Grouped.SetEach(old(stopTimes), Grouped.Retag(stopTimesOfTrip, TripIdField, newTripId), TripIdField, StopSequenceField)
    {
      ghost var base := stopTimes;
      ghost var items := Grouped.Retag(stopTimesOfTrip, TripIdField, newTripId);
      var k := 0;
      while k < |stopTimesOfTrip|
        invariant 0 <= k <= |stopTimesOfTrip|
        invariant Valid()
        invariant stopTimes == Grouped.SetEach(base, items[..k], TripIdField, StopSequenceField)
      {
        var stopTime := stopTimesOfTrip[k];
        assert items[k] == stopTime[TripIdField := newTripId];
        Grouped.SetEachSnoc(base, items, TripIdField, StopSequenceField, k);
        SetStopTime(stopTime[TripIdField := newTripId]);
        k := k + 1;
      }
      assert items[..k] == items;
    }

    /** `updateStopTimeStopSequenceWithoutUpdatingReferences`: the stop time
        moves to its new `stop_sequence` within its trip's group. */
    method UpdateStopTimeStopSequenceWithoutUpdatingReferences(tripId: string, oldStopSequence: string, newStopSequence: string)
      requires Valid()
      modifies this`stopTimes
      ensures Valid()
      ensures stopTimes == Grouped.MoveRecord(old(stopTimes), tripId, oldStopSequence, newStopSequence, TripIdField, StopSequenceField)
    {
      Grouped.MoveRecordWellFormed(stopTimes, tripId, oldStopSequence, newStopSequence, TripIdField, StopSequenceField);
      stopTimes := Grouped.MoveRecord(stopTimes, tripId, oldStopSequence, newStopSequence, TripIdField, StopSequenceField);
    }

    /** `deleteStopTimeWithoutDeletingReferences` */
    method DeleteStopTimeWithoutDeletingReferences(stopTime: Record)
      requires Valid()
      modifies this`stopTimes
      ensures Valid()
      ensures stopTimes == Grouped.DeleteIn(old(stopTimes), Field(stopTime, TripIdField), Field(stopTime, StopSequenceField))
    {
      Grouped.DeleteInWellFormed(stopTimes, TripIdField, StopSequenceField, Field(stopTime, TripIdField), Field(stopTime, StopSequenceField));
      stopTimes := Grouped.DeleteIn(stopTimes, Field(stopTime, TripIdField), Field(stopTime, StopSequenceField));
    }

    /** `deleteStopTimesOfTripIdWithoutDeletingReferences` */
    method DeleteStopTimesOfTripIdWithoutDeletingReferences(tripId: string)
      requires Valid()
      modifies this`stopTimes
      ensures Valid()
      ensures stopTimes == OM.Delete(old(stopTimes), Some(tripId))
    {
      stopTimes := OM.Delete(stopTimes, Some(tripId));
    }

    /** `reindexStopTimesOfTripId`, for a trip whose stop sequences are all decimal numbers. */
    method ReindexStopTimesOfTripId(tripId: string)
      requires Valid() && StopTimeOrder.DecimalTrip(stopTimes, Some(tripId))
      modifies this`stopTimes
      ensures Valid()
      ensures stopTimes == StopTimeOrder.Reindex(old(stopTimes), tripId)
    {
      var ordered := BuildOrderedStopTimesOfTripId(tripId);
      if |ordered| > 0 {
        DeleteStopTimesOfTripIdWithoutDeletingReferences(tripId);
        SetRenumberedStopTimes(ordered);
      }
    }

    /** The loop of `reindexStopTimesOfTripId`: each stop time, numbered by its
        position from 1, is set again. */
    method SetRenumberedStopTimes(ordered: seq<Record>)
      requires Valid()
      modifies this`stopTimes
      ensures Valid()
      ensures stopTimes == Grouped.SetEach(old(stopTimes), StopTimeOrder.Renumber(ordered), TripIdField, StopSequenceField)
    {
      ghost var items := StopTimeOrder.Renumber(ordered);
      var k := 0;
      while k < |ordered|
        invariant 0 <= k <= |ordered|
        invariant Valid()
        invariant stopTimes == Grouped.SetEach(old(stopTimes), items[..k], TripIdField, StopSequenceField)
      {
        assert items[k] == ordered[k][StopSequenceField := Decimal.FromNat(k + 1)];
        Grouped.SetEachSnoc(old(stopTimes), items, TripIdField, StopSequenceField, k);
        SetStopTime(ordered[k][StopSequenceField := Decimal.FromNat(k + 1)]);
        k := k + 1;
      }
      assert items[..k] == items;
    }

    // -------------------------------------------------------------------------
    // calendar.txt

    /** `setCalendar` */
    method SetCalendar(calendar: Record)
      requires Valid()
      modifies this`calendars
      ensures Valid()
      ensures calendars == OM.Set(old(calendars), Field(calendar, ServiceIdField), calendar)
    {
      calendars := OM.Set(calendars, Field(calendar, ServiceIdField), calendar);
    }

    /** `setCalendars` */
    method SetCalendars(list: seq<Record>)
      requires Valid()
      modifies this`calendars
      ensures Valid()
      ensures calendars == Indexing.SetAll(old(calendars), list, ServiceIdField)
    {
      var j := 0;
      while j < |list|
        invariant 0 <= j <= |list|
        invariant Valid()
        invariant calendars == Indexing.SetAll(old(calendars), list[..j], ServiceIdField)
      {
        Indexing.SetAllSnoc(old(calendars), list, ServiceIdField, j);
        SetCalendar(list[j]);
        j := j + 1;
      }
      assert list[..j] == list;
    }

    /** `setAndGetEverydayCalendar` */
    method SetAndGetEverydayCalendar(partialCalendar: Record) returns (calendar: Record)
      requires Valid()
      modifies this`calendars
      ensures Valid()
      ensures calendar == EverydayCalendar(partialCalendar)
      ensures calendars == OM.Set(old(calendars), Field(calendar, ServiceIdField), calendar)
    {
      calendar := EverydayCalendar(partialCalendar);
      SetCalendar(calendar);
    }

    /** `setEverydayCalendar` */
    method SetEverydayCalendar(partialCalendar: Record)
      requires Valid()
      modifies this`calendars
      ensures Valid()
      ensures calendars == OM.Set(old(calendars), Field(EverydayCalendar(partialCalendar), ServiceIdField), EverydayCalendar(partialCalendar))
    {
      var _ := SetAndGetEverydayCalendar(partialCalendar);
    }

    /** `getCalendar`: a calendar found is the one whose `service_id` was asked for. */
    function GetCalendar(serviceId: string): (r: Option<Record>)
      reads this
      requires Valid()
      ensures r.Some? <==> Some(serviceId) in calendars.entries
      ensures r.Some? ==> Field(r.value, ServiceIdField) == Some(serviceId)
    {
      OM.Get(calendars, Some(serviceId))
    }

    /** `getNumberOfCalendars` */
    function GetNumberOfCalendars(): nat
      reads this
    {
      OM.Size(calendars)
    }

    /** `buildArrayOfCalendars`: one entry per calendar, no two with the same `service_id`. */
    function BuildArrayOfCalendars(): (rs: seq<Record>)
      reads this
      requires Valid()
      ensures |rs| == GetNumberOfCalendars()
      ensures OM.Distinct(Indexing.KeysOf(rs, ServiceIdField))
      ensures forall j :: 0 <= j < |rs| ==> OM.Get(calendars, Field(rs[j], ServiceIdField)) == Some(rs[j])
      ensures forall j :: 0 <= j < |rs| ==> OM.Get(calendars, calendars.keys[j]) == Some(rs[j])
    {
      Indexing.ListingKeys(calendars, ServiceIdField);
      OM.Values(calendars)
    }

    /** `updateCalendarServiceIdWithoutUpdatingReferences` */
    method UpdateCalendarServiceIdWithoutUpdatingReferences(oldServiceId: string, newServiceId: string)
      requires Valid()
      modifies this`calendars
      ensures Valid()
      ensures calendars == Indexing.Rekey(old(calendars), oldServiceId, newServiceId, ServiceIdField, true)
    {
      Indexing.RekeyKeyed(calendars, oldServiceId, newServiceId, ServiceIdField);
      if Some(oldServiceId) in calendars.entries {
        var calendar := calendars.entries[Some(oldServiceId)];
        calendars := OM.Delete(calendars, Some(oldServiceId));
        SetCalendar(calendar[ServiceIdField := newServiceId]);
      }
    }

    /** `deleteCalendarWithoutDeletingReferences` */
    method DeleteCalendarWithoutDeletingReferences(calendar: Record)
      requires Valid()
      modifies this`calendars
      ensures Valid()
      ensures calendars == OM.Delete(old(calendars), Field(calendar, ServiceIdField))
    {
      calendars := OM.Delete(calendars, Field(calendar, ServiceIdField));
    }

    /** `deleteCalendarServiceIdWithoutDeletingReferences` */
    method DeleteCalendarServiceIdWithoutDeletingReferences(serviceId: string)
      requires Valid()
      modifies this`calendars
      ensures Valid()
      ensures calendars == OM.Delete(old(calendars), Some(serviceId))
    {
      calendars := OM.Delete(calendars, Some(serviceId));
    }

    // -------------------------------------------------------------------------
    // calendar_dates.txt

    /** `setCalendarDate` */
    method SetCalendarDate(calendarDate: Record)
      requires Valid()
      modifies this`calendarDates
      ensures Valid()
      ensures calendarDates == Grouped.SetIn(old(calendarDates), calendarDate, ServiceIdField, DateField)
    {
      Grouped.SetInWellFormed(calendarDates, calendarDate, ServiceIdField, DateField);
      var serviceId := Field(calendarDate, ServiceIdField);
      var byService := calendarDates;
      if serviceId !in byService.entries {
        byService := OM.Set(byService, serviceId, OM.Empty());
      }
      Grouped.SetInSteps(calendarDates, byService, calendarDate, ServiceIdField, DateField);
      var group := byService.entries[serviceId];
      calendarDates := OM.Set(byService, serviceId, OM.Set(group, Field(calendarDate, DateField), calendarDate));
    }

    /** `setCalendarDates` */
    method SetCalendarDates(list: seq<Record>)
      requires Valid()
      modifies this`calendarDates
      ensures Valid()
      ensures calendarDates == Grouped.SetEach(old(calendarDates), list, ServiceIdField, DateField)
    {
      var j := 0;
      while j < |list|
        invariant 0 <= j <= |list|
        invariant Valid()
        invariant calendarDates == Grouped.SetEach(old(calendarDates), list[..j], ServiceIdField, DateField)
      {
        Grouped.SetEachSnoc(old(calendarDates), list, ServiceIdField, DateField, j);
        SetCalendarDate(list[j]);
        j := j + 1;
      }
      assert list[..j] == list;
    }

    /** `getCalendarDate`: a calendar date found carries the service and date asked for. */
    function GetCalendarDate(serviceId: string, date: string): (r: Option<Record>)
      reads this
      requires Valid()
      ensures r.Some? <==> Some(date) in Grouped.GroupOf(calendarDates, Some(serviceId)).entries
      ensures r.Some? ==> Field(r.value, ServiceIdField) == Some(serviceId) && Field(r.value, DateField) == Some(date)
    {
      Grouped.Lookup(calendarDates, Some(serviceId), Some(date))
    }

    /** `getNumberOfCalendarDates`: the number of services with calendar dates,
        not the number of calendar dates. */
    function GetNumberOfCalendarDates(): (n: nat)
      reads this
      requires Valid()
      ensures n <= Grouped.Count(calendarDates)
      ensures n == |calendarDates.keys|
    {
      GroupCountAtMostRecords(calendarDates, ServiceIdField, DateField);
      OM.Size(calendarDates)
    }

    /** `buildArrayOfCalendarDates` */
    method BuildArrayOfCalendarDates() returns (rs: seq<Record>)
      requires Valid()
      ensures rs == Grouped.Flatten(calendarDates)
    {
      rs := Grouped.CollectRecords(calendarDates);
    }

    /** `updateCalendarDateServiceIdWithoutUpdatingReferences` */
    method UpdateCalendarDateServiceIdWithoutUpdatingReferences(oldServiceId: string, newServiceId: string)
      requires Valid()
      modifies this`calendarDates
      ensures Valid()
      ensures calendarDates == Grouped.MoveGroup(old(calendarDates), oldServiceId, newServiceId, ServiceIdField, DateField)
    {
      if Some(oldServiceId) in calendarDates.entries {
        var group := calendarDates.entries[Some(oldServiceId)];
        Grouped.DeleteGroupWellFormed(calendarDates, ServiceIdField, DateField, Some(oldServiceId));
        calendarDates := OM.Delete(calendarDates, Some(oldServiceId));
        SetRetaggedCalendarDates(OM.Values(group), newServiceId);
      }
    }

    /** The loop of `updateCalendarDateServiceIdWithoutUpdatingReferences`: each
        calendar date of the removed group, in order, gets the new `service_id`
        and is set again. */
    method SetRetaggedCalendarDates(datesOfService: seq<Record>, newServiceId: string)
      requires Valid()
      modifies this`calendarDates
      ensures Valid()
      ensures calendarDates == Grouped.SetEach(old(calendarDates), Grouped.Retag(datesOfService, ServiceIdField, newServiceId), ServiceIdField, DateField)
    {
      ghost var base := calendarDates;
      ghost var items := Grouped.Retag(datesOfService, ServiceIdField, newServiceId);
      var k := 0;
      while k < |datesOfService|
        invariant 0 <= k <= |datesOfService|
        invariant Valid()
        invariant calendarDates == Grouped.SetEach(base, items[..k], ServiceIdField, DateField)
      {
        var calendarDate := datesOfService[k];
        assert items[k] == calendarDate[ServiceIdField := newServiceId];
        Grouped.SetEachSnoc(base, items, ServiceIdField, DateField, k);
        SetCalendarDate(calendarDate[ServiceIdField := newServiceId]);
        k := k + 1;
      }
      assert items[..k] == items;
    }

    /** `deleteCalendarDateWithoutDeletingReferences` */
    method DeleteCalendarDateWithoutDeletingReferences(calendarDate: Record)
      requires Valid()
      modifies this`calendarDates
      ensures Valid()
      ensures calendarDates == Grouped.DeleteIn(old(calendarDates), Field(calendarDate, ServiceIdField), Field(calendarDate, DateField))
    {
      Grouped.DeleteInWellFormed(calendarDates, ServiceIdField, DateField, Field(calendarDate, ServiceIdField), Field(calendarDate, DateField));
      calendarDates := Grouped.DeleteIn(calendarDates, Field(calendarDate, ServiceIdField), Field(calendarDate, DateField));
    }

    // -------------------------------------------------------------------------
    // shapes.txt

    /** `setShapePoint`: one point per `shape_id`, a later point replacing an earlier one. */
    method SetShapePoint(shapePoint: Record)
      requires Valid()
      modifies this`shapePoints
      ensures Valid()
      ensures shapePoints == OM.Set(old(shapePoints), Field(shapePoint, ShapeIdField), shapePoint)
    {
      shapePoints := OM.Set(shapePoints, Field(shapePoint, ShapeIdField), shapePoint);
    }

    /** `setShapePoints` */
    method SetShapePoints(list: seq<Record>)
      requires Valid()
      modifies this`shapePoints
      ensures Valid()
      ensures shapePoints == Indexing.SetAll(old(shapePoints), list, ShapeIdField)
    {
      var j := 0;
      while j < |list|
        invariant 0 <= j <= |list|
        invariant Valid()
        invariant shapePoints == Indexing.SetAll(old(shapePoints), list[..j], ShapeIdField)
      {
        Indexing.SetAllSnoc(old(shapePoints), list, ShapeIdField, j);
        SetShapePoint(list[j]);
        j := j + 1;
      }
      assert list[..j] == list;
    }

    /** `getShapePoint`: a point found is one of the shape asked for. */
    function GetShapePoint(shapeId: string): (r: Option<Record>)
      reads this
      requires Valid()
      ensures r.Some? <==> Some(shapeId) in shapePoints.entries
      ensures r.Some? ==> Field(r.value, ShapeIdField) == Some(shapeId)
    {
      OM.Get(shapePoints, Some(shapeId))
    }

    /** `getNumberOfShapePoints`: the number of shapes, one point each. */
    function GetNumberOfShapePoints(): nat
      reads this
    {
      OM.Size(shapePoints)
    }

    /** `buildArrayOfShapePoints`: no two points of the same shape. */
    function BuildArrayOfShapePoints(): (rs: seq<Record>)
      reads this
      requires Valid()
      ensures |rs| == GetNumberOfShapePoints()
      ensures OM.Distinct(Indexing.KeysOf(rs, ShapeIdField))
      ensures forall j :: 0 <= j < |rs| ==> OM.Get(shapePoints, Field(rs[j], ShapeIdField)) == Some(rs[j])
      ensures forall j :: 0 <= j < |rs| ==> OM.Get(shapePoints, shapePoints.keys[j]) == Some(rs[j])
    {
      Indexing.ListingKeys(shapePoints, ShapeIdField);
      OM.Values(shapePoints)
    }

    // -------------------------------------------------------------------------
    // feed_info.txt

    /** `getFeedInfo` */
    function GetFeedInfo(): Record
      reads this
    {
      feedInfo
    }

    /** `setFeedStartDate` */
    method SetFeedStartDate(feedStartDate: string)
      modifies this`feedInfo
      ensures feedInfo == old(feedInfo)[FeedStartDateField := feedStartDate]
    {
      feedInfo := feedInfo[FeedStartDateField := feedStartDate];
    }

    /** `getFeedStartDate` */
    function GetFeedStartDate(): Key
      reads this
    {
      Field(feedInfo, FeedStartDateField)
    }

    /** `setFeedEndDate` */
    method SetFeedEndDate(feedEndDate: string)
      modifies this`feedInfo
      ensures feedInfo == old(feedInfo)[FeedEndDateField := feedEndDate]
    {
      feedInfo := feedInfo[FeedEndDateField := feedEndDate];
    }

    /** `getFeedEndDate` */
    function GetFeedEndDate(): Key
      reads this
    {
      Field(feedInfo, FeedEndDateField)
    }

    /** `setFeedVersion` */
    method SetFeedVersion(feedVersion: string)
      modifies this`feedInfo
      ensures feedInfo == old(feedInfo)[FeedVersionField := feedVersion]
    {
      feedInfo := feedInfo[FeedVersionField := feedVersion];
    }

    /** `getFeedVersion` */
    function GetFeedVersion(): Key
      reads this
    {
      Field(feedInfo, FeedVersionField)
    }

    /** `setFeedContactUrl` */
    method SetFeedContactUrl(feedContactUrl: string)
      modifies this`feedInfo
      ensures feedInfo == old(feedInfo)[FeedContactUrlField := feedContactUrl]
    {
      feedInfo := feedInfo[FeedContactUrlField := feedContactUrl];
    }

    /** `getFeedContactUrl` */
    function GetFeedContactUrl(): Key
      reads this
    {
      Field(feedInfo, FeedContactUrlField)
    }
  }
}

=== FILE: stop_time_order.dfy ===
/** Ordering and renumbering the stop times of one trip.
    `buildOrderedStopTimesOfTripId` sorts a trip's stop times by the numeric value
    of their `stop_sequence` with `Array.prototype.sort`, which is stable;
    `reindexStopTimesOfTripId` then renumbers them "1", "2", ... in that order. */
module StopTimeOrder {
  import opened Wrappers
  import opened GtfsSchema
  import OM = OrderedMaps
  import Indexing
  import Grouped
  import Decimal

  predicate HasDecimalSequence(r: Record) {
    StopSequenceField in r && Decimal.IsDecimal(r[StopSequenceField])
  }

  /** Every record carries a decimal `stop_sequence`. */
  predicate DecimalSequences(rs: seq<Record>) {
    forall j :: 0 <= j < |rs| ==> HasDecimalSequence(rs[j])
  }

  /** `Number(stopTime.stop_sequence)` */
  function SequenceNumber(r: Record): nat
    requires HasDecimalSequence(r)
  {
    Decimal.Value(r[StopSequenceField])
  }

  predicate Sorted(rs: seq<Record>)
    requires DecimalSequences(rs)
  {
    forall j, k :: 0 <= j < k < |rs| ==> SequenceNumber(rs[j]) <= SequenceNumber(rs[k])
  }

  /** The records whose sequence number is `v`, in their order. */
  function WithNumber(rs: seq<Record>, v: nat): seq<Record>
    requires DecimalSequences(rs)
  {
    if rs == [] then []
    else if SequenceNumber(rs[0]) == v then [rs[0]] + WithNumber(rs[1..], v)
    else WithNumber(rs[1..], v)
  }

  /** Puts `x` in front of the first record whose number is not smaller. */
  function Insert(x: Record, s: seq<Record>): (r: seq<Record>)
    requires HasDecimalSequence(x) && DecimalSequences(s)
    ensures DecimalSequences(r)
    ensures multiset(r) == multiset(s) + multiset{x}
  {
    if s == [] then [x]
    else if SequenceNumber(x) <= SequenceNumber(s[0]) then [x] + s
    else
      assert s == [s[0]] + s[1..];
      [s[0]] + Insert(x, s[1..])
  }

  /** A bound below `x` and below every record of `s` is below every record
      after the insertion. */
  lemma {:induction false} InsertLowerBound(x: Record, s: seq<Record>, v: nat)
    requires HasDecimalSequence(x) && DecimalSequences(s)
    requires v <= SequenceNumber(x) && forall j :: 0 <= j < |s| ==> v <= SequenceNumber(s[j])
    ensures forall j :: 0 <= j < |Insert(x, s)| ==> v <= SequenceNumber(Insert(x, s)[j])
  {
    if s != [] && SequenceNumber(x) > SequenceNumber(s[0]) {
      var rest := Insert(x, s[1..]);
      InsertLowerBound(x, s[1..], v);
      assert Insert(x, s) == [s[0]] + rest;
    }
  }

  /** Inserting into ordered stop times keeps them ordered. */
  lemma {:induction false} InsertSorted(x: Record, s: seq<Record>)
    requires HasDecimalSequence(x) && DecimalSequences(s) && Sorted(s)
    ensures Sorted(Insert(x, s))
  {
    if s != [] && SequenceNumber(x) > SequenceNumber(s[0]) {
      var tail := s[1..];
      assert Sorted(tail);
      InsertSorted(x, tail);
      InsertLowerBound(x, tail, SequenceNumber(s[0]));
      var rest := Insert(x, tail);
      assert Insert(x, s) == [s[0]] + rest;
    }
  }

  /** The comparator `(a, b) => Number(a.stop_sequence) - Number(b.stop_sequence)`
      under a stable sort. */
  function SortBySequence(rs: seq<Record>): (r: seq<Record>)
    requires DecimalSequences(rs)
    ensures DecimalSequences(r)
  {
    if rs == [] then [] else Insert(rs[0], SortBySequence(rs[1..]))
  }

  /** The sort orders the stop times and keeps every one of them. */
  lemma {:induction false} SortBySequenceSorted(rs: seq<Record>)
    requires DecimalSequences(rs)
    ensures multiset(SortBySequence(rs)) == multiset(rs)
    ensures Sorted(SortBySequence(rs))
  {
    if rs != [] {
      assert rs == [rs[0]] + rs[1..];
      SortBySequenceSorted(rs[1..]);
      InsertSorted(rs[0], SortBySequence(rs[1..]));
    }
  }

  /** Inserting `x` puts it ahead of every record with the same number. */
  lemma {:induction false} InsertWithNumber(x: Record, s: seq<Record>, v: nat)
    requires HasDecimalSequence(x) && DecimalSequences(s)
    ensures WithNumber(Insert(x, s), v) == if SequenceNumber(x) == v then [x] + WithNumber(s, v) else WithNumber(s, v)
  {
    if s != [] && SequenceNumber(x) > SequenceNumber(s[0]) {
      InsertWithNumber(x, s[1..], v);
      assert ([s[0]] + Insert(x, s[1..]))[1..] == Insert(x, s[1..]);
    } else if s != [] {
      assert ([x] + s)[1..] == s;
    }
  }

  /** The sort is stable: records with equal numbers keep their relative order. */
  lemma {:induction false} SortStable(rs: seq<Record>, v: nat)
    requires DecimalSequences(rs)
    ensures WithNumber(SortBySequence(rs), v) == WithNumber(rs, v)
  {
    if rs != [] {
      SortStable(rs[1..], v);
      InsertWithNumber(rs[0], SortBySequence(rs[1..]), v);
    }
  }

  /** Stop times that are already in order are left as they are. */
  lemma {:induction false} SortedUnchanged(rs: seq<Record>)
    requires DecimalSequences(rs) && Sorted(rs)
    ensures SortBySequence(rs) == rs
  {
    if rs != [] {
      SortedUnchanged(rs[1..]);
      assert Sorted(rs[1..]);
    }
  }

  /** `stopTime.stop_sequence = String(index + 1)` for every index of the list. */
  function Renumber(rs: seq<Record>): (r: seq<Record>)
    ensures |r| == |rs|
  {
    seq(|rs|, j requires 0 <= j < |rs| => rs[j][StopSequenceField := Decimal.FromNat(j + 1)])
  }

  /** Renumbered stop times carry the numbers 1, 2, ..., n in list order, so
      they are in order. */
  lemma RenumberNumbers(rs: seq<Record>)
    ensures DecimalSequences(Renumber(rs))
    ensures forall j :: 0 <= j < |rs| ==> SequenceNumber(Renumber(rs)[j]) == j + 1
    ensures Sorted(Renumber(rs))
  {
    forall j | 0 <= j < |rs| ensures HasDecimalSequence(Renumber(rs)[j]) && SequenceNumber(Renumber(rs)[j]) == j + 1 {
      Decimal.ValueOfFromNat(j + 1);
    }
  }

  /** The keys "1", "2", ..., "n". */
  function Numbered(n: nat): (ks: seq<Key>)
    ensures |ks| == n
  {
    seq(n, j requires 0 <= j < n => Some(Decimal.FromNat(j + 1)))
  }

  lemma NumberedDistinct(n: nat)
    ensures OM.Distinct(Numbered(n))
  {
    forall j, k | 0 <= j < k < n ensures Numbered(n)[j] != Numbered(n)[k] {
      Decimal.FromNatInjective(j + 1, k + 1);
    }
  }

  /** Renumbered records are keyed "1".."n" in list order. */
  lemma RenumberKeys(rs: seq<Record>)
    ensures Indexing.KeysOf(Renumber(rs), StopSequenceField) == Numbered(|rs|)
  {
  }

  type StopTimes = Grouped.Nested

  /** The trip's stop times all carry decimal sequences. */
  ghost predicate DecimalTrip(t: StopTimes, trip: Key)
    requires Grouped.GroupsValid(t)
  {
    DecimalSequences(Grouped.GroupValues(t, trip))
  }

  /** `buildOrderedStopTimesOfTripId` */
  function OrderedOfTrip(t: StopTimes, trip: Key): (rs: seq<Record>)
    requires Grouped.GroupsValid(t) && DecimalTrip(t, trip)
    ensures DecimalSequences(rs)
  {
    SortBySequence(Grouped.GroupValues(t, trip))
  }

  /** A trip's ordered stop times are its stop times, in ascending order of
      their sequence numbers. */
  lemma OrderedOfTripSorted(t: StopTimes, trip: Key)
    requires Grouped.GroupsValid(t) && DecimalTrip(t, trip)
    ensures Sorted(OrderedOfTrip(t, trip))
    ensures multiset(OrderedOfTrip(t, trip)) == multiset(Grouped.GroupValues(t, trip))
  {
    SortBySequenceSorted(Grouped.GroupValues(t, trip));
  }

  /** Stop times of the trip with the same sequence number keep their insertion order. */
  lemma OrderedOfTripStable(t: StopTimes, trip: Key)
    requires Grouped.GroupsValid(t) && DecimalTrip(t, trip)
    ensures forall v :: WithNumber(OrderedOfTrip(t, trip), v) == WithNumber(Grouped.GroupValues(t, trip), v)
  {
    forall v ensures WithNumber(OrderedOfTrip(t, trip), v) == WithNumber(Grouped.GroupValues(t, trip), v) {
      SortStable(Grouped.GroupValues(t, trip), v);
    }
  }

  /** `reindexStopTimesOfTripId`: when the trip has stop times, its group is
      dropped and the ordered stop times are set again, renumbered from "1". */
  function Reindex(t: StopTimes, tripId: string): (t': StopTimes)
    requires Grouped.GroupsValid(t) && DecimalTrip(t, Some(tripId))
    ensures Grouped.GroupsValid(t')
  {
    var ordered := OrderedOfTrip(t, Some(tripId));
    if |ordered| > 0 then
      Grouped.SetEach(OM.Delete(t, Some(tripId)), Renumber(ordered), TripIdField, StopSequenceField)
    else t
  }

  /** Every record of a trip's ordered stop times belongs to that trip. */
  lemma OrderedOfTripMembers(t: StopTimes, trip: Key)
    requires Grouped.WellFormed(t, TripIdField, StopSequenceField) && DecimalTrip(t, trip)
    ensures forall j :: 0 <= j < |OrderedOfTrip(t, trip)| ==> Field(OrderedOfTrip(t, trip)[j], TripIdField) == trip
  {
    var vs := Grouped.GroupValues(t, trip);
    var ordered := OrderedOfTrip(t, trip);
    OrderedOfTripSorted(t, trip);
    forall j | 0 <= j < |ordered| ensures Field(ordered[j], TripIdField) == trip {
      assert ordered[j] in multiset(vs);
      var k :| 0 <= k < |vs| && vs[k] == ordered[j];
      assert Grouped.Lookup(t, trip, Grouped.GroupOf(t, trip).keys[k]) == Some(vs[k]);
    }
  }

  /** Renumbering leaves the trip of every ordered stop time alone. */
  lemma RenumberedMembers(t: StopTimes, tripId: string)
    requires Grouped.WellFormed(t, TripIdField, StopSequenceField) && DecimalTrip(t, Some(tripId))
    ensures forall j :: 0 <= j < |Renumber(OrderedOfTrip(t, Some(tripId)))| ==>
              Field(Renumber(OrderedOfTrip(t, Some(tripId)))[j], TripIdField) == Some(tripId)
  {
    var ordered := OrderedOfTrip(t, Some(tripId));
    var items := Renumber(ordered);
    OrderedOfTripMembers(t, Some(tripId));
    forall j | 0 <= j < |items| ensures Field(items[j], TripIdField) == Some(tripId) {
      assert Field(ordered[j], TripIdField) == Some(tripId);
    }
  }

  /** An unknown trip is left alone. */
  lemma ReindexUnknown(t: StopTimes, tripId: string)
    requires Grouped.GroupsValid(t) && Some(tripId) !in t.entries
    ensures DecimalTrip(t, Some(tripId)) && Reindex(t, tripId) == t
  {
  }

  /** The trip's group, rebuilt from the renumbered stop times, is keyed
      "1".."n" and lists them in order. */
  lemma RenumberedGroup(t: StopTimes, tripId: string)
    requires Grouped.WellFormed(t, TripIdField, StopSequenceField) && DecimalTrip(t, Some(tripId))
    requires Some(tripId) in t.entries
    ensures var ordered := OrderedOfTrip(t, Some(tripId));
            var g := Indexing.SetAll(OM.Empty(), Renumber(ordered), StopSequenceField);
            && |ordered| == OM.Size(t.entries[Some(tripId)]) > 0
            && Reindex(t, tripId) == OM.Set(OM.Delete(t, Some(tripId)), Some(tripId), g)
            && g.keys == Numbered(|ordered|)
            && OM.Values(g) == Renumber(ordered)
  {
    var o := Some(tripId);
    var ordered := OrderedOfTrip(t, o);
    var items := Renumber(ordered);
    assert |ordered| == |Grouped.GroupValues(t, o)| by {
      OrderedOfTripSorted(t, o);
      assert |multiset(ordered)| == |multiset(Grouped.GroupValues(t, o))|;
    }
    RenumberedMembers(t, tripId);
    Grouped.SetEachOneGroup(OM.Delete(t, o), items, TripIdField, StopSequenceField, o);
    RenumberKeys(ordered);
    NumberedDistinct(|ordered|);
    Indexing.SetAllFresh(OM.Empty(), items, StopSequenceField);
    assert OM.Values(OM.Empty<Key, Record>()) == [];
  }

  /** Reindexing a trip keeps the number of stop times. */
  lemma ReindexCount(t: StopTimes, tripId: string)
    requires Grouped.WellFormed(t, TripIdField, StopSequenceField) && DecimalTrip(t, Some(tripId))
    ensures Grouped.Count(Reindex(t, tripId)) == Grouped.Count(t)
  {
    var o := Some(tripId);
    if o in t.entries {
      RenumberedGroup(t, tripId);
      var n := |OrderedOfTrip(t, o)|;
      var g := Indexing.SetAll(OM.Empty(), Renumber(OrderedOfTrip(t, o)), StopSequenceField);
      var d := OM.Delete(t, o);
      var r := OM.Set(d, o, g);
      assert Reindex(t, tripId) == r;
      assert OM.Size(g) == n;
      Grouped.AddGroupCount(d, o, g);
      assert Grouped.Count(r) == Grouped.Count(d) + n;
      var j :| 0 <= j < |t.keys| && t.keys[j] == o;
      Grouped.RemoveGroupCount(t, j);
      assert Grouped.Count(d) + n == Grouped.Count(t);
    } else {
      ReindexUnknown(t, tripId);
    }
  }

  /** Reindexing a trip moves its group to the end of the trips, keys it
      "1".."n" and lists the renumbered stop times in ascending order of their
      former sequence numbers. */
  lemma ReindexShape(t: StopTimes, tripId: string)
    requires Grouped.WellFormed(t, TripIdField, StopSequenceField) && DecimalTrip(t, Some(tripId))
    requires Some(tripId) in t.entries
    ensures Reindex(t, tripId).keys == OM.RemoveKey(t.keys, Some(tripId)) + [Some(tripId)]
    ensures Grouped.GroupOf(Reindex(t, tripId), Some(tripId)).keys == Numbered(|OrderedOfTrip(t, Some(tripId))|)
    ensures Grouped.GroupValues(Reindex(t, tripId), Some(tripId)) == Renumber(OrderedOfTrip(t, Some(tripId)))
  {
    RenumberedGroup(t, tripId);
  }

  /** Reindexing a trip leaves the other trips' stop times untouched. */
  lemma ReindexOthers(t: StopTimes, tripId: string, o: Key, i: Key)
    requires Grouped.WellFormed(t, TripIdField, StopSequenceField) && DecimalTrip(t, Some(tripId))
    requires o != Some(tripId)
    ensures Grouped.Lookup(Reindex(t, tripId), o, i) == Grouped.Lookup(t, o, i)
  {
    if Some(tripId) in t.entries {
      RenumberedGroup(t, tripId);
      var d := OM.Delete(t, Some(tripId));
      var g := Indexing.SetAll(OM.Empty(), Renumber(OrderedOfTrip(t, Some(tripId))), StopSequenceField);
      var r := OM.Set(d, Some(tripId), g);
      assert Reindex(t, tripId) == r;
      assert OM.Get(r, o) == OM.Get(d, o);
      assert OM.Get(d, o) == OM.Get(t, o);
      assert (o in r.entries) == (o in t.entries);
    } else {
      ReindexUnknown(t, tripId);
    }
  }

  /** Reindexing keeps the stop-time table well formed. */
  lemma ReindexWellFormed(t: StopTimes, tripId: string)
    requires Grouped.WellFormed(t, TripIdField, StopSequenceField) && DecimalTrip(t, Some(tripId))
    ensures Grouped.WellFormed(Reindex(t, tripId), TripIdField, StopSequenceField)
  {
    var ordered := OrderedOfTrip(t, Some(tripId));
    if |ordered| > 0 {
      Grouped.SetEachWellFormed(OM.Delete(t, Some(tripId)), Renumber(ordered), TripIdField, StopSequenceField);
    }
  }
}

=== FILE: wrappers.dfy ===
/** Optional values and results with an error, used wherever the store answers
    "not found" (JavaScript `undefined`) or throws. */
module Wrappers {

  datatype Option<+T> = None | Some(value: T) {
    /** The value, or `default` when there is none (JavaScript `x ?? default`). */
    function GetOr(default: T): T {
      match this
      case Some(v) => v
      case None => default
    }
  }

  datatype Result<+T, +E> = Ok(value: T) | Err(error: E)
}
